=== FILE: README.md ===
# Tienda en línea — a Dafny model of the storefront's logic

This project models the client-side logic of a small React storefront: the
product catalog and its browsing page (search, filters, sorting, paging), the
checkout store and the three-step checkout page, the card-entry widget, the
order list, sign-in and registration, password changes, reviews and votes,
the address book, subscriptions, recommendations, public lists, the product
form, the administrator's panel, the global input validation, and the keyword
chat assistant. Each source file or area is one Dafny module; state that the
application keeps in React state or in the browser's storage is an immutable
datatype, and each handler is a pure function from the old state to the new.

Shared pieces:
- `Options` holds `Option`, and `Lists` the filter and first-match helpers.
- `Text` models JavaScript's whitespace set, `trim`, case mapping, `includes`
  and digit filters.
- `Sorting` is an insertion sort by key that is proved to be a permutation in
  key order and stable, as JavaScript's `Array.prototype.sort` is.
- `Regex` is a small anchored regular-expression matcher. It is enough for
  every pattern the forms use.

Inputs the program takes from the outside world become parameters:
- the clock (`now`);
- the answers to `confirm` and `prompt`;
- the random choice of a chat answer;
- JavaScript's number parsers and the URL parser;
- month arithmetic on dates.

Where the written description of the system and the code disagree, the model
follows the code. The description promises a stable sort on the product page.
The page's comparator never returns 0, so the model promises only key order
and a permutation, with no tie-break.

## Model

| member | source | states |
|---|---|---|
| Lists.FirstWhere | src/context/AuthContext.jsx:49 | `Array.find`: the index found satisfies the test and no earlier element does; none is found exactly when no element passes |
| Lists.Filter | src/pages/Products.jsx:33-42 | `Array.filter`: every kept element passes, and each element occurs as often as in the input when it passes and not at all otherwise |
| Lists.FilterIsSubsequence | src/pages/Products.jsx:33-42 | the kept elements are the input with the others left out, in the input's order |
| Lists.FilterKeepsOrder | src/context/RecommendationContext.jsx:56 | filtering a list ordered by some key leaves it ordered by that key |
| Text.TrimEmptyIffBlank | src/pages/Checkout.jsx:70-74 | `s.trim()` is empty exactly when every character of `s` is JavaScript whitespace |
| Text.TrimHasNoOuterSpace | src/pages/AdminPanel.jsx:151 | a trimmed name neither starts nor ends with whitespace |
| Text.LowerHasNoAsciiUpper | src/components/ChatBot.jsx:55 | a lower-cased text contains no ASCII capital |
| Text.ContainsIffAt | src/pages/Products.jsx:35-36 | `includes` holds exactly when the substring occurs at some position |
| Text.BeforeFirstAt | src/pages/Login.jsx:51 | `email.split('@')[0]` is the prefix before the first '@', and it contains no '@' |
| Sorting.SortByKey | src/pages/Products.jsx:43-66 | the sorted list is a permutation of its input, ordered by the key in the chosen direction |
| Sorting.SortByKeyStable | src/pages/Products.jsx:43-66 | the sort is stable: the elements with any one key come out in their input order |
| Sorting.StrLeTotal | src/pages/Products.jsx:57-64 | any two lower-cased names are comparable |
| Sorting.StrLeTrans | src/pages/Products.jsx:57-64 | string comparison is transitive, so sorting by name is well defined |
| Catalog.MaxPrice | src/pages/Products.jsx:70 | the highest price is an upper bound that some product attains; an empty list has none |
| Catalog.CatalogIds | src/data/products.jsx:1-313 | the catalog has thirty products with ids 1 to 30 in order, all distinct |
| Catalog.CatalogSales | src/data/products.jsx:1-313 | the products on sale are exactly ids 9, 10, 20, 23, 26 and 30; these are exactly the ones with an original price, which exceeds the current price |
| Catalog.CatalogRatings | src/data/products.jsx:1-313 | every rating lies between 4.1 and 4.9 |
| Catalog.CatalogPriceBounds | src/data/products.jsx:1-313 | every price lies between 0 and 899.99, and the first product costs 899.99 |
| Catalog.CatalogMaxPrice | src/data/products.jsx:5 | the highest catalog price is 899.99, inside the default range [0, 1000] |
| Catalog.CatalogCategories | src/data/products.jsx:1-313 | the catalog uses exactly six categories |
| Query.Filter | src/pages/Products.jsx:33-42 | the listed products are exactly the catalog's products that match the search text in the name or description, the category, the price range and the minimum rating, with their multiplicities |
| Query.Matches | src/pages/Products.jsx:33-42 | a product passes when its lower-cased name or description contains the lower-cased search, the category is empty or equal, the price lies in the range and the rating reaches the minimum |
| Query.Filtered | src/pages/Products.jsx:33-66 | the page's list is a permutation of the matching products, ordered by the chosen key and direction |
| Query.EmptySearchAndCategoryConstrainNothing | src/pages/Products.jsx:35-37 | an empty search text and an empty category reject nothing; only price and rating decide |
| Query.InvertedRangeIsEmpty | src/pages/Products.jsx:38 | a price range whose minimum exceeds its maximum lists nothing |
| Query.Visible | src/pages/Products.jsx:68 | the shown products are the first `page * 8` of the filtered ones, or all of them |
| Query.HasMore | src/pages/Products.jsx:79-82 | more products remain when fewer are shown than passed the filter |
| Query.VisiblePrefix | src/pages/Products.jsx:69-82 | the shown products are a prefix of the filtered ones, `page * 8` long at most; more remain exactly when that bound is below the filtered count |
| Query.VisibleGrows | src/pages/Products.jsx:69 | a later page shows everything an earlier one did, plus at most eight more |
| Query.BeginLoad | src/pages/Products.jsx:99-103 | a load request does nothing while loading or when the stored flag says nothing remains; otherwise it raises the loading flag and keeps the page |
| Query.CompleteLoad | src/pages/Products.jsx:105-108 | when the delayed load finishes the page grows by one and loading stops; the flag is not touched |
| Query.LoadOncePerRequest | src/pages/Products.jsx:99-109 | a permitted load adds exactly one page, and a second request during it adds nothing |
| Query.LoadKeepsVisible | src/pages/Products.jsx:99-109 | loading never hides a product that was shown |
| Query.ApplyEdit | src/pages/Products.jsx:72-82 | changing any criterion (and any setting of the price range) returns to page 1 and leaves the effect having seen the page-1 lengths; the flag tells whether more remain unless neither render changed a length the effect last saw, in which case the reset leaves it true; an edit that changes nothing changes nothing |
| Query.EditCriteria | src/pages/Products.jsx:133-141 | each control sets its own criterion and keeps the others; clearing restores the initial criteria with the given maximum price |
| Query.Observe | src/pages/Products.jsx:79-82 | the length effect records the lengths of the current render and, when they differ from what it last saw, stores whether more remain; otherwise nothing changes |
| Query.ObserveSyncs | src/pages/Products.jsx:79-82 | when the stored flag agrees with the lengths the effect last saw (or it saw none), the state after the effect is synced: the flag tells whether more remain |
| Query.Open | src/pages/Products.jsx:18-20 | on opening, the page is on page 1, not loading, with the default criteria, and the flag tells whether more remain |
| Query.FinishLoad | src/pages/Products.jsx:105-108 | finishing a load moves one page on and clears loading; a flag that agreed with the effect keeps the page synced |
| Query.Rerender | src/pages/Products.jsx:72-82 | the two renders after a criteria change end on page 1 and, when the flag agreed with the effect, synced |
| Query.ApplyEditFixed | src/pages/Products.jsx:73-77 | with the reset not touching the flag, every edit keeps a synced page synced and leaves a changed page synced |
| Query.FixedLoadsOnlyWhenMoreRemain | src/pages/Products.jsx:84-103 | with the corrected reset, after any edit on a synced page a load starts exactly when more products remain, and finishing it keeps the page synced |
| Query.SortOrderKeepsCount | src/pages/Products.jsx:33-66 | flipping the sort direction lists the same number of products |
| Query.SortToggleLeavesStaleFlag | src/pages/Products.jsx:72-82 | as written, on a synced page 1 showing everything, flipping the sort direction leaves the flag true, a load starts, and afterwards the flag is still true with nothing more to show |
| Query.ClearFiltersRestoresDefaults | src/pages/Products.jsx:133-141 | the catalog's highest price is 899.99, and clearing the filters restores the initial criteria with that price as the top of the range, on page 1 |
| Query.FilterBounds | src/pages/Products.jsx:33-42 | with no search text or category and a range covering [0, 899.99], a minimum rating up to 4 lists every product rated 4.1 to 4.9 and a minimum of 5 lists none |
| Query.CatalogFilterBounds | src/pages/Products.jsx:33-42 | the same for the shipped catalog |
| Query.FilteredKeepsAll | src/pages/Products.jsx:33-66 | when every product matches, the sorted list keeps them all |
| Query.OpeningPage | src/pages/Products.jsx:7-20 | on opening, the shipped catalog shows 8 of its 30 products, the flag says more remain, and one load shows 16 |
| CheckoutContext.UpdateShippingAddress | src/context/CheckoutContext.jsx:32-34 | every supplied address field replaces the stored one, the others and the rest of the checkout stay |
| CheckoutContext.UpdateCardData | src/context/CheckoutContext.jsx:36-38 | every supplied card field replaces the stored one, the others and the rest of the checkout stay |
| CheckoutContext.UpdatesIdempotent | src/context/CheckoutContext.jsx:32-38 | applying the same update twice equals applying it once |
| CheckoutContext.Last4 | src/context/CheckoutContext.jsx:48 | `slice(-4)` is the last four characters, or the whole string when shorter, and it is a suffix of the number |
| CheckoutContext.Details | src/context/CheckoutContext.jsx:47-53 | the order records card details exactly for the card method, with the number's last four characters; any other method records the PayPal e-mail |
| CheckoutContext.PlaceOrder | src/context/CheckoutContext.jsx:40-66 | the new order goes in front of the history, which is otherwise unchanged; its id and date are the time of placing; it carries the items, total, address, method and details, the status "processing" and a delivery date one week later |
| PaymentMethod.Grouped | src/components/PaymentMethod.jsx:30 | grouping keeps the first and last digit and is empty only for no digits |
| PaymentMethod.GroupedLayout | src/components/PaymentMethod.jsx:30 | in a grouped number every fifth character is a space and every other one a digit |
| PaymentMethod.QuadSpacedIsGrouped | src/components/PaymentMethod.jsx:30 | the replacement adds a space after each group of four, so it ends in a space exactly when the digit count is a positive multiple of four |
| PaymentMethod.TrimQuadSpaced | src/components/PaymentMethod.jsx:30 | trimming the spaced digits leaves groups of four joined by single spaces |
| PaymentMethod.FormatNumber | src/components/PaymentMethod.jsx:26-32 | the number field keeps the typed digits, at most sixteen, spaced in fours and trimmed (its layout is stated by the next rows) |
| PaymentMethod.FormatNumberIsGrouped | src/components/PaymentMethod.jsx:27-31 | the stored number is the first sixteen typed digits, grouped in fours |
| PaymentMethod.GroupedDigits | src/components/PaymentMethod.jsx:74 | removing the spaces from a grouped number gives back its digits |
| PaymentMethod.FormatNumberIdempotent | src/components/PaymentMethod.jsx:27-31 | formatting an already formatted number leaves it unchanged |
| PaymentMethod.FormatNumberComplete | src/components/PaymentMethod.jsx:74 | the stored number has sixteen digits exactly when at least sixteen were typed |
| PaymentMethod.FormatExpiry | src/components/PaymentMethod.jsx:33-44 | the stored expiry has the `MM/YY` shape exactly when four digits were typed; with fewer it holds just the digits |
| PaymentMethod.WithoutSlashes | src/components/PaymentMethod.jsx:19 | removing slashes leaves no slash |
| PaymentMethod.ExpiryViewRoundTrip | src/components/PaymentMethod.jsx:15-19 | the input shows back exactly the digits the handler kept, at most four |
| PaymentMethod.ExpiryLengthIffShape | src/pages/Checkout.jsx:90 | every expiry the widget stores has length 5 exactly when it has the `MM/YY` shape |
| PaymentMethod.FormatCvc | src/components/PaymentMethod.jsx:45-49 | the CVC is a prefix of the typed digits, at most four long |
| PaymentMethod.FormatName | src/components/PaymentMethod.jsx:50-54 | the stored name is the upper-cased input with every character that is not a letter, an accented Spanish letter or whitespace dropped: exactly those characters, in order, with their multiplicities |
| PaymentMethod.FormatNameIdempotent | src/components/PaymentMethod.jsx:50-54 | re-typing a stored name leaves it unchanged |
| PaymentMethod.HandleCardInput | src/components/PaymentMethod.jsx:22-58 | a card input stores its own field formatted by that field's rule (number, name, expiry, CVC) and changes nothing else of the checkout |
| PaymentMethod.TypedCard | src/components/PaymentMethod.jsx:22-58 | typing into the four inputs stores the formatted number, name, expiry and CVC |
| PaymentMethod.CardEntryValid | src/components/PaymentMethod.jsx:60-87 | typing sixteen digits, a non-blank name, four expiry digits and three CVC digits makes the card valid |
| PaymentMethod.IsCardDataValid | src/components/PaymentMethod.jsx:60-87 | a card is valid when its number has sixteen characters besides whitespace, its trimmed name is not empty, its expiry is two digits, a slash and two digits, and its CVC has at least three characters |
| PaymentMethod.CanProceed | src/components/PaymentMethod.jsx:95-108 | the card method needs a valid card, PayPal a well-formed e-mail, cash nothing; an unknown method never proceeds |
| PaymentMethod.ChangeMethod | src/components/PaymentMethod.jsx:110-115 | choosing cash while cash is disabled keeps the current method; any other choice is taken |
| PaymentMethod.CashUnreachable | src/components/PaymentMethod.jsx:110-115 | with cash disabled, no sequence of choices reaches cash from another method |
| PaymentMethod.ChangeAll | src/components/PaymentMethod.jsx:110-115 | after a run of choices the method is the start or one of the choices; with cash allowed it is the last choice, and with cash disabled it is cash only if it started as cash |
| Checkout.CalculateTotals | src/pages/Checkout.jsx:43-64 | a subscription costs its plan price with no shipping or tax; a product order pays the cart, 9.99 shipping up to 50 and 16% tax |
| Checkout.TotalMonotoneOnEachSide | src/pages/Checkout.jsx:56-62 | on the same side of the free-shipping line a dearer cart never pays less |
| Checkout.TotalsExamples | src/pages/Checkout.jsx:56-62 | a cart of 45 pays 62.19 and a cart of 60 pays 69.60 |
| Checkout.ValidateStep1 | src/pages/Checkout.jsx:68-78 | the complaints are about exactly the blank address fields; the country is never checked |
| Checkout.Step1ErrorsAreBlankFields | src/pages/Checkout.jsx:68-78 | step 1 passes exactly when no required field is blank |
| Checkout.ValidateStep2 | src/pages/Checkout.jsx:80-99 | cash never passes for a subscription; otherwise a card needs sixteen number characters besides whitespace, a name that is not blank, a five-character expiry and a CVC of three characters or more, PayPal a well-formed e-mail, cash always passes and any other method never does |
| Checkout.Step2AgreesWithWidget | src/pages/Checkout.jsx:80-99 | on every expiry the widget can store, the page's length check equals the widget's shape check |
| Checkout.Step2LooserThanWidget | src/pages/Checkout.jsx:90 | a five-character expiry that is not `MM/YY` passes the page but not the widget |
| Checkout.ArriveAsWritten | src/pages/Checkout.jsx:30-40 | arriving from the plans page with cash selected throws; otherwise the order type and plan are recorded |
| Checkout.ArriveAsWrittenCrashes | src/pages/Checkout.jsx:37 | a customer who chose cash earlier and then buys a plan reaches the throwing call |
| Checkout.Arrive | src/pages/Checkout.jsx:30-40 | the intended arrival records the plan and switches cash to the card, leaving everything else |
| Checkout.ArriveKeepsCashAway | src/pages/Checkout.jsx:82-84 | after a subscription arrival no sequence of clicks in the widget reaches cash |
| Checkout.NextStep | src/pages/Checkout.jsx:101-107 | step 1 records the blank fields and advances only when there are none; step 2 advances only when the payment checks out; a step moves by one at most |
| Checkout.Back | src/pages/Checkout.jsx:264-395 | "Regresar" takes step 2 to 1 and step 3 to 2 and changes nothing else |
| Checkout.StepStaysInRange | src/pages/Checkout.jsx:101-107 | whatever the customer clicks, the step stays between 1 and 3 |
| Checkout.ScreenOf | src/pages/Checkout.jsx:126-136 | the empty-cart notice shows exactly for a product order with an empty cart |
| Checkout.HandlePlaceOrder | src/pages/Checkout.jsx:109-124 | a subscription files nothing; a product order files one order with the cart and the page's total, empties the cart and opens the confirmation with the new order's id |
| Orders.StatusText | src/pages/Orders.jsx:26-34 | "delivered", "shipped", "processing" and "cancelled" read "Entregado", "En camino", "Procesando" and "Cancelado"; any other status reads "Pendiente" |
| Orders.StatusColour | src/pages/Orders.jsx:16-24 | "delivered", "shipped", "processing" and "cancelled" are green, blue, yellow and red; any other status is gray |
| Orders.GrayIffPending | src/pages/Orders.jsx:16-34 | the badge is gray exactly when the label is "Pendiente", exactly for unknown statuses |
| Orders.SameDistinctions | src/pages/Orders.jsx:16-34 | two statuses share a label exactly when they share a colour, and a known status has its label alone |
| Orders.AdminStatusesAsShown | src/pages/AdminPanel.jsx:494-498 | of the statuses the panel offers, "pending" and "completed" both read "Pendiente" to the customer, and "delivered" is never offered |
| Orders.NewOrderShowsProcessing | src/context/CheckoutContext.jsx:54 | a newly placed order reads "Procesando" on a yellow badge |
| AuthContext.Strip | src/context/AuthContext.jsx:53-54 | the signed-in account keeps the user's id, e-mail, name and role |
| AuthContext.Seed | src/context/AuthContext.jsx:34-44 | after start-up some user has id 0; the default administrator is appended only when no user had id 0 |
| AuthContext.SeedIdempotent | src/context/AuthContext.jsx:34-44 | seeding again at any later time changes nothing |
| AuthContext.Login | src/context/AuthContext.jsx:47-63 | sign-in succeeds exactly when some user has that e-mail and password, as the first such user without the password; failure changes nothing |
| AuthContext.LoginWithFace | src/context/AuthContext.jsx:65-88 | face sign-in succeeds exactly when some user has the e-mail; the descriptor is not looked at |
| AuthContext.FaceLoginSkipsPassword | src/context/AuthContext.jsx:65-88 | with unique e-mails, whoever can sign in with a password gets the same result from face sign-in with no password |
| AuthContext.Register | src/context/AuthContext.jsx:90-123 | a taken e-mail or the administrator's e-mail is refused; otherwise one customer is appended and signed in |
| AuthContext.RegisterKeepsEmailsUnique | src/context/AuthContext.jsx:94-96 | registration never creates a second user with the same e-mail |
| AuthContext.RegisterAdminEmailAfterSeed | src/context/AuthContext.jsx:94-101 | once seeded, registering with the administrator's e-mail is refused as already registered |
| AuthContext.RegisterThenLogin | src/context/AuthContext.jsx:90-123 | a newly registered customer can sign in with the same e-mail and password as the same account |
| AuthContext.UpdatePassword | src/context/AuthContext.jsx:125-166 | with no one signed in it is refused; it succeeds exactly when the current password matches, the new one has six or more characters and differs, and then only that user's password changes |
| AuthContext.UpdatePasswordReasons | src/context/AuthContext.jsx:125-160 | each rejection carries the message of the first check that fails: "Usuario no encontrado", "La contraseña actual es incorrecta", "La nueva contraseña debe tener al menos 6 caracteres", "La nueva contraseña debe ser diferente a la actual" |
| AuthContext.PasswordChangeTakesEffect | src/context/AuthContext.jsx:125-166 | after a change the e-mail signs in with the new password and no longer with the old one |
| AuthContext.Logout | src/context/AuthContext.jsx:168-171 | logging out signs the user out and keeps the users |
| AuthContext.IsAdmin | src/context/AuthContext.jsx:181 | the session is an administrator's exactly when someone is signed in with the administrator role |
| Login.Submit | src/pages/Login.jsx:18-60 | the administrator's e-mail only opens the face check; other sign-ins go to the store; registration needs six characters and a matching confirmation, and names the user by the part before '@' |
| Login.FaceDetected | src/pages/Login.jsx:70-92 | after the face check the e-mail alone signs in, or the dialog closes with an error |
| Login.FaceError | src/pages/Login.jsx:95-98 | a failed face check shows its message and closes the dialog |
| Login.Toggle | src/pages/Login.jsx:153-157 | switching mode clears the error and the confirmation and keeps e-mail and password |
| Login.FillAdmin | src/pages/Login.jsx:63-67 | the shortcut fills the administrator's e-mail and password in sign-in mode |
| Login.AdminNeedsNoPassword | src/pages/Login.jsx:24-27 | on a seeded store, the administrator's e-mail with any password reaches the panel through the face check |
| Security.PasswordStrength | src/pages/Security.jsx:57-69 | no strength for an empty password, "Muy débil" under six characters, and otherwise a level of one plus one point each for length 8, a capital, a digit and a symbol, with the label of that level |
| Security.StrengthGrows | src/pages/Security.jsx:57-69 | typing one more character never lowers the strength |
| Security.HandlePasswordUpdate | src/pages/Security.jsx:13-54 | any empty field or a mismatched confirmation fails without touching the store; otherwise the store decides, and success clears the fields |
| ReviewContext.AddReview | src/context/ReviewContext.jsx:27-46 | with no one signed in nothing is added; otherwise one review by that user, with no votes, goes in front |
| ReviewContext.OfProduct | src/context/ReviewContext.jsx:49 | exactly that product's reviews are kept |
| ReviewContext.ProductReviews | src/context/ReviewContext.jsx:48-51 | the product's reviews, as a permutation, newest first, with reviews of the same date in their stored order |
| ReviewContext.RoundTenths | src/context/ReviewContext.jsx:58 | the result is a whole number of tenths within half a tenth of the input, halves rounded up |
| ReviewContext.Mean | src/context/ReviewContext.jsx:57-58 | the mean times the number of reviews is the sum of their ratings, and it is not negative when that sum is not |
| ReviewContext.ProductRating | src/context/ReviewContext.jsx:53-59 | 0 with no reviews; otherwise a whole number of tenths within half a tenth of the mean rating, never negative |
| ReviewContext.RoundedMean | src/context/ReviewContext.jsx:57-58 | the mean of a non-empty list, to one decimal: a whole number of tenths within half a tenth of the mean |
| ReviewContext.ProductSumNonNegative | src/context/ReviewContext.jsx:57 | summing non-negative ratings gives a non-negative total |
| ReviewContext.UserReview | src/context/ReviewContext.jsx:61-64 | the signed-in customer's review of the product at the first index where one occurs, none when signed out or when there is none |
| ReviewContext.MarkHelpful | src/context/ReviewContext.jsx:66-76 | only the reviews with that id gain one vote of the chosen kind |
| ReviewContext.DeleteReview | src/context/ReviewContext.jsx:78-87 | only the author of the first review with that id removes it, and every review with that id goes |
| ReviewContext.AddThenDelete | src/context/ReviewContext.jsx:27-87 | a new review is what the customer's lookup then finds, and deleting it restores the earlier list |
| ReviewForm.Open | src/components/ReviewForm.jsx:9-11 | a form opened on an earlier review starts from its rating, title and comment |
| ReviewForm.HandleSubmit | src/components/ReviewForm.jsx:14-52 | signed in, with a rating and a trimmed comment of ten characters, the review is filed trimmed and the form cleared; otherwise nothing is filed |
| ReviewForm.EnabledIffAccepted | src/components/ReviewForm.jsx:122 | for a signed-in customer, the enabled button always files the review, and every filed review could have been sent with the button enabled |
| ReviewForm.HandleDelete | src/components/ReviewForm.jsx:54-61 | declined, or with no review of one's own, nothing changes; confirmed, the form's own review is deleted through the store |
| ReviewList.Sorted | src/components/ReviewList.jsx:14-27 | the list is a permutation of the reviews in the chosen order: newest, best net votes, highest or lowest rating; tied reviews, and all of them under an unknown mode, keep the store's order |
| ReviewList.HandleHelpfulAsWritten | src/components/ReviewList.jsx:29-39 | the vote counts unless the voter's record holds `true` for that review |
| ReviewList.NotHelpfulTwiceAsWritten | src/components/ReviewList.jsx:34 | as written, "not helpful" twice by the same customer counts twice |
| ReviewList.AdminSharesAnonymousRecord | src/components/ReviewList.jsx:31 | as written, the administrator and a signed-out visitor share one vote record |
| ReviewList.VoterOf | src/components/ReviewList.jsx:31 | intended record key: signed-in users by id, whatever the id |
| ReviewList.HandleHelpful | src/components/ReviewList.jsx:29-39 | intended: a voter's first vote on a review counts and is recorded; later ones change nothing |
| ReviewList.VoteOnce | src/components/ReviewList.jsx:29-39 | once a voter has voted on a review, none of their later clicks on it count |
| ReviewList.AdminVotesApart | src/components/ReviewList.jsx:31 | intended: the administrator and a visitor keep separate records |
| UserProfileContext.UpdateProfile | src/context/UserProfileContext.jsx:30-37 | the supplied fields overwrite, the rest of the profile stays, and the update time is stamped |
| UserProfileContext.AddAddress | src/context/UserProfileContext.jsx:40-60 | the new address is appended with the time as id, the given fields plus a "createdAt" stamp, and nothing else; the first address becomes the default |
| UserProfileContext.UpdateAddress | src/context/UserProfileContext.jsx:62-71 | only addresses with that id change; there the keys are the old keys, the supplied keys and `updatedAt`, each supplied field wins, every other old field keeps its value, and `updatedAt` is the stamp |
| UserProfileContext.DeleteAddress | src/context/UserProfileContext.jsx:73-85 | the addresses with that id go; if it was the default, the first remaining one becomes the default, or none when there is none or its id is the falsy 0 |
| UserProfileContext.SetDefaultAddress | src/context/UserProfileContext.jsx:87-93 | the id is recorded whether or not an address has it |
| UserProfileContext.GetDefaultAddress | src/context/UserProfileContext.jsx:95-97 | the first address with the default id, else the first address, else none |
| UserProfileContext.AddKeepsConsistent | src/context/UserProfileContext.jsx:40-60 | adding keeps the default id pointing at an address |
| UserProfileContext.UpdateKeepsConsistent | src/context/UserProfileContext.jsx:62-71 | updating keeps the default id pointing at an address |
| UserProfileContext.DeleteKeepsConsistent | src/context/UserProfileContext.jsx:73-85 | deleting keeps the default id pointing at an address |
| UserProfileContext.SetDefaultConsistentIff | src/context/UserProfileContext.jsx:87-93 | setting the default keeps the book consistent exactly when some address has that id |
| UserProfileContext.DefaultOfConsistent | src/context/UserProfileContext.jsx:95-97 | in a consistent book the default address is the one the id names |
| Addresses.BlankForm | src/pages/Addresses.jsx:37-48 | the blank form is a home address in México with the customer's name |
| Addresses.SubmitEdit | src/pages/Addresses.jsx:53-59 | the edited entry takes the form under its old id; a form marked default clears every other flag |
| Addresses.SubmitAdd | src/pages/Addresses.jsx:60-70 | the new entry is appended with id `now`; a form marked default clears every other flag |
| Addresses.Delete | src/pages/Addresses.jsx:94-96 | exactly the entries with that id go |
| Addresses.SetDefault | src/pages/Addresses.jsx:98-103 | the flag is set exactly on the entries with that id |
| Addresses.SeedValid | src/pages/Addresses.jsx:6-34 | the page starts with distinct ids and one default |
| Addresses.SubmitAddKeepsValid | src/pages/Addresses.jsx:60-70 | adding with a fresh id keeps ids distinct and at most one default |
| Addresses.SubmitEditKeepsValid | src/pages/Addresses.jsx:53-59 | editing keeps ids distinct and at most one default |
| Addresses.SetDefaultKeepsValid | src/pages/Addresses.jsx:98-103 | making an entry default keeps ids distinct and at most one default |
| Addresses.DeleteKeepsValid | src/pages/Addresses.jsx:94-96 | deleting keeps ids distinct and at most one default |
| Addresses.DeleteOfferedKeepsDefault | src/pages/Addresses.jsx:316-323 | deleting an entry the page offers to delete never removes the default |
| SubscriptionContext.PlanPeriod | src/context/SubscriptionContext.jsx:74-90 | quarterly is three months, yearly one year, and every other plan one month |
| SubscriptionContext.Subscribe | src/context/SubscriptionContext.jsx:35-45 | a new active subscription to the plan, from now to the end of its period |
| SubscriptionContext.Cancel | src/context/SubscriptionContext.jsx:48-57 | a subscription becomes cancelled with its dates kept; none stays none |
| SubscriptionContext.Renew | src/context/SubscriptionContext.jsx:60-71 | renewing is subscribing afresh to the same plan from now; none stays none |
| SubscriptionContext.IsActive | src/context/SubscriptionContext.jsx:93-99 | a subscription is active when there is one, its status is active and its end is still ahead |
| SubscriptionContext.IsExpiring | src/context/SubscriptionContext.jsx:102-110 | a subscription is expiring when it is active and at most seven days, counted fractionally, remain |
| SubscriptionContext.ExpiringIffWithinWeek | src/context/SubscriptionContext.jsx:93-110 | expiring means active with the end at most seven days away |
| SubscriptionContext.CancelDeactivates | src/context/SubscriptionContext.jsx:48-57 | a cancelled subscription is never active |
| SubscriptionContext.SubscribeIsActive | src/context/SubscriptionContext.jsx:93-99 | a new subscription is active from its start until its end |
| SubscriptionContext.RenewForgetsCancel | src/context/SubscriptionContext.jsx:60-71 | renewing after a cancellation equals renewing directly |
| Subscriptions.PlansTable | src/pages/Subscriptions.jsx:20-30 | the plans last one month, three months and one year, and a longer plan costs less per month |
| Subscriptions.SubscribeClick | src/pages/Subscriptions.jsx:32-35 | clicking a plan opens the confirmation for it |
| Subscriptions.CancelProcess | src/pages/Subscriptions.jsx:57-60 | cancelling closes the dialog and forgets the plan |
| Subscriptions.Confirm | src/pages/Subscriptions.jsx:37-55 | with a plan chosen, it subscribes and sends checkout that plan's name and price; with none, nothing happens |
| Subscriptions.ClickThenConfirm | src/pages/Subscriptions.jsx:32-55 | clicking a plan and confirming sends checkout that plan, and the new subscription is active at once |
| Subscriptions.CancelThenConfirm | src/pages/Subscriptions.jsx:37-60 | confirming after cancelling the dialog changes nothing |
| SocialContext.CreatePublicList | src/context/SocialContext.jsx:16-38 | signed out nothing is created; otherwise one list goes in front, with the user's id and name, the given name, products and visibility, id `now`, `createdAt` the stamp, and no likes or shares |
| SocialContext.CreateThenLike | src/context/SocialContext.jsx:16-72 | liking a new list under a fresh id gives it its first like and leaves every other list alone |
| SocialContext.CreateShownToOwner | src/context/SocialContext.jsx:16-63 | the new list is shown to its creator once more than before |
| SocialContext.FollowUser | src/context/SocialContext.jsx:41-47 | the user id is appended even when already followed; signed out nothing changes |
| SocialContext.UnfollowUser | src/context/SocialContext.jsx:50-56 | every occurrence of the id goes; signed out nothing changes |
| SocialContext.GetFollowedLists | src/context/SocialContext.jsx:59-63 | exactly the lists of followed users and of the signed-in user, with their multiplicities |
| SocialContext.LikeList | src/context/SocialContext.jsx:66-72 | the lists with that id gain one like; the others stay |
| SocialContext.FollowThenUnfollow | src/context/SocialContext.jsx:41-56 | unfollowing undoes any earlier follows of that user |
| SocialContext.FollowShowsUnfollowHides | src/context/SocialContext.jsx:41-63 | after a follow all that user's lists are shown; after an unfollow none is, unless they are the signed-in user's |
| RecommendationContext.AddToBrowseHistory | src/context/RecommendationContext.jsx:17-24 | signed in, the product goes first, its earlier entry goes, and at most ten are kept; signed out nothing is stored |
| RecommendationContext.ViewTwiceSameAsOnce | src/context/RecommendationContext.jsx:17-24 | viewing the same product twice in a row equals viewing it once |
| RecommendationContext.TopRated | src/context/RecommendationContext.jsx:30-32 | at most `limit` products of the list, best rated first; the products kept at each rating are the first ones of that rating in the list, in its order |
| RecommendationContext.TopRatedIsBest | src/context/RecommendationContext.jsx:30-32 | nothing left out rates higher than anything kept |
| RecommendationContext.Eligible | src/context/RecommendationContext.jsx:36-40 | exactly the products in a viewed category other than the current one, in catalog order |
| RecommendationContext.Recommendations | src/context/RecommendationContext.jsx:27-43 | with no history exactly the top-rated list of the catalog, `min(limit, n)` long; otherwise the best-rated eligible ones, at most `limit`; either way the products kept at each rating are the first of that rating, in catalog order |
| RecommendationContext.RecommendationsWithoutHistoryAreBest | src/context/RecommendationContext.jsx:28-32 | with no history, a product is left out only when the list is full of products rated at least as high |
| RecommendationContext.RecommendationsAreBest | src/context/RecommendationContext.jsx:36-42 | with a history, an eligible product is left out only when the list is full of products rated at least as high |
| RecommendationContext.FrequentlyBoughtTogether | src/context/RecommendationContext.jsx:46-57 | exactly the products of the list passed in that the fixed table lists for the product, in that list's order |
| RecommendationContext.BoughtTogetherInOrder | src/context/RecommendationContext.jsx:56 | the result is a subsequence of the list passed in, whatever its order; over a list with increasing ids the ids come out increasing |
| ProductForm.Set | src/components/ProductForm.jsx:92-102 | typing or pasting into a field stores the text in that field and leaves the others |
| ProductForm.Prefill | src/components/ProductForm.jsx:16-27 | each of the six fields shows the product's value; missing texts open empty, a missing or empty category as "electronics", and a missing or zero price or stock as an empty field |
| ProductForm.Validate | src/components/ProductForm.jsx:40-58 | one message for each of a blank name or description, a price not above 0, a missing or negative stock, and a blank or unparsable image URL; the category is never flagged |
| ProductForm.ChecksFlags | src/components/ProductForm.jsx:40-58 | run in order, the checks flag each field exactly when its own check fails, and a rejected URL's message replaces the required-image message |
| ProductForm.HandleSubmit | src/components/ProductForm.jsx:60-70 | the form is saved, with price and stock parsed, exactly when there are no errors |
| ProductForm.SavedIff | src/components/ProductForm.jsx:40-70 | a form is saved exactly when its name and description are not blank, its price is positive, its stock is present and not negative, and its image is a valid URL |
| ProductForm.ZeroStockNeverSaves | src/components/ProductForm.jsx:23 | editing a product with no stock pre-fills an empty stock field that never validates |
| ProductForm.HandleChange | src/components/ProductForm.jsx:73-89 | the field takes the typed value and its shown error is blanked; nothing else changes |
| AdminPanel.TotalSalesAppend | src/pages/AdminPanel.jsx:56 | sales add up over a split order list |
| AdminPanel.TotalSalesNonNegative | src/pages/AdminPanel.jsx:56 | with no negative totals, sales are never negative |
| AdminPanel.DeleteProduct | src/pages/AdminPanel.jsx:81-87 | when confirmed, exactly the products with that id go; otherwise nothing changes |
| AdminPanel.SaveEdit | src/pages/AdminPanel.jsx:94-103 | the products with the edited id take the form's data and keep their rating, 0 when they had none; the others stay |
| AdminPanel.SaveNew | src/pages/AdminPanel.jsx:104-116 | one new unrated product is appended after the unchanged list |
| AdminPanel.SaveEditIdempotent | src/pages/AdminPanel.jsx:94-103 | saving the same edit twice equals saving it once |
| AdminPanel.UpdateOrderStatus | src/pages/AdminPanel.jsx:124-130 | only the status of the orders with that id changes |
| AdminPanel.StatusKeepsSales | src/pages/AdminPanel.jsx:124-130 | changing a status never changes the sales figure |
| AdminPanel.Customers | src/pages/AdminPanel.jsx:40-45 | the customer list is the stored users minus the administrators, with their multiplicities |
| AdminPanel.DeleteUser | src/pages/AdminPanel.jsx:137-146 | when confirmed, the user leaves both the panel's list and the store |
| AdminPanel.EditUser | src/pages/AdminPanel.jsx:149-163 | a cancelled or blank answer changes nothing; otherwise the trimmed name is stored on that user in both lists |
| AdminPanel.DeleteKeepsInSync | src/pages/AdminPanel.jsx:137-146 | deleting keeps the panel's list equal to the store's customers |
| AdminPanel.EditKeepsInSync | src/pages/AdminPanel.jsx:149-163 | renaming keeps the panel's list equal to the store's customers |
| AdminPanel.StatsOf | src/pages/AdminPanel.jsx:53-78 | the dashboard shows the sales, the order count, the product count and the customer count |
| AdminPanel.PlacedOrderAddsToSales | src/pages/AdminPanel.jsx:56 | placing an order adds its total to the sales figure |
| Regex.StarOnly | src/context/ValidationContext.jsx:23-29 | a starred class alone matches exactly the runs of that class |
| Regex.StarElim | src/context/ValidationContext.jsx:26-28 | a match of a starred class and a rest splits into a run of the class and a match of the rest |
| Regex.ClassPattern | src/context/ValidationContext.jsx:23-29 | the text, numeric, alphanumeric, phone and any-line patterns accept exactly the strings of their class |
| Regex.DecimalIff | src/context/ValidationContext.jsx:28 | the decimal pattern accepts exactly digits with at most one '.', anywhere |
| Regex.EmptyString | src/context/ValidationContext.jsx:23-29 | every pattern but the e-mail one accepts the empty string |
| Regex.EmailIff | src/context/ValidationContext.jsx:26 | the e-mail pattern accepts exactly strings with no whitespace, a single '@' that is not first, and a later '.' that neither follows the '@' directly nor ends the string |
| ValidationContext.PatternOf | src/context/ValidationContext.jsx:22-30 | every validation type but "custom" has a pattern |
| ValidationContext.Named | src/context/ValidationContext.jsx:22-30 | a name has a pattern exactly when it names a validation type other than "custom" |
| ValidationContext.Detect | src/context/ValidationContext.jsx:44-89 | e-mail-like inputs get no validation; a known data-validation comes next, then the HTML type; then a name-like input is text, else a phone-like one is phone, else a number-like one is numeric, and otherwise alphanumeric |
| ValidationContext.DetectNoneIff | src/context/ValidationContext.jsx:50-62 | no validation exactly for e-mail-like inputs or a data-validation of "none" |
| ValidationContext.UnknownRequestIgnored | src/context/ValidationContext.jsx:59-62 | a data-validation without a pattern is ignored |
| ValidationContext.HeuristicsOnlyForOtherTypes | src/context/ValidationContext.jsx:64-85 | the name heuristics decide only for HTML types outside the map |
| ValidationContext.ValidateValue | src/context/ValidationContext.jsx:92-97 | unknown names and "none" accept everything; others test their pattern |
| ValidationContext.EmptyValuePasses | src/context/ValidationContext.jsx:92-97 | the empty value passes exactly when the type is not "email" |
| ValidationContext.ClassesAccept | src/context/ValidationContext.jsx:24-28 | numeric accepts digit strings, phone its characters, decimal digits with one dot |
| ValidationContext.HandleInput | src/context/ValidationContext.jsx:146-178 | a valid value becomes the last valid one; an invalid one is replaced by the last valid value |
| ValidationContext.InputKeepsValid | src/context/ValidationContext.jsx:146-178 | for every class pattern, a field whose last valid value passes keeps a value that passes |
| ValidationContext.BeforeInputAgrees | src/context/ValidationContext.jsx:181-203 | typing is blocked exactly when the resulting text fails the detected pattern |
| ValidationContext.EmailClassRefusesTyping | src/context/ValidationContext.jsx:181-203 | in a field validated as e-mail, typing a first character is always blocked |
| ValidationContext.Matcher | src/context/ValidationContext.jsx:104-107 | a custom pattern wins; otherwise the type's pattern, none for "custom" |
| ValidationContext.OnChange | src/context/ValidationContext.jsx:109-115 | a passing or empty value is taken and the error cleared; anything else is ignored |
| ValidationContext.Validate | src/context/ValidationContext.jsx:117-128 | a blank value is "requerido" unless numeric; a mismatch is "Formato inválido"; otherwise the error clears |
| ValidationContext.ChangeThenValidate | src/context/ValidationContext.jsx:109-128 | a value the hook accepts is stored with no error, then validates unless it is blank, and fails when blank outside numeric fields |
| ValidationContext.EmptyNumericValidates | src/context/ValidationContext.jsx:117-128 | an empty numeric field validates |
| ValidationContext.ErrorMessage | src/context/ValidationContext.jsx:260-270 | each of the six types has its own message, and the generic "Formato inválido" is shown exactly for unknown types and "none" |
| ChatBot.CategoryIn | src/components/ChatBot.jsx:106-127 | the category is that of the first keyword group the lower-cased message hits, else general |
| ChatBot.CategoryAsWritten | src/components/ChatBot.jsx:106-127 | the category of a message under the keyword table as written |
| ChatBot.Category | src/components/ChatBot.jsx:106-127 | the category of a message under the keyword table with the returns group corrected (see Findings) |
| ChatBot.GeneralIffNoHit | src/components/ChatBot.jsx:106-127 | the answer is general exactly when no group is hit |
| ChatBot.CategoryIsFirstHit | src/components/ChatBot.jsx:106-127 | a non-general category is the first group the message hits |
| ChatBot.PagIsPayment | src/components/ChatBot.jsx:117 | a message containing "pag" and no keyword of the four earlier groups is about payment |
| ChatBot.FixOnlyAddsPlural | src/components/ChatBot.jsx:115 | the corrected table answers like the original on every message without "devoluciones" |
| ChatBot.ReturnsQuestionMissesReturns | src/components/ChatBot.jsx:207 | as written, the quick question about returns does not reach the returns answers |
| ChatBot.ReturnsQuestionFixed | src/components/ChatBot.jsx:207 | with the plural keyword, the returns question reaches the returns answers |
| ChatBot.Pick | src/components/ChatBot.jsx:138-139 | the random choice picks one of the topic's answers |
| ChatBot.Reply | src/components/ChatBot.jsx:54-141 | the reply is one of the answers of the message's category under the corrected keyword table |
| ChatBot.EveryAnswerReachable | src/components/ChatBot.jsx:138-139 | every answer of a topic is picked by some random choice in [0, 1) |
| ChatBot.Welcomed | src/components/ChatBot.jsx:41-51 | an open chat with no messages gets the welcome message alone; otherwise nothing changes |
| ChatBot.Open | src/components/ChatBot.jsx:217 | opening shows the history, or the welcome message when there is none |
| ChatBot.ClearHistory | src/components/ChatBot.jsx:191-202 | clearing leaves only the welcome message |
| ChatBot.QuickQuestion | src/components/ChatBot.jsx:186-189 | a quick question fills the input box |
| ChatBot.Send | src/components/ChatBot.jsx:144-184 | a blank input is ignored; otherwise the message and its reply are appended and the input emptied |
| ChatBot.ClearThenOpen | src/components/ChatBot.jsx:191-202 | clearing and reopening shows only the welcome message, and the welcome is never added twice |

## Left out

- Browser storage, the DOM, timers, the network, the camera and face detection. State that the program keeps in storage is passed in and returned; the face check's outcome is an input.
- The global validator's `MutationObserver` and its set-up of existing inputs only attach the handlers modelled by `HandleInput` and `Blocked`.
- `beforeinput` is modelled as appending at the end of the value. The insertion point and selections are left out.
- A data-validation value or an HTML type that names a property of `Object.prototype` is not modelled; such names are treated as unknown.
- Case mapping covers ASCII and the accented Spanish letters. Other Unicode case mappings are left out.
- Dates and ISO time strings are integers or opaque stamps. Month arithmetic is a parameter (`later`), so the model does not state how many days a month has.
- The chat's random choice is a parameter in [0, 1). The reply's delay and the catch branch that shows an error message are collapsed, since nothing in the reply can throw.
- ChatBot.PagIsPayment and the two returns-question lemmas are proved; the other quick questions' categories are not.
- The card widget's default branch for other field names is not modelled; the widget calls its handler with the four card fields only.
- Displays with `toFixed(2)`, the floating-point rounding of JavaScript numbers, and the dashboard's fixed percentage labels.
- ReviewContext.RoundTenths, ReviewContext.RoundedMean and ReviewContext.ProductRating round exact rationals, halves up. `toFixed` works on the binary floating-point value, so a mean of 81/20 is shown as 4.0 where the model gives 4.1.
- ReviewContext.ProductRating: the result is the number shown, not the text `toFixed(1)` returns; with no reviews the source returns the number 0.
- RecommendationContext.Recommendations: the page sorts the shared catalog array in place; the model sorts a copy, and a negative `limit` is not modelled. On the product page the empty-history call runs before `getFrequentlyBoughtTogether`, which then receives the catalog sorted by rating; RecommendationContext.FrequentlyBoughtTogether takes the list as a parameter and keeps whatever order it has, so product 1 gets product 3 (rated 4.7) before product 2 (rated 4.3).
- SocialContext.CreatePublicList takes `isPublic` as a parameter; the source's default of `true` when the caller leaves it out is not modelled.
- Query.Filtered promises no order among equal keys. The product page's comparator never returns 0, so it is not consistent on ties, and the order a JavaScript engine gives them is left to the engine.
- ChatBot.Reply answers with the corrected keyword table (see Findings). As written, the returns quick question gets a general answer; ChatBot.CategoryAsWritten and ChatBot.ReturnsQuestionMissesReturns state that behaviour.
- ChatBot.Send appends the reply from the corrected table, as ChatBot.Reply does.
- Login.Submit, AuthContext.UpdatePassword, ReviewForm.HandleSubmit and Security.PasswordStrength count a string's length in code points. JavaScript's `length` counts UTF-16 code units, so text with characters outside the Basic Multilingual Plane is longer there: three such characters already meet a six-character minimum, which the model counts as three.
- The product page's effect that copies the category and search text from the address bar is not modelled. Its changes reach the page as the `SetCategory` and `SetSearch` edits.
- An "id" in the address data overriding the new address's id is not modelled; the form never supplies one.
- Product numbers pre-filled into the form are held as their decimal text through a parameter.
- The report export, order-detail pop-up, navigation bar, cart, wishlist, deals, product detail and other pages outside the modelled core.

## Findings

| source | as written | input that shows it | evidently intended | confidence | as-written member | corrected member |
|---|---|---|---|---|---|---|
| src/pages/Checkout.jsx:37 | arriving for a subscription with cash selected calls `updatePaymentMethod`, which the checkout store does not provide, so the page throws | choose cash for a product order, then subscribe to any plan | switch the method to the card through the store's `setPaymentMethod` | high, not executed | Checkout.ArriveAsWrittenCrashes | Checkout.ArriveKeepsCashAway |
| src/components/ReviewList.jsx:34 | `!votedReviews[reviewId]` is true again after a "not helpful" vote, which is stored as `false` | click "not helpful" twice on the same review | one vote per voter and review | high, not executed | ReviewList.NotHelpfulTwiceAsWritten | ReviewList.VoteOnce |
| src/components/ReviewList.jsx:31 | `user?.id \|\| 'anonymous'` treats the administrator's id 0 as missing | the administrator votes, then a signed-out visitor votes on the same review | a separate record per signed-in user | high, not executed | ReviewList.AdminSharesAnonymousRecord | ReviewList.AdminVotesApart |
| src/components/ChatBot.jsx:115 | the returns keywords are "devolución", "devolver" and "cambio", so the quick question "¿Aceptan devoluciones?" gets a general answer | the quick question at line 207 | the returns answers | medium, not executed | ChatBot.ReturnsQuestionMissesReturns | ChatBot.ReturnsQuestionFixed |
| src/pages/Products.jsx:73-77 | the reset effect sets `hasMore` to true, and the effect that recomputes it runs only when the shown or filtered count changes | on page 1 with every product shown, flip the sort direction; the counts stay the same, so the flag stays true and each scroll to the bottom starts an 800 ms load with nothing to add | `hasMore` tells whether more products remain; the reset leaves it to the length effect | medium, not executed | Query.SortToggleLeavesStaleFlag | Query.FixedLoadsOnlyWhenMoreRemain |

=== FILE: admin.dfy ===
/** The administrator's panel: the sales figure, product management, order
    status changes and the customer list. The panel's lists are loaded from
    the stores; `confirmed` stands for the answer to the browser's
    confirmation dialog and `newName` for the answer to its prompt (`None`
    when cancelled). */
module AdminPanel {
  import opened Options
  import opened Text
  import opened Lists
  import opened AuthContext
  import opened CheckoutContext
  import opened ProductForm

  /** A stored product: its id, the form's data and its rating. */
  datatype StoredProduct = StoredProduct(id: int, data: ProductData, rating: Option<real>)

  /** The "Ventas Totales" figure: the orders' totals, a missing one
      counting as 0. */
  function TotalSales(orders: seq<Order>): real {
    if |orders| == 0 then 0.0 else orders[0].total.GetOr(0.0) + TotalSales(orders[1..])
  }

  /** Sales add up over a split order list. */
  lemma {:induction false} TotalSalesAppend(a: seq<Order>, b: seq<Order>)
    ensures TotalSales(a + b) == TotalSales(a) + TotalSales(b)
  {
    if |a| > 0 {
      assert (a + b)[1..] == a[1..] + b;
      TotalSalesAppend(a[1..], b);
    } else {
      assert a + b == b;
    }
  }

  /** Sales never fall below 0 when no total is negative. */
  lemma {:induction false} TotalSalesNonNegative(orders: seq<Order>)
    requires forall i :: 0 <= i < |orders| ==> orders[i].total.GetOr(0.0) >= 0.0
    ensures TotalSales(orders) >= 0.0
  {
    if |orders| > 0 {
      TotalSalesNonNegative(orders[1..]);
    }
  }

  /** `deleteProduct(productId)`: when confirmed, every product with that
      id goes. */
  function DeleteProduct(ps: seq<StoredProduct>, id: int, confirmed: bool): (r: seq<StoredProduct>)
    ensures !confirmed ==> r == ps
    ensures confirmed ==> forall x :: multiset(r)[x] == if x.id == id then 0 else multiset(ps)[x]
  {
    if confirmed then Filter(ps, (p: StoredProduct) => p.id != id) else ps
  }

  /** `handleSaveProduct` while editing: every product with the edited id
      becomes the edited product with the form's data, keeping its rating
      (0 when it had none). */
  function SaveEdit(ps: seq<StoredProduct>, editing: StoredProduct, data: ProductData): (r: seq<StoredProduct>)
    ensures |r| == |ps|
    ensures forall i :: 0 <= i < |ps| && ps[i].id != editing.id ==> r[i] == ps[i]
    ensures forall i :: 0 <= i < |ps| && ps[i].id == editing.id ==>
      r[i].id == editing.id && r[i].data == data && r[i].rating == Some(editing.rating.GetOr(0.0))
  {
    seq(|ps|, i requires 0 <= i < |ps| =>
      if ps[i].id == editing.id then StoredProduct(editing.id, data, Some(editing.rating.GetOr(0.0)))
      else ps[i])
  }

  /** `handleSaveProduct` for a new product at time `now` (the id): one
      product, unrated, appended. */
  function SaveNew(ps: seq<StoredProduct>, data: ProductData, now: int): (r: seq<StoredProduct>)
    ensures |r| == |ps| + 1 && r[..|ps|] == ps
    ensures r[|ps|] == StoredProduct(now, data, Some(0.0))
  {
    ps + [StoredProduct(now, data, Some(0.0))]
  }

  /** Saving the same edit twice is saving it once. */
  lemma SaveEditIdempotent(ps: seq<StoredProduct>, editing: StoredProduct, data: ProductData)
    ensures SaveEdit(SaveEdit(ps, editing, data), editing, data) == SaveEdit(ps, editing, data)
  {
  }

  /** `updateOrderStatus(orderId, newStatus)`: only the status of the orders
      with that id changes. */
  function UpdateOrderStatus(orders: seq<Order>, id: int, status: string): (r: seq<Order>)
    ensures |r| == |orders|
    ensures forall i :: 0 <= i < |orders| && orders[i].id != id ==> r[i] == orders[i]
    ensures forall i :: 0 <= i < |orders| && orders[i].id == id ==> r[i] == orders[i].(status := status)
  {
    seq(|orders|, i requires 0 <= i < |orders| =>
      if orders[i].id == id then orders[i].(status := status) else orders[i])
  }

  /** Changing a status never changes the sales figure. */
  lemma {:induction false} StatusKeepsSales(orders: seq<Order>, id: int, status: string)
    ensures TotalSales(UpdateOrderStatus(orders, id, status)) == TotalSales(orders)
  {
    if |orders| > 0 {
      var r := UpdateOrderStatus(orders, id, status);
      assert r[1..] == UpdateOrderStatus(orders[1..], id, status);
      StatusKeepsSales(orders[1..], id, status);
    }
  }

  predicate IsCustomer(u: User) {
    u.role != Admin
  }

  /** `loadUsers`: the stored users minus the administrators. */
  function Customers(users: seq<User>): (r: seq<User>)
    ensures forall i :: 0 <= i < |r| ==> r[i].role != Admin
    ensures forall x :: multiset(r)[x] == if x.role == Admin then 0 else multiset(users)[x]
  {
    Filter(users, IsCustomer)
  }

  predicate NotId(u: User, id: int) {
    u.id != id
  }

  /** The panel's customer list and the user store. */
  datatype People = People(shown: seq<User>, stored: seq<User>)

  /** `deleteUser(userId)`: when confirmed, the user leaves both lists. */
  function DeleteUser(p: People, id: int, confirmed: bool): (r: People)
    ensures !confirmed ==> r == p
    ensures confirmed ==> r.shown == Filter(p.shown, u => NotId(u, id)) && r.stored == Filter(p.stored, u => NotId(u, id))
  {
    if confirmed then People(Filter(p.shown, u => NotId(u, id)), Filter(p.stored, u => NotId(u, id)))
    else p
  }

  function Rename(users: seq<User>, id: int, name: string): (r: seq<User>)
    ensures |r| == |users|
    ensures forall i :: 0 <= i < |users| && users[i].id != id ==> r[i] == users[i]
    ensures forall i :: 0 <= i < |users| && users[i].id == id ==> r[i] == users[i].(name := name)
  {
    seq(|users|, i requires 0 <= i < |users| =>
      if users[i].id == id then users[i].(name := name) else users[i])
  }

  /** `editUser(user)`: a cancelled or blank answer changes nothing;
      otherwise the trimmed name is stored on that user in both lists. */
  function EditUser(p: People, id: int, newName: Option<string>): (r: People)
    ensures newName.None? || IsBlank(newName.value) ==> r == p
    ensures newName.Some? && !IsBlank(newName.value) ==>
      r == People(Rename(p.shown, id, Trim(newName.value)), Rename(p.stored, id, Trim(newName.value)))
  {
    TrimEmptyIffBlank(newName.GetOr(""));
    if newName.Some? && newName.value != "" && Trim(newName.value) != "" then
      People(Rename(p.shown, id, Trim(newName.value)), Rename(p.stored, id, Trim(newName.value)))
    else p
  }

  /** The panel shows the store's customers. */
  predicate InSync(p: People) {
    p.shown == Customers(p.stored)
  }

  /** Deleting a user keeps the panel in step with the store. */
  lemma DeleteKeepsInSync(p: People, id: int, confirmed: bool)
    requires InSync(p)
    ensures InSync(DeleteUser(p, id, confirmed))
  {
    if confirmed {
      FilterCommute(p.stored, IsCustomer, u => NotId(u, id));
    }
  }

  lemma {:induction false} FilterCommute(s: seq<User>, p: User -> bool, q: User -> bool)
    ensures Filter(Filter(s, p), q) == Filter(Filter(s, q), p)
  {
    if |s| > 0 {
      var x, t := s[0], s[1..];
      assert s == [x] + t;
      FilterCons(x, t, p);
      FilterCons(x, t, q);
      FilterCons(x, Filter(t, p), q);
      FilterCons(x, Filter(t, q), p);
      FilterCommute(t, p, q);
    }
  }

  /** Renaming a user keeps the panel in step with the store. */
  lemma EditKeepsInSync(p: People, id: int, newName: Option<string>)
    requires InSync(p)
    ensures InSync(EditUser(p, id, newName))
  {
    if newName.Some? && !IsBlank(newName.value) {
      RenameCommutes(p.stored, id, Trim(newName.value));
    }
  }

  lemma {:induction false} RenameCommutes(s: seq<User>, id: int, name: string)
    ensures Customers(Rename(s, id, name)) == Rename(Customers(s), id, name)
  {
    if |s| > 0 {
      RenameCommutes(s[1..], id, name);
      assert s == [s[0]] + s[1..];
      RenameCommutesStep(s[0], s[1..], id, name);
    }
  }

  /** One more user in front keeps renaming and keeping the customers
      interchangeable. */
  lemma RenameCommutesStep(x: User, u: seq<User>, id: int, name: string)
    ensures Customers(Rename(u, id, name)) == Rename(Customers(u), id, name) ==>
      Customers(Rename([x] + u, id, name)) == Rename(Customers([x] + u), id, name)
  {
    if Customers(Rename(u, id, name)) == Rename(Customers(u), id, name) {
      RenameCommutesFront(x, u, id, name);
    }
  }

  /** What either order does with a user in front of the list. */
  lemma RenameCommutesFront(x: User, u: seq<User>, id: int, name: string)
    ensures var x' := if x.id == id then x.(name := name) else x;
      && Customers(Rename([x] + u, id, name)) == (if IsCustomer(x) then [x'] else []) + Customers(Rename(u, id, name))
      && Rename(Customers([x] + u), id, name) == (if IsCustomer(x) then [x'] else []) + Rename(Customers(u), id, name)
  {
    var x' := if x.id == id then x.(name := name) else x;
    RenameCons(x, u, id, name);
    FilterCons(x', Rename(u, id, name), IsCustomer);
    FilterCons(x, u, IsCustomer);
    if IsCustomer(x) {
      RenameCons(x, Customers(u), id, name);
    }
  }

  lemma RenameCons(x: User, s: seq<User>, id: int, name: string)
    ensures Rename([x] + s, id, name) == [if x.id == id then x.(name := name) else x] + Rename(s, id, name)
  {
    RenameAppend([x], s, id, name);
    assert Rename([x], id, name) == [if x.id == id then x.(name := name) else x];
  }

  lemma RenameAppend(a: seq<User>, b: seq<User>, id: int, name: string)
    ensures Rename(a + b, id, name) == Rename(a, id, name) + Rename(b, id, name)
  {
  }

  /** The dashboard's figures. */
  datatype Stats = Stats(sales: real, orders: nat, products: nat, customers: nat)

  function StatsOf(orders: seq<Order>, ps: seq<StoredProduct>, p: People): (r: Stats)
    ensures r.customers == |p.shown| && r.orders == |orders| && r.products == |ps|
    ensures r.sales == TotalSales(orders)
  {
    Stats(TotalSales(orders), |orders|, |ps|, |p.shown|)
  }

  /** A placed order adds its total to sales. */
  lemma PlacedOrderAddsToSales(ck: Checkout, items: seq<CartItem>, total: real, now: int,
                               history: seq<Order>)
    ensures TotalSales(PlaceOrder(ck, items, total, now, history).history) == total + TotalSales(history)
  {
    var h := PlaceOrder(ck, items, total, now, history).history;
    assert h[1..] == history;
  }
}

=== FILE: auth.dfy ===
/** The account store: the registered users (with the seeded administrator),
    the signed-in account, and login, face login, registration, password
    change and logout. The signed-in account never carries a password. */
module AuthContext {
  import opened Options
  import opened Lists

  datatype Role = Admin | Customer

  /** A registered user as stored. */
  datatype User = User(id: int, email: string, password: string, name: string, role: Role, createdAt: int)

  /** A user as held in the session: everything but the password. */
  datatype Account = Account(id: int, email: string, name: string, role: Role, createdAt: int)

  /** The users and the signed-in account. */
  datatype Auth = Auth(users: seq<User>, current: Option<Account>)

  const AdminEmail: string := "admin@mitienda.com"
  const AdminPassword: string := "admin123"

  /** The administrator seeded at start-up (at time `now`). */
  function DefaultAdmin(now: int): User {
    User(0, AdminEmail, AdminPassword, "Administrador", Admin, now)
  }

  /** The user without the password. */
  function Strip(u: User): (a: Account)
    ensures a.id == u.id && a.email == u.email && a.name == u.name && a.role == u.role
  {
    Account(u.id, u.email, u.name, u.role, u.createdAt)
  }

  predicate HasId0(u: User) {
    u.id == 0
  }

  /** Start-up seeding, the provider's first effect: the default
      administrator is appended unless some user already has id 0. */
  function Seed(users: seq<User>, now: int): (r: seq<User>)
    ensures exists i :: 0 <= i < |r| && r[i].id == 0
    ensures (exists i :: 0 <= i < |users| && users[i].id == 0) ==> r == users
    ensures !(exists i :: 0 <= i < |users| && users[i].id == 0) ==> r == users + [DefaultAdmin(now)]
  {
    match FirstWhere(users, HasId0)
    case Some(_) => users
    case None =>
      var r := users + [DefaultAdmin(now)];
      assert r[|users|].id == 0;
      r
  }

  /** Seeding twice (at any two times) is seeding once. */
  lemma SeedIdempotent(users: seq<User>, now: int, later: int)
    ensures Seed(Seed(users, now), later) == Seed(users, now)
  {
  }

  /** What the store answers a sign-in attempt. */
  datatype Outcome = SignedIn(account: Account) | Refused(error: string)

  /** The store after an operation, and its answer. */
  datatype Answer = Answer(auth: Auth, outcome: Outcome)

  /** `login(email, password)`: the first user with both the e-mail and the
      password signs in, without the password. */
  function Login(st: Auth, email: string, password: string): (r: Answer)
    ensures r.auth.users == st.users
    ensures r.outcome.SignedIn? <==>
      exists i :: 0 <= i < |st.users| && st.users[i].email == email && st.users[i].password == password
    ensures r.outcome.SignedIn? ==>
      && r.auth.current == Some(r.outcome.account)
      && exists i :: 0 <= i < |st.users| && st.users[i].email == email
           && st.users[i].password == password && r.outcome.account == Strip(st.users[i])
    ensures r.outcome.Refused? ==>
      r.auth == st && r.outcome.error == "Email o contraseña incorrectos"
  {
    match FirstWhere(st.users, (u: User) => u.email == email && u.password == password)
    case Some(i) =>
      var a := Strip(st.users[i]);
      Answer(st.(current := Some(a)), SignedIn(a))
    case None => Answer(st, Refused("Email o contraseña incorrectos"))
  }

  /** `loginWithFaceRecognition(email, descriptor)`: the descriptor is not
      looked at; the first user with the e-mail signs in. */
  function LoginWithFace(st: Auth, email: string): (r: Answer)
    ensures r.auth.users == st.users
    ensures r.outcome.SignedIn? <==> exists i :: 0 <= i < |st.users| && st.users[i].email == email
    ensures r.outcome.SignedIn? ==>
      && r.auth.current == Some(r.outcome.account)
      && exists i :: 0 <= i < |st.users| && st.users[i].email == email
           && r.outcome.account == Strip(st.users[i])
    ensures r.outcome.Refused? ==> r.auth == st && r.outcome.error == "Usuario no encontrado"
  {
    match FirstWhere(st.users, (u: User) => u.email == email)
    case Some(i) =>
      var a := Strip(st.users[i]);
      Answer(st.(current := Some(a)), SignedIn(a))
    case None => Answer(st, Refused("Usuario no encontrado"))
  }

  /** Every e-mail belongs to at most one user. */
  ghost predicate UniqueEmails(users: seq<User>) {
    forall i, j :: 0 <= i < j < |users| ==> users[i].email != users[j].email
  }

  /** With unique e-mails, whoever can sign in with a password can sign in
      by face with the same e-mail, as the same account: face login is the
      password login without the password check. */
  lemma FaceLoginSkipsPassword(st: Auth, email: string, password: string)
    requires UniqueEmails(st.users)
    requires Login(st, email, password).outcome.SignedIn?
    ensures LoginWithFace(st, email) == Login(st, email, password)
  {
  }

  /** `register({email, password, name})` at time `now` (also the new id):
      an e-mail already registered is refused first, then the
      administrator's e-mail; otherwise a customer is appended and signed in. */
  function Register(st: Auth, name: string, email: string, password: string, now: int): (r: Answer)
    ensures (exists i :: 0 <= i < |st.users| && st.users[i].email == email) ==>
      r == Answer(st, Refused("El email ya está registrado"))
    ensures !(exists i :: 0 <= i < |st.users| && st.users[i].email == email) && email == AdminEmail ==>
      r == Answer(st, Refused("Este email no está disponible"))
    ensures r.outcome.SignedIn? <==>
      !(exists i :: 0 <= i < |st.users| && st.users[i].email == email) && email != AdminEmail
    ensures r.outcome.SignedIn? ==>
      && r.auth.users == st.users + [User(now, email, password, name, Customer, now)]
      && r.auth.current == Some(r.outcome.account)
      && r.outcome.account == Strip(r.auth.users[|st.users|])
  {
    match FirstWhere(st.users, (u: User) => u.email == email)
    case Some(_) => Answer(st, Refused("El email ya está registrado"))
    case None =>
      if email == AdminEmail then Answer(st, Refused("Este email no está disponible"))
      else
        var u := User(now, email, password, name, Customer, now);
        var a := Strip(u);
        Answer(Auth(st.users + [u], Some(a)), SignedIn(a))
  }

  /** Registration keeps e-mails unique. */
  lemma RegisterKeepsEmailsUnique(st: Auth, name: string, email: string, password: string, now: int)
    requires UniqueEmails(st.users)
    ensures UniqueEmails(Register(st, name, email, password, now).auth.users)
  {
  }

  /** Once the administrator has been seeded, the administrator's own
      e-mail is refused as already registered: the second check only
      matters for a store whose administrator lost that e-mail. */
  lemma RegisterAdminEmailAfterSeed(users: seq<User>, now: int, cur: Option<Account>,
                                    name: string, password: string, t: int)
    requires forall i :: 0 <= i < |users| && users[i].id == 0 ==> users[i].email == AdminEmail
    ensures Register(Auth(Seed(users, now), cur), name, AdminEmail, password, t).outcome
         == Refused("El email ya está registrado")
  {
    var s := Seed(users, now);
    var k :| 0 <= k < |s| && s[k].id == 0;
    assert s[k].email == AdminEmail;
  }

  /** A customer who has just registered can sign in with the same e-mail
      and password, as the same account. */
  lemma RegisterThenLogin(st: Auth, name: string, email: string, password: string, now: int)
    requires UniqueEmails(st.users)
    requires Register(st, name, email, password, now).outcome.SignedIn?
    ensures
      var reg := Register(st, name, email, password, now);
      Login(reg.auth, email, password).outcome == reg.outcome
  {
    var reg := Register(st, name, email, password, now);
    RegisterKeepsEmailsUnique(st, name, email, password, now);
    var us := reg.auth.users;
    assert us[|st.users|].email == email && us[|st.users|].password == password;
    var lg := Login(reg.auth, email, password);
    var i :| 0 <= i < |us| && us[i].email == email && us[i].password == password
           && lg.outcome.account == Strip(us[i]);
    assert i == |st.users|;
  }

  /** The index of the first stored user with the signed-in account's id. */
  function Own(st: Auth): (r: Option<nat>)
    requires st.current.Some?
    ensures r.Some? ==> r.value < |st.users| && st.users[r.value].id == st.current.value.id
    ensures r.Some? ==> forall j :: 0 <= j < r.value ==> st.users[j].id != st.current.value.id
    ensures r.None? <==> forall j :: 0 <= j < |st.users| ==> st.users[j].id != st.current.value.id
  {
    FirstWhere(st.users, (u: User) => u.id == st.current.value.id)
  }

  /** What `updatePassword` settles with: the new user list, or the reason
      it was rejected. */
  datatype Update = Updated(users: seq<User>) | Rejected(reason: string)

  /** `updatePassword(current, new)` for the signed-in account, checking in
      order: someone is signed in, their id is still stored, the current
      password matches, the new one has six characters or more, and it
      differs from the current one. Only that user's password changes. */
  function UpdatePassword(st: Auth, currentPassword: string, newPassword: string): (r: Update)
    ensures st.current.None? ==> r == Rejected("No hay usuario autenticado")
    ensures r.Updated? <==>
      && st.current.Some?
      && (exists i :: 0 <= i < |st.users| && st.users[i].id == st.current.value.id
                      && st.users[i].password == currentPassword)
      && Own(st).Some?
      && st.users[Own(st).value].password == currentPassword
      && |newPassword| >= 6 && newPassword != currentPassword
    ensures r.Updated? ==>
      && |r.users| == |st.users|
      && exists k :: 0 <= k < |st.users| && st.users[k].id == st.current.value.id
           && r.users == st.users[k := st.users[k].(password := newPassword)]
  {
    match st.current
    case None => Rejected("No hay usuario autenticado")
    case Some(me) =>
      match Own(st)
      case None => Rejected("Usuario no encontrado")
      case Some(k) =>
        if st.users[k].password != currentPassword then Rejected("La contraseña actual es incorrecta")
        else if |newPassword| < 6 then Rejected("La nueva contraseña debe tener al menos 6 caracteres")
        else if currentPassword == newPassword then Rejected("La nueva contraseña debe ser diferente a la actual")
        else Updated(st.users[k := st.users[k].(password := newPassword)])
  }

  /** The reason of each rejection, in the order the checks are made: no
      session, the session's id no longer stored, a wrong current password,
      a new one under six characters, a new one equal to the current. */
  lemma UpdatePasswordReasons(st: Auth, currentPassword: string, newPassword: string)
    ensures var r := UpdatePassword(st, currentPassword, newPassword);
      && (st.current.Some? && (forall i :: 0 <= i < |st.users| ==> st.users[i].id != st.current.value.id) ==>
            r == Rejected("Usuario no encontrado"))
      && (st.current.Some? && Own(st).Some? ==>
            var k := Own(st).value;
            && (st.users[k].password != currentPassword ==>
                  r == Rejected("La contraseña actual es incorrecta"))
            && (st.users[k].password == currentPassword && |newPassword| < 6 ==>
                  r == Rejected("La nueva contraseña debe tener al menos 6 caracteres"))
            && (st.users[k].password == currentPassword && |newPassword| >= 6 && newPassword == currentPassword ==>
                  r == Rejected("La nueva contraseña debe ser diferente a la actual")))
  {
  }

  /** After a password change the signed-in user's e-mail works with the new
      password and no longer with the old one; e-mails stay unique. */
  lemma PasswordChangeTakesEffect(st: Auth, currentPassword: string, newPassword: string)
    requires UniqueEmails(st.users)
    requires UpdatePassword(st, currentPassword, newPassword).Updated?
    ensures
      var users' := UpdatePassword(st, currentPassword, newPassword).users;
      var k := Own(st).value;
      && UniqueEmails(users')
      && Login(Auth(users', None), st.users[k].email, newPassword).outcome.SignedIn?
      && Login(Auth(users', None), st.users[k].email, currentPassword).outcome.Refused?
  {
    var users' := UpdatePassword(st, currentPassword, newPassword).users;
    var k := Own(st).value;
    assert users'[k].email == st.users[k].email && users'[k].password == newPassword;
  }

  /** `logout`. */
  function Logout(st: Auth): (r: Auth)
    ensures r.users == st.users && r.current.None?
  {
    st.(current := None)
  }

  /** `isAdmin`: someone is signed in and has the administrator role. */
  predicate IsAdmin(st: Auth) {
    st.current.Some? && st.current.value.role == Admin
  }
}

/** The sign-in page: one form for signing in and registering, and the face
    check the administrator's e-mail is sent to. */
module Login {
  import opened Options
  import opened Text
  import opened AuthContext

  datatype Form = Form(
    email: string,
    password: string,
    confirmPassword: string,
    error: string,
    isLogin: bool,
    showFace: bool)

  const InitialForm := Form("", "", "", "", true, false)

  datatype Route = Home | AdminPanel

  /** The page's and the store's state after an event, and where the page
      navigated, if it did. */
  datatype Step = Step(form: Form, auth: Auth, nav: Option<Route>)

  /** `handleSubmit`. Signing in with the administrator's e-mail only opens
      the face check. Registering first checks the password's length, then
      the confirmation, and names the customer after the part of the e-mail
      before the first '@'. */
  function Submit(f: Form, st: Auth, now: int): (r: Step)
    ensures f.isLogin && f.email == AdminEmail ==> r == Step(f.(error := "", showFace := true), st, None)
    ensures f.isLogin && f.email != AdminEmail ==>
      var a := AuthContext.Login(st, f.email, f.password);
      && r.auth == a.auth
      && (a.outcome.SignedIn? ==>
            r.nav == Some(if a.outcome.account.role == Admin then AdminPanel else Home))
      && (a.outcome.Refused? ==> r.nav.None? && r.form.error == a.outcome.error)
    ensures !f.isLogin && |f.password| < 6 ==>
      r == Step(f.(error := "La contraseña debe tener al menos 6 caracteres"), st, None)
    ensures !f.isLogin && |f.password| >= 6 && f.password != f.confirmPassword ==>
      r == Step(f.(error := "Las contraseñas no coinciden"), st, None)
    ensures !f.isLogin && |f.password| >= 6 && f.password == f.confirmPassword ==>
      var a := Register(st, BeforeFirstAt(f.email), f.email, f.password, now);
      && r.auth == a.auth
      && (a.outcome.SignedIn? <==> r.nav == Some(Home))
      && (a.outcome.Refused? ==> r.form.error == a.outcome.error)
  {
    var f := f.(error := "");
    if f.isLogin then
      if f.email == AdminEmail then Step(f.(showFace := true), st, None)
      else
        var a := AuthContext.Login(st, f.email, f.password);
        match a.outcome
        case SignedIn(acc) => Step(f, a.auth, Some(if acc.role == Admin then AdminPanel else Home))
        case Refused(e) => Step(f.(error := e), a.auth, None)
    else if |f.password| < 6 then Step(f.(error := "La contraseña debe tener al menos 6 caracteres"), st, None)
    else if f.password != f.confirmPassword then Step(f.(error := "Las contraseñas no coinciden"), st, None)
    else
      var a := Register(st, BeforeFirstAt(f.email), f.email, f.password, now);
      match a.outcome
      case SignedIn(_) => Step(f, a.auth, Some(Home))
      case Refused(e) => Step(f.(error := e), a.auth, None)
  }

  /** `handleFaceDetected`: the face check passed; sign in by e-mail. */
  function FaceDetected(f: Form, st: Auth): (r: Step)
    ensures LoginWithFace(st, f.email).outcome.SignedIn? ==>
      r.nav == Some(AdminPanel) && r.auth == LoginWithFace(st, f.email).auth
    ensures LoginWithFace(st, f.email).outcome.Refused? ==>
      r == Step(f.(error := "Error en el login después de verificación facial", showFace := false), st, None)
  {
    var a := LoginWithFace(st, f.email);
    match a.outcome
    case SignedIn(_) => Step(f, a.auth, Some(AdminPanel))
    case Refused(_) => Step(f.(error := "Error en el login después de verificación facial", showFace := false), st, None)
  }

  /** `handleFaceError`: the face check failed with a message. */
  function FaceError(f: Form, message: string): (r: Form)
    ensures r == f.(error := message, showFace := false)
  {
    f.(error := message, showFace := false)
  }

  /** The link that switches between signing in and registering: it clears
      the error and the confirmation, and keeps e-mail and password. */
  function Toggle(f: Form): (r: Form)
    ensures r.isLogin == !f.isLogin && r.error == "" && r.confirmPassword == ""
    ensures r.email == f.email && r.password == f.password && r.showFace == f.showFace
  {
    f.(isLogin := !f.isLogin, error := "", confirmPassword := "")
  }

  /** `fillAdminCredentials`. */
  function FillAdmin(f: Form): (r: Form)
    ensures r.email == AdminEmail && r.password == AdminPassword && r.isLogin
  {
    f.(email := AdminEmail, password := AdminPassword, isLogin := true)
  }

  /** The administrator's path never checks a password: with the seeded
      administrator in place, submitting the administrator's e-mail with any
      password and passing the face check opens the admin panel signed in
      as the administrator. */
  lemma AdminNeedsNoPassword(f: Form, users: seq<User>, seedTime: int, now: int, cur: Option<Account>)
    requires f.isLogin && f.email == AdminEmail
    requires UniqueEmails(users + [DefaultAdmin(seedTime)])
    requires forall i :: 0 <= i < |users| ==> users[i].id != 0
    ensures
      var st := Auth(Seed(users, seedTime), cur);
      var s1 := Submit(f, st, now);
      var s2 := FaceDetected(s1.form, s1.auth);
      s2.nav == Some(AdminPanel) && s2.auth.current == Some(Strip(DefaultAdmin(seedTime)))
  {
    var st := Auth(Seed(users, seedTime), cur);
    var us := st.users;
    assert us == users + [DefaultAdmin(seedTime)];
    assert us[|users|].email == AdminEmail;
    var a := LoginWithFace(st, AdminEmail);
    var i :| 0 <= i < |us| && us[i].email == AdminEmail && a.outcome.account == Strip(us[i]);
    assert i == |users|;
  }
}

/** The security page: changing the password, and the strength meter. */
module Security {
  import opened Options
  import opened Text
  import opened AuthContext

  predicate HasUpper(s: string) {
    exists i :: 0 <= i < |s| && IsAsciiUpper(s[i])
  }

  predicate HasDigit(s: string) {
    exists i :: 0 <= i < |s| && IsDigit(s[i])
  }

  /** `/[^A-Za-z0-9]/`: some character that is neither an ASCII letter nor
      a digit. */
  predicate HasSymbol(s: string) {
    exists i :: 0 <= i < |s| && !IsAsciiLetter(s[i]) && !IsDigit(s[i])
  }

  datatype Strength = Strength(level: nat, text: string)

  const Labels: seq<string> := ["", "Débil", "Regular", "Buena", "Fuerte", "Muy fuerte"]

  function Bonus(b: bool): nat {
    if b then 1 else 0
  }

  /** `getPasswordStrength`: nothing for an empty password, "Muy débil" for
      one shorter than six, otherwise one point plus one for each of: eight
      characters or more, an upper-case letter, a digit, a symbol. */
  function PasswordStrength(pw: string): (r: Strength)
    ensures r.level <= 5
    ensures r.level == 0 <==> |pw| == 0
    ensures 0 < |pw| < 6 ==> r == Strength(1, "Muy débil")
    ensures |pw| >= 6 ==> r.text == Labels[r.level] && r.level >= 1
    ensures |pw| >= 6 ==>
      r.level == 1 + Bonus(|pw| >= 8) + Bonus(HasUpper(pw)) + Bonus(HasDigit(pw)) + Bonus(HasSymbol(pw))
    ensures r.level == 5 ==> |pw| >= 8 && HasUpper(pw) && HasDigit(pw) && HasSymbol(pw)
  {
    if |pw| == 0 then Strength(0, "")
    else if |pw| < 6 then Strength(1, "Muy débil")
    else
      var level := 1 + Bonus(|pw| >= 8) + Bonus(HasUpper(pw)) + Bonus(HasDigit(pw)) + Bonus(HasSymbol(pw));
      Strength(level, Labels[level])
  }

  /** Typing one more character never lowers the strength. */
  lemma StrengthGrows(pw: string, c: char)
    ensures PasswordStrength(pw + [c]).level >= PasswordStrength(pw).level
  {
    var q := pw + [c];
    if |pw| >= 6 {
      if HasUpper(pw) {
        var i :| 0 <= i < |pw| && IsAsciiUpper(pw[i]);
        assert q[i] == pw[i];
      }
      if HasDigit(pw) {
        var i :| 0 <= i < |pw| && IsDigit(pw[i]);
        assert q[i] == pw[i];
      }
      if HasSymbol(pw) {
        var i :| 0 <= i < |pw| && !IsAsciiLetter(pw[i]) && !IsDigit(pw[i]);
        assert q[i] == pw[i];
      }
    }
  }

  datatype Kind = NoMessage | Success | Failure

  datatype Form = Form(currentPassword: string, newPassword: string, confirmPassword: string,
                       message: string, kind: Kind)

  datatype Outcome = Outcome(form: Form, users: seq<User>)

  /** `handlePasswordUpdate`: all three fields are required and the two new
      ones must match; then the store decides. Success clears the fields. */
  function HandlePasswordUpdate(f: Form, st: Auth): (r: Outcome)
    ensures r.form.kind == Success <==>
      && |f.currentPassword| > 0 && |f.newPassword| > 0 && |f.confirmPassword| > 0
      && f.newPassword == f.confirmPassword
      && UpdatePassword(st, f.currentPassword, f.newPassword).Updated?
    ensures r.form.kind == Success ==>
      && r.users == UpdatePassword(st, f.currentPassword, f.newPassword).users
      && |r.form.currentPassword| == 0 && |r.form.newPassword| == 0 && |r.form.confirmPassword| == 0
    ensures r.form.kind != Success ==> r.form.kind == Failure && r.users == st.users
    ensures |f.currentPassword| == 0 || |f.newPassword| == 0 || |f.confirmPassword| == 0 ==>
      r.form.message == "Todos los campos son requeridos"
  {
    if |f.currentPassword| == 0 || |f.newPassword| == 0 || |f.confirmPassword| == 0 then
      Outcome(f.(message := "Todos los campos son requeridos", kind := Failure), st.users)
    else if f.newPassword != f.confirmPassword then
      Outcome(f.(message := "Las nuevas contraseñas no coinciden", kind := Failure), st.users)
    else
      match UpdatePassword(st, f.currentPassword, f.newPassword)
      case Updated(users) =>
        Outcome(Form("", "", "",
          "✅ Contraseña actualizada correctamente La próxima vez que inicies sesión usa tu nueva contraseña.",
          Success), users)
      case Rejected(reason) =>
        Outcome(f.(message := "❌ " + reason, kind := Failure), st.users)
  }
}

=== FILE: catalog.dfy ===
/** The product catalog: the product record and the fixed list of thirty
    products the storefront ships with. */
module Catalog {
  import opened Options

  /** A product. `originalPrice` is present only on discounted products. */
  datatype Product = Product(
    id: int,
    name: string,
    price: real,
    originalPrice: Option<real>,
    category: string,
    rating: real,
    stock: int,
    description: string,
    onSale: bool)

  /** The shipped catalog (the product images are left out). */
  const Products: seq<Product> :=
    [
      Product(1, "Laptop Gaming", 899.99, None, "electronica", 4.5, 10,
        "Laptop ideal para gaming y trabajo profesional", false),
      Product(2, "Smartphone Pro", 699.99, None, "electronica", 4.3, 15,
        "Teléfono inteligente con cámara de alta resolución", false),
      Product(3, "Audífonos Inalámbricos", 199.99, None, "electronica", 4.7, 3,
        "Audífonos con cancelación de ruido", false),
      Product(4, "Camiseta Deportiva", 29.99, None, "ropa", 4.2, 25,
        "Camiseta transpirable para actividades deportivas", false),
      Product(5, "Zapatos Running", 89.99, None, "deportes", 4.6, 8,
        "Zapatos cómodos para running y ejercicio", false),
      Product(6, "Sartén Antiadherente", 49.99, None, "hogar", 4.4, 12,
        "Sartén de calidad profesional para tu cocina", false),
      Product(7, "Novela Best Seller", 19.99, None, "libros", 4.8, 20,
        "La novela más vendida del año", false),
      Product(8, "Consola de Videojuegos", 399.99, None, "juegos", 4.9, 5,
        "La última consola de videojuegos", false),
      Product(9, "Tablet Android", 199.99, Some(299.99), "electronica", 4.3, 7,
        "Tablet con descuento especial", true),
      Product(10, "Jeans Modernos", 39.99, Some(59.99), "ropa", 4.1, 15,
        "Jeans con 30% de descuento", true),
      Product(11, "Smartwatch Deportivo", 149.99, None, "electronica", 4.4, 18,
        "Reloj inteligente con monitor de actividad", false),
      Product(12, "Cámara DSLR Profesional", 799.99, None, "electronica", 4.7, 6,
        "Cámara profesional para fotografía avanzada", false),
      Product(13, "Abrigo de Invierno", 129.99, None, "ropa", 4.5, 12,
        "Abrigo cálido para temporada de frío", false),
      Product(14, "Vestido Elegante", 69.99, None, "ropa", 4.3, 20,
        "Vestido perfecto para ocasiones especiales", false),
      Product(15, "Balón de Fútbol", 24.99, None, "deportes", 4.6, 30,
        "Balón oficial para partidos profesionales", false),
      Product(16, "Raqueta de Tenis", 89.99, None, "deportes", 4.4, 10,
        "Raqueta profesional para tenistas avanzados", false),
      Product(17, "Juego de Sábanas Queen", 45.99, None, "hogar", 4.2, 25,
        "Sábanas de algodón egipcio de alta calidad", false),
      Product(18, "Lámpara de Mesa LED", 34.99, None, "hogar", 4.3, 15,
        "Lámpara moderna con luz ajustable", false),
      Product(19, "Libro de Cocina Gourmet", 27.99, None, "libros", 4.7, 22,
        "Recetas exclusivas de chefs internacionales", false),
      Product(20, "Trilogía Fantasía Épica", 49.99, Some(69.99), "libros", 4.9, 18,
        "Saga completa de fantasía bestseller", true),
      Product(21, "Videojuego de Aventuras", 59.99, None, "juegos", 4.8, 14,
        "Nuevo lanzamiento de mundo abierto", false),
      Product(22, "Joystick Inalámbrico", 79.99, None, "juegos", 4.5, 9,
        "Control compatible con múltiples plataformas", false),
      Product(23, "Auriculares Gaming", 129.99, Some(179.99), "electronica", 4.6, 11,
        "Sonido surround para experiencia inmersiva", true),
      Product(24, "Mochila Laptop", 49.99, None, "ropa", 4.4, 20,
        "Mochila resistente con compartimento acolchado", false),
      Product(25, "Set de Pesas Ajustables", 199.99, None, "deportes", 4.7, 7,
        "Set completo para entrenamiento en casa", false),
      Product(26, "Robot Aspirador", 299.99, Some(399.99), "hogar", 4.5, 5,
        "Aspirador inteligente con app control", true),
      Product(27, "Enciclopedia Científica", 89.99, None, "libros", 4.8, 16,
        "Colección completa de ciencia moderna", false),
      Product(28, "Juego de Mesa Familiar", 39.99, None, "juegos", 4.6, 25,
        "Diversión para toda la familia", false),
      Product(29, "Suéter de Lana", 59.99, None, "ropa", 4.3, 18,
        "Suéter tejido a mano con lana natural", false),
      Product(30, "Bicicleta Montañera", 449.99, Some(599.99), "deportes", 4.9, 4,
        "Bicicleta profesional para montaña", true)
    ]

  /** `Math.max(...ps.map(p => p.price))`; `None` stands for the
      `-Infinity` JavaScript returns for an empty list. */
  function MaxPrice(ps: seq<Product>): (r: Option<real>)
    ensures r.None? <==> |ps| == 0
    ensures r.Some? ==> forall i :: 0 <= i < |ps| ==> ps[i].price <= r.value
    ensures r.Some? ==> exists i :: 0 <= i < |ps| && ps[i].price == r.value
  {
    if |ps| == 0 then None
    else
      var rest := MaxPrice(ps[1..]);
      if rest.None? || ps[0].price >= rest.value then Some(ps[0].price)
      else
        assert forall i :: 1 <= i < |ps| ==> ps[i] == ps[1..][i - 1];
        var k :| 0 <= k < |ps[1..]| && ps[1..][k].price == rest.value;
        assert ps[k + 1].price == rest.value;
        rest
  }

  /** The ids are exactly 1..30, in order, hence pairwise distinct. */
  lemma CatalogIds()
    ensures |Products| == 30
    ensures forall i :: 0 <= i < |Products| ==> Products[i].id == i + 1
    ensures forall i, j :: 0 <= i < j < |Products| ==> Products[i].id != Products[j].id
  {
  }

  /** The discounted products are exactly ids 9, 10, 20, 23, 26 and 30, and
      each of them used to cost more than it does now. */
  lemma CatalogSales()
    ensures forall i :: 0 <= i < |Products| ==>
      (Products[i].onSale <==> Products[i].id in {9, 10, 20, 23, 26, 30})
    ensures forall i :: 0 <= i < |Products| ==>
      (Products[i].originalPrice.Some? <==> Products[i].onSale)
    ensures forall i :: 0 <= i < |Products| && Products[i].originalPrice.Some? ==>
      Products[i].originalPrice.value > Products[i].price
  {
    SaleIds();
    SaleOriginals();
  }

  lemma SaleIds()
    ensures forall i :: 0 <= i < |Products| ==>
      (Products[i].onSale <==> Products[i].id in {9, 10, 20, 23, 26, 30})
  {
  }

  lemma SaleOriginals()
    ensures forall i :: 0 <= i < |Products| ==>
      (Products[i].originalPrice.Some? <==> Products[i].onSale)
    ensures forall i :: 0 <= i < |Products| && Products[i].originalPrice.Some? ==>
      Products[i].originalPrice.value > Products[i].price
  {
  }

  /** Every rating lies in [4.1, 4.9]. */
  lemma CatalogRatings()
    ensures forall i :: 0 <= i < |Products| ==> 4.1 <= Products[i].rating <= 4.9
  {
  }

  /** No product costs more than 899.99 or less than nothing. */
  lemma CatalogPriceBounds()
    ensures forall i :: 0 <= i < |Products| ==> 0.0 <= Products[i].price <= 899.99
    ensures Products[0].price == 899.99
  {
  }

  /** The dearest product is the gaming laptop at 899.99, so the default
      price range [0, 1000] admits every product. */
  lemma CatalogMaxPrice()
    ensures MaxPrice(Products) == Some(899.99)
  {
    CatalogPriceBounds();
    var ps := Products;
    var m := MaxPrice(ps);
    var k :| 0 <= k < |ps| && ps[k].price == m.value;
    assert ps[0].price <= m.value;
  }

  /** The catalog uses exactly six categories. */
  lemma CatalogCategories()
    ensures (set i | 0 <= i < |Products| :: Products[i].category)
         == {"electronica", "ropa", "deportes", "hogar", "libros", "juegos"}
  {
    CategoriesAmongSix();
    SixCategoriesUsed();
    var six := {"electronica", "ropa", "deportes", "hogar", "libros", "juegos"};
    forall c | c in six
      ensures exists i :: 0 <= i < |Products| && Products[i].category == c
    {
      var i := if c == "electronica" then 0 else if c == "ropa" then 3 else if c == "deportes" then 4
        else if c == "hogar" then 5 else if c == "libros" then 6 else 7;
      assert Products[i].category == c;
    }
    CategorySet(Products, {"electronica", "ropa", "deportes", "hogar", "libros", "juegos"});
  }

  /** The set of categories of a list is `cs` when every category is in
      `cs` and every member of `cs` is some product's category. */
  lemma CategorySet(ps: seq<Product>, cs: set<string>)
    requires forall i :: 0 <= i < |ps| ==> ps[i].category in cs
    requires forall c :: c in cs ==> exists i :: 0 <= i < |ps| && ps[i].category == c
    ensures (set i | 0 <= i < |ps| :: ps[i].category) == cs
  {
  }

  lemma SixCategoriesUsed()
    ensures Products[0].category == "electronica" && Products[3].category == "ropa"
    ensures Products[4].category == "deportes"
    ensures Products[5].category == "hogar" && Products[6].category == "libros"
    ensures Products[7].category == "juegos"
  {
    FirstCategories();
    LaterCategories();
  }

  lemma FirstCategories()
    ensures Products[0].category == "electronica" && Products[3].category == "ropa"
    ensures Products[4].category == "deportes"
  {
    assert Products[0].category == "electronica";
    assert Products[3].category == "ropa";
    assert Products[4].category == "deportes";
  }

  lemma LaterCategories()
    ensures Products[5].category == "hogar" && Products[6].category == "libros"
    ensures Products[7].category == "juegos"
  {
    assert Products[5].category == "hogar";
    assert Products[6].category == "libros";
    assert Products[7].category == "juegos";
  }

  lemma CategoriesAmongSix()
    ensures forall i :: 0 <= i < |Products| ==>
      Products[i].category in {"electronica", "ropa", "deportes", "hogar", "libros", "juegos"}
  {
  }
}

=== FILE: chatbot.dfy ===
/** The storefront's chat assistant: a keyword categoriser over the
    lower-cased message, a canned reply per category, and the chat window's
    message list. The random reply choice is a parameter `choice` in
    [0, 1), as `Math.random()` returns; the clock is a parameter `now`. */
module ChatBot {
  import opened Options
  import opened Text
  import opened Lists

  datatype Topic = Producto | Precio | Envio | Devolucion | Pago | Cuenta | Oferta | Garantia | Contacto | General

  /** A category and the words that select it. */
  datatype Group = Group(topic: Topic, keywords: seq<string>)

  /** Some keyword of `g` occurs in the (lower-cased) message `m`. */
  predicate Hits(g: Group, m: string) {
    exists k :: k in g.keywords && Contains(m, k)
  }

  /** The keyword groups of `getAIResponse`, in the order they are tried. */
  const Groups: seq<Group> := [
    Group(Producto, ["producto", "item", "artículo"]),
    Group(Precio, ["precio", "costo", "valor"]),
    Group(Envio, ["envío", "entrega", "enviar"]),
    Group(Devolucion, ["devolución", "devolver", "cambio"]),
    Group(Pago, ["pago", "tarjeta", "pag"]),
    Group(Cuenta, ["cuenta", "registro", "login"]),
    Group(Oferta, ["oferta", "descuento", "promoción"]),
    Group(Garantia, ["garantía", "garantia", "reparación"]),
    Group(Contacto, ["contacto", "soporte", "ayuda"])
  ]

  /** The groups with the plural "devoluciones" added to the returns
      group, so that the returns quick question reaches it. */
  const FixedGroups: seq<Group> := Groups[3 := Group(Devolucion, ["devolución", "devolver", "cambio", "devoluciones"])]

  predicate HitsMessage(m: string, g: Group) {
    Hits(g, m)
  }

  /** The topic of the first group with a keyword in the lower-cased
      message, or `General` when none has. */
  function CategoryIn(gs: seq<Group>, msg: string): (t: Topic)
    ensures (forall i :: 0 <= i < |gs| ==> !Hits(gs[i], Lower(msg))) ==> t == General
    ensures forall i :: 0 <= i < |gs| && Hits(gs[i], Lower(msg)) && (forall j :: 0 <= j < i ==> !Hits(gs[j], Lower(msg))) ==>
      t == gs[i].topic
  {
    var m := Lower(msg);
    match FirstWhere(gs, g => HitsMessage(m, g))
    case None => General
    case Some(i) => gs[i].topic
  }

  /** The category `getAIResponse` selects, as written. */
  function CategoryAsWritten(msg: string): Topic {
    CategoryIn(Groups, msg)
  }

  /** The category with the returns group fixed; the replies use this. */
  function Category(msg: string): Topic {
    CategoryIn(FixedGroups, msg)
  }

  /** Group `i` is the first with a keyword in `m`. */
  predicate IsFirstHit(gs: seq<Group>, i: nat, m: string)
    requires i < |gs|
  {
    Hits(gs[i], m) && forall j :: 0 <= j < i ==> !Hits(gs[j], m)
  }

  /** With no group for `General`, the category is `General` exactly when
      no group has a keyword in the message. */
  lemma GeneralIffNoHit(gs: seq<Group>, msg: string)
    requires forall i :: 0 <= i < |gs| ==> gs[i].topic != General
    ensures CategoryIn(gs, msg) == General <==> forall i :: 0 <= i < |gs| ==> !Hits(gs[i], Lower(msg))
  {
  }

  /** A selected topic other than `General` is that of the first group with
      a keyword in the message. */
  lemma CategoryIsFirstHit(gs: seq<Group>, msg: string)
    ensures CategoryIn(gs, msg) != General ==>
      exists i :: 0 <= i < |gs| && IsFirstHit(gs, i, Lower(msg)) && gs[i].topic == CategoryIn(gs, msg)
  {
    var m := Lower(msg);
    var r := FirstWhere(gs, g => HitsMessage(m, g));
    if r.Some? {
      var i := r.value;
      assert IsFirstHit(gs, i, m);
    }
  }

  /** A message with "pag" in it that no earlier group catches is about
      payment, whatever follows. */
  lemma PagIsPayment(msg: string)
    requires Contains(Lower(msg), "pag")
    requires forall j :: 0 <= j < 4 ==> !Hits(Groups[j], Lower(msg))
    ensures CategoryAsWritten(msg) == Pago
  {
    assert Hits(Groups[4], Lower(msg)) by {
      assert "pag" in Groups[4].keywords;
    }
  }
  /** Two tables that agree on every group's topic and on which groups a
      message hits select the same category for it. */
  lemma SameHitsSameCategory(gs: seq<Group>, hs: seq<Group>, msg: string)
    requires |gs| == |hs|
    requires forall i :: 0 <= i < |gs| ==> gs[i].topic == hs[i].topic
    requires forall i :: 0 <= i < |gs| ==> (Hits(gs[i], Lower(msg)) <==> Hits(hs[i], Lower(msg)))
    ensures CategoryIn(gs, msg) == CategoryIn(hs, msg)
  {
    var m := Lower(msg);
    var a := FirstWhere(gs, g => HitsMessage(m, g));
    var b := FirstWhere(hs, g => HitsMessage(m, g));
    if a.Some? && b.Some? {
      assert !(a.value < b.value) && !(b.value < a.value);
    }
  }

  /** The corrected table differs from the original only in the returns
      group, which gains "devoluciones". */
  lemma FixedGroupsDiffer(i: int)
    requires 0 <= i < |Groups|
    ensures |FixedGroups| == |Groups| && FixedGroups[i].topic == Groups[i].topic
    ensures i != 3 ==> FixedGroups[i] == Groups[i]
    ensures i == 3 ==> FixedGroups[i].keywords == Groups[i].keywords + ["devoluciones"]
  {
  }

  /** The fix only matters to messages with "devoluciones" in them. */
  lemma FixOnlyAddsPlural(msg: string)
    requires !Contains(Lower(msg), "devoluciones")
    ensures Category(msg) == CategoryAsWritten(msg)
  {
    var m := Lower(msg);
    assert |FixedGroups| == |Groups|;
    forall i | 0 <= i < |FixedGroups|
      ensures FixedGroups[i].topic == Groups[i].topic
      ensures Hits(FixedGroups[i], m) <==> Hits(Groups[i], m)
    {
      FixedGroupsDiffer(i);
      if i == 3 && Hits(FixedGroups[i], m) {
        var k :| k in FixedGroups[i].keywords && Contains(m, k);
        assert k != "devoluciones";
        assert k in Groups[i].keywords;
      }
    }
    SameHitsSameCategory(FixedGroups, Groups, msg);
  }

  /** The quick question about returns, written as its two words. */
  const ReturnsQuestion := "¿Aceptan" + " " + "devoluciones?"

  /** Lower-casing the returns question lower-cases its first word. */
  lemma LowerReturnsQuestion(q: string) returns (a: string, b: string)
    requires q == ReturnsQuestion
    ensures a == "¿aceptan" && b == "devoluciones?" && Lower(q) == a + " " + b
  {
    a, b := "¿aceptan", "devoluciones?";
    LowerAppend("¿Aceptan", " ");
    LowerAppend("¿Aceptan" + " ", "devoluciones?");
    LowerFirstWord("¿Aceptan");
    LowerSecondWord("devoluciones?");
  }

  lemma LowerAppend(x: string, y: string)
    ensures Lower(x + y) == Lower(x) + Lower(y)
  {
  }

  lemma LowerFirstWord(x: string)
    requires x == "¿Aceptan"
    ensures Lower(x) == "¿aceptan"
  {
  }

  lemma LowerSecondWord(x: string)
    requires x == "devoluciones?"
    ensures Lower(x) == x
  {
  }

  /** As written, the returns quick question never reaches the returns
      answers: it contains neither "devolución" (it has the plural, without
      the accent) nor "devolver" nor "cambio". */
  lemma ReturnsQuestionMissesReturns(q: string)
    requires q == ReturnsQuestion
    ensures CategoryAsWritten(q) != Devolucion
  {
    var a, b := LowerReturnsQuestion(q);
    var m := a + " " + b;
    MissesReturns(a, b);
    if CategoryAsWritten(q) == Devolucion {
      CategoryIsFirstHit(Groups, q);
      var i :| 0 <= i < |Groups| && IsFirstHit(Groups, i, m) && Groups[i].topic == Devolucion;
      OnlyOneReturnsGroup(i);
      assert false;
    }
  }

  lemma OnlyOneReturnsGroup(i: int)
    requires 0 <= i < |Groups| && Groups[i].topic == Devolucion
    ensures i == 3
  {
  }

  /** With the plural added, it does. */
  lemma ReturnsQuestionFixed(q: string)
    requires q == ReturnsQuestion
    ensures Category(q) == Devolucion
  {
    var a, b := LowerReturnsQuestion(q);
    var m := a + " " + b;
    MissesProducts(a, b);
    MissesPrices(a, b);
    MissesShipping(a, b);
    HitsFixedReturns(a, b);
    FixedGroupsDiffer(0);
    FixedGroupsDiffer(1);
    FixedGroupsDiffer(2);
    assert IsFirstHit(FixedGroups, 3, m);
  }

  /** `k` cannot occur in `w` when one of its characters does not. */
  lemma CharMissing(w: string, k: string, c: char)
    requires c in k && c !in w
    ensures !Contains(w, k)
  {
    ContainsIffAt(w, k);
  }

  /** A text occurring in `b` occurs in `a + b`. */
  lemma {:induction false} ContainsRight(a: string, b: string, k: string)
    requires Contains(b, k)
    ensures Contains(a + b, k)
    decreases |a|
  {
    if |a| > 0 {
      assert (a + b)[1..] == a[1..] + b;
      ContainsRight(a[1..], b, k);
    } else {
      assert a + b == b;
    }
  }

  /** A word with no space occurs in `a + " " + b` only inside `a` or `b`. */
  lemma SplitAtSpace(a: string, b: string, k: string)
    requires ' ' !in k
    ensures Contains(a + " " + b, k) ==> Contains(a, k) || Contains(b, k)
  {
    var s := a + " " + b;
    ContainsIffAt(s, k);
    if Contains(s, k) {
      var i :| OccursAt(s, k, i);
      if i + |k| <= |a| {
        InLeft(a, b, k, i);
      } else if i > |a| {
        InRight(a, b, k, i);
      } else {
        SliceAt(s, i, |k|, |a| - i);
      }
    }
  }

  lemma InLeft(a: string, b: string, k: string, i: int)
    requires OccursAt(a + " " + b, k, i) && i + |k| <= |a|
    ensures Contains(a, k)
  {
    assert a[i..i + |k|] == (a + " " + b)[i..i + |k|];
    OccursAtContains(a, k, i);
  }

  lemma InRight(a: string, b: string, k: string, i: int)
    requires OccursAt(a + " " + b, k, i) && i > |a|
    ensures Contains(b, k)
  {
    var j := i - |a| - 1;
    assert b[j..j + |k|] == (a + " " + b)[i..i + |k|];
    OccursAtContains(b, k, j);
  }

  lemma SliceAt(s: string, i: int, n: int, j: int)
    ensures 0 <= i <= i + n <= |s| && 0 <= j < n ==> s[i..i + n][j] == s[i + j]
  {
  }

  /** The lowered returns question hits no keyword of the products group. */
  lemma MissesProducts(a: string, b: string)
    requires a == "¿aceptan" && b == "devoluciones?"
    ensures !Hits(Groups[0], a + " " + b)
  {
    var m := a + " " + b;
    CharMissing(m, "producto", 'r');
    CharMissing(m, "item", 'm');
    CharMissing(m, "artículo", 'r');
  }

  /** ... nor of the prices group: "costo" would have to lie inside one of
      the two words, and neither has all its letters. */
  lemma MissesPrices(a: string, b: string)
    requires a == "¿aceptan" && b == "devoluciones?"
    ensures !Hits(Groups[1], a + " " + b)
  {
    var m := a + " " + b;
    CharMissing(m, "precio", 'r');
    CostoMissing(a, b);
    CharMissing(m, "valor", 'r');
  }

  lemma CostoMissing(a: string, b: string)
    requires a == "¿aceptan" && b == "devoluciones?"
    ensures !Contains(a + " " + b, "costo")
  {
    SplitAtSpace(a, b, "costo");
    CharMissing(a, "costo", 'o');
    CharMissing(b, "costo", 't');
  }

  /** ... nor of the shipping group ... */
  lemma MissesShipping(a: string, b: string)
    requires a == "¿aceptan" && b == "devoluciones?"
    ensures !Hits(Groups[2], a + " " + b)
  {
    var m := a + " " + b;
    CharMissing(m, "envío", 'í');
    CharMissing(m, "entrega", 'r');
    CharMissing(m, "enviar", 'r');
  }

  /** ... nor of the returns group as written ... */
  lemma MissesReturns(a: string, b: string)
    requires a == "¿aceptan" && b == "devoluciones?"
    ensures !Hits(Groups[3], a + " " + b)
  {
    var m := a + " " + b;
    SingularMissing(a, b);
    CharMissing(m, "devolver", 'r');
    CharMissing(m, "cambio", 'm');
  }

  lemma SingularMissing(a: string, b: string)
    requires a == "¿aceptan" && b == "devoluciones?"
    ensures !Contains(a + " " + b, "devolución")
  {
    CharMissing(a + " " + b, "devolución", 'ó');
  }

  /** ... but it does hit the corrected returns group. */
  lemma HitsFixedReturns(a: string, b: string)
    requires a == "¿aceptan" && b == "devoluciones?"
    ensures Hits(FixedGroups[3], a + " " + b)
  {
    assert "devoluciones" <= b;
    ContainsRight(a + " ", b, "devoluciones");
    assert "devoluciones" in FixedGroups[3].keywords;
  }

  /** How many canned answers a category has. */
  function Count(t: Topic): nat {
    if t == General then 5 else 3
  }

  /** The `index`-th canned answer of `topic`. */
  datatype Answer = Answer(topic: Topic, index: nat)

  /** The text of each canned answer. */
  function AnswerText(a: Answer): string
    requires a.index < Count(a.topic)
  {
    match a.topic
    case Producto =>
      if a.index == 0 then "Tenemos una amplia variedad de productos. ¿Buscas algo específico? Puedo ayudarte a encontrar lo que necesitas."
      else if a.index == 1 then "Puedes explorar nuestros productos en la sección 'Productos'. ¿Te interesa alguna categoría en particular?"
      else "Todos nuestros productos tienen garantía y envío gratuito. ¿Qué tipo de producto buscas?"
    case Precio =>
      if a.index == 0 then "Nuestros precios son competitivos y frecuentemente tenemos ofertas. ¿Te interesa algún producto específico para consultar el precio?"
      else if a.index == 1 then "Puedes ver los precios actualizados en cada página de producto. También tenemos sección de ofertas con descuentos especiales."
      else "¿Quieres saber el precio de algún producto en particular? Estoy aquí para ayudarte."
    case Envio =>
      if a.index == 0 then "¡Ofrecemos envío gratuito en todos los pedidos superiores a $50! El tiempo de entrega es de 3-5 días hábiles."
      else if a.index == 1 then "Hacemos envíos a todo el país. El costo y tiempo de entrega dependen de tu ubicación y el tamaño del pedido."
      else "Puedes hacer seguimiento de tu pedido desde tu cuenta una vez que sea despachado."
    case Devolucion =>
      if a.index == 0 then "Aceptamos devoluciones dentro de los 30 días posteriores a la compra. El producto debe estar en perfecto estado."
      else if a.index == 1 then "Para devoluciones, contacta a nuestro servicio al cliente o visita la sección 'Mis Pedidos' en tu perfil."
      else "Las devoluciones son gratuitas si el producto presenta algún defecto de fábrica."
    case Pago =>
      if a.index == 0 then "Aceptamos tarjetas de crédito, débito, PayPal y transferencias bancarias. Todas las transacciones son seguras."
      else if a.index == 1 then "Puedes guardar tus métodos de pago en tu perfil para compras futuras más rápidas."
      else "¿Tienes alguna duda específica sobre métodos de pago? Estoy aquí para ayudarte."
    case Cuenta =>
      if a.index == 0 then "Puedes crear una cuenta gratis para guardar tus pedidos, favoritos y datos de envío."
      else if a.index == 1 then "En tu cuenta podrás ver tu historial de compras, gestionar suscripciones y actualizar tu información personal."
      else "¿Necesitas ayuda para crear una cuenta o recuperar tu contraseña?"
    case Oferta =>
      if a.index == 0 then "¡Revisa nuestra sección 'Ofertas' para encontrar los mejores descuentos! Actualizamos las promociones semanalmente."
      else if a.index == 1 then "Tenemos ofertas especiales para suscriptores. ¿Te gustaría saber más sobre nuestros planes de suscripción?"
      else "No te pierdas nuestras ofertas flash que publicamos cada viernes."
    case Garantia =>
      if a.index == 0 then "Todos nuestros productos tienen garantía del fabricante. La duración varía según el producto."
      else if a.index == 1 then "La garantía cubre defectos de fabricación. Para hacerla válida, conserva tu ticket de compra."
      else "¿Tienes algún problema con un producto? Podemos ayudarte con el proceso de garantía."
    case Contacto =>
      if a.index == 0 then "Puedes contactarnos por WhatsApp al +1-234-567-8900, email: soporte@tienda.com, o nuestro chat en vivo."
      else if a.index == 1 then "Nuestro servicio al cliente está disponible 24/7 por chat y de 9 AM a 6 PM por teléfono."
      else "¿En qué puedo ayudarte a contactar con el equipo adecuado?"
    case General =>
      if a.index == 0 then "Entiendo tu pregunta. ¿Podrías darme más detalles para poder ayudarte mejor?"
      else if a.index == 1 then "¡Excelente pregunta! Nuestro equipo está siempre disponible para asistirte con eso."
      else if a.index == 2 then "Puedo ayudarte con información sobre productos, precios, envíos y más. ¿Qué te gustaría saber específicamente?"
      else if a.index == 3 then "Gracias por tu consulta. Para darte la mejor respuesta, ¿podrías contarme un poco más?"
      else "Estoy aquí para ayudarte con cualquier duda sobre nuestra tienda. ¿En qué aspecto necesitas asistencia?"
  }

  /** `Math.floor(choice * n)` is an index into a list of `n`. */
  lemma FloorIndex(choice: real, n: nat)
    requires 0.0 <= choice < 1.0 && n > 0
    ensures 0 <= (choice * n as real).Floor < n
  {
    var x := n as real;
    assert x - choice * x == (1.0 - choice) * x;
    assert (1.0 - choice) * x > 0.0;
    assert choice * x >= 0.0;
  }

  /** The answer at `floor(choice * n)` among the `n` answers of `t`. */
  function Pick(t: Topic, choice: real): (r: Answer)
    requires 0.0 <= choice < 1.0
    ensures r.topic == t && r.index < Count(r.topic)
  {
    FloorIndex(choice, Count(t));
    Answer(t, (choice * Count(t) as real).Floor as nat)
  }

  /** `getAIResponse(userMessage)`: an answer of the selected category. */
  function Reply(msg: string, choice: real): (r: Answer)
    requires 0.0 <= choice < 1.0
    ensures r.topic == Category(msg) && r.index < Count(r.topic)
  {
    Pick(Category(msg), choice)
  }

  /** Every answer of a category is picked for some `choice`. */
  lemma EveryAnswerReachable(t: Topic, k: nat)
    requires k < Count(t)
    ensures 0.0 <= k as real / Count(t) as real < 1.0
    ensures Pick(t, k as real / Count(t) as real) == Answer(t, k)
  {
    var n := Count(t) as real;
    var c := k as real / n;
    assert c * n == k as real;
    assert (k as real).Floor == k;
  }

  datatype Message = Message(id: int, text: string, isBot: bool)

  const WelcomeText := "¡Hola! Soy tu asistente virtual. ¿En qué puedo ayudarte hoy con nuestros productos?"

  /** The welcome message; its id is always 1. */
  const Welcome := Message(1, WelcomeText, true)

  datatype Chat = Chat(isOpen: bool, messages: seq<Message>, input: string)

  /** The welcome effect: an open chat with no messages gets the welcome
      message alone. */
  function Welcomed(c: Chat): (r: Chat)
    ensures c.isOpen && |c.messages| == 0 ==> r == c.(messages := [Welcome])
    ensures !(c.isOpen && |c.messages| == 0) ==> r == c
  {
    if c.isOpen && |c.messages| == 0 then c.(messages := [Welcome]) else c
  }

  /** Opening the window, followed by the welcome effect. */
  function Open(c: Chat): (r: Chat)
    ensures r.isOpen && r.input == c.input
    ensures |c.messages| == 0 ==> r.messages == [Welcome]
    ensures |c.messages| > 0 ==> r.messages == c.messages
  {
    Welcomed(c.(isOpen := true))
  }

  /** `clearChatHistory`: only the welcome message is left. */
  function ClearHistory(c: Chat): (r: Chat)
    ensures r.messages == [Welcome] && r.isOpen == c.isOpen && r.input == c.input
  {
    c.(messages := [Welcome])
  }

  /** `handleQuickQuestion(question)`: the question is put in the input box. */
  function QuickQuestion(c: Chat, question: string): (r: Chat)
    ensures r.input == question && r.messages == c.messages
  {
    c.(input := question)
  }

  /** `handleSendMessage` once its reply has arrived: a blank input is
      ignored; otherwise the customer's message (id `now`) and the reply
      to the untrimmed text (id `now + 1`) are appended and the input box
      emptied. */
  function Send(c: Chat, now: int, choice: real): (r: Chat)
    requires 0.0 <= choice < 1.0
    ensures IsBlank(c.input) ==> r == c
    ensures !IsBlank(c.input) ==>
      && r.messages == c.messages + [Message(now, c.input, false), Message(now + 1, AnswerText(Reply(c.input, choice)), true)]
      && r.input == "" && r.isOpen == c.isOpen
  {
    TrimEmptyIffBlank(c.input);
    if Trim(c.input) == "" then c
    else
      c.(messages := c.messages + [Message(now, c.input, false), Message(now + 1, AnswerText(Reply(c.input, choice)), true)],
         input := "")
  }

  /** Clearing and then reopening leaves just the welcome message, and the
      welcome effect never adds a second one. */
  lemma ClearThenOpen(c: Chat)
    ensures Open(ClearHistory(c)).messages == [Welcome]
    ensures Welcomed(Welcomed(c)) == Welcomed(c)
  {
  }
}

=== FILE: checkout.dfy ===
/** The three-step checkout page: shipping address, payment, review. It
    prices a product order (free shipping above 50, 16% tax) or a
    subscription (its plan price, nothing added), guards each step, and
    places the order. */
module Checkout {
  import opened Options
  import opened Text
  import opened CheckoutContext
  import opened PaymentMethod
  import opened Subscriptions

  datatype OrderType = ProductsOrder | SubscriptionOrder

  datatype Totals = Totals(subtotal: real, shipping: real, tax: real, total: real)

  const FreeShippingAbove: real := 50.0
  const ShippingFee: real := 9.99
  const TaxRate: real := 0.16

  /** `calculateTotals`: a subscription with its data costs its price with
      no shipping and no tax; anything else is the cart's total plus
      shipping (waived above 50) plus 16% tax on the cart's total. */
  function CalculateTotals(kind: OrderType, subData: Option<SubscriptionData>, cartTotal: real): (r: Totals)
    ensures r.total == r.subtotal + r.shipping + r.tax
    ensures kind == SubscriptionOrder && subData.Some? ==>
      r.subtotal == subData.value.price && r.shipping == 0.0 && r.tax == 0.0
    ensures !(kind == SubscriptionOrder && subData.Some?) ==>
      && r.subtotal == cartTotal
      && (r.shipping == 0.0 <==> cartTotal > FreeShippingAbove)
      && (r.shipping != 0.0 ==> r.shipping == ShippingFee)
      && r.tax == TaxRate * cartTotal
  {
    if kind == SubscriptionOrder && subData.Some? then
      var p := subData.value.price;
      Totals(p, 0.0, 0.0, p)
    else
      var shipping := if cartTotal > FreeShippingAbove then 0.0 else ShippingFee;
      var tax := cartTotal * TaxRate;
      Totals(cartTotal, shipping, tax, cartTotal + shipping + tax)
  }

  /** Two carts on the same side of the free-shipping line: the dearer cart
      never has the smaller total. Across the line this fails (a cart of
      50 totals 67.99, one of 50.01 about 58.01). */
  lemma TotalMonotoneOnEachSide(a: real, b: real)
    requires a <= b
    requires (a > FreeShippingAbove) == (b > FreeShippingAbove)
    ensures CalculateTotals(ProductsOrder, None, a).total <= CalculateTotals(ProductsOrder, None, b).total
  {
  }

  /** The page's worked figures: a cart of 45 pays 62.19, a cart of 60
      pays 69.60, and the monthly plan pays 9.99. */
  lemma TotalsExamples()
    ensures CalculateTotals(ProductsOrder, None, 45.0) == Totals(45.0, 9.99, 7.2, 62.19)
    ensures CalculateTotals(ProductsOrder, None, 60.0) == Totals(60.0, 0.0, 9.6, 69.6)
    ensures CalculateTotals(SubscriptionOrder, Some(SubscriptionData("monthly", "Mensual", 9.99, 0)), 45.0)
         == Totals(9.99, 0.0, 0.0, 9.99)
  {
  }

  /** The address fields step 1 insists on (the country is not checked). */
  datatype AddressField = FullName | Street | City | PostalCode | Phone

  function FieldOf(a: Address, f: AddressField): string {
    match f
    case FullName => a.fullName
    case Street => a.address
    case City => a.city
    case PostalCode => a.postalCode
    case Phone => a.phone
  }

  /** The field is empty once trimmed: `!value.trim()`. */
  predicate Missing(a: Address, f: AddressField) {
    Trim(FieldOf(a, f)) == []
  }

  /** `validateStep1`: the fields whose trimmed value is empty. */
  function ValidateStep1(a: Address): (r: set<AddressField>)
    ensures forall f :: f in r <==> Missing(a, f)
  {
    var all := {FullName, Street, City, PostalCode, Phone};
    assert forall f: AddressField :: f.FullName? || f.Street? || f.City? || f.PostalCode? || f.Phone?;
    set f | f in all && Missing(a, f)
  }

  /** Step 1 complains about a field exactly when it is blank, and lets the
      customer on exactly when no field is blank. */
  lemma Step1ErrorsAreBlankFields(a: Address)
    ensures forall f :: f in ValidateStep1(a) <==> IsBlank(FieldOf(a, f))
    ensures ValidateStep1(a) == {} <==> forall f :: !IsBlank(FieldOf(a, f))
  {
    forall f: AddressField
      ensures Missing(a, f) <==> IsBlank(FieldOf(a, f))
    {
      TrimEmptyIffBlank(FieldOf(a, f));
    }
  }

  /** `validateStep2`. The card's expiry is checked only by its length. */
  predicate ValidateStep2(kind: OrderType, ck: Checkout) {
    if kind == SubscriptionOrder && ck.paymentMethod == Cash then false
    else
      match ck.paymentMethod
      case CreditCard =>
        && |WithoutSpaces(ck.card.number)| == 16
        && |Trim(ck.card.name)| > 0
        && |ck.card.expiry| == 5
        && |ck.card.cvc| >= 3
      case PayPal => EmailShape(ck.paypalEmail)
      case Cash => true
      case OtherMethod(_) => false
  }

  /** On every expiry the widget can store, the page's step-2 guard is the
      widget's own `canProceed`, with cash refused for subscriptions. */
  lemma Step2AgreesWithWidget(kind: OrderType, ck: Checkout, rawExpiry: string)
    ensures
      var c := ck.(card := ck.card.(expiry := FormatExpiry(rawExpiry)));
      ValidateStep2(kind, c) <==>
        CanProceed(c.paymentMethod, c.card, c.paypalEmail)
        && !(kind == SubscriptionOrder && c.paymentMethod == Cash)
  {
    ExpiryLengthIffShape(rawExpiry);
  }

  /** The two checks part ways on a five-character expiry that is not
      `MM/YY` (such as "12345"), a value only the widget's formatting keeps
      out: the page would accept the card, the widget would not. */
  lemma Step2LooserThanWidget(kind: OrderType, ck: Checkout)
    requires ck.paymentMethod == CreditCard
    requires |ck.card.expiry| == 5 && !ExpiryShape(ck.card.expiry)
    ensures !CanProceed(ck.paymentMethod, ck.card, ck.paypalEmail)
    ensures ValidateStep2(kind, ck) <==>
      |WithoutSpaces(ck.card.number)| == 16 && |Trim(ck.card.name)| > 0 && |ck.card.cvc| >= 3
    ensures !ExpiryShape("12345")
  {
  }

  /** Where the customer arrived from: a plain visit, or the subscriptions
      page handing over a plan. */
  datatype Arrival = Visit | FromSubscriptions(data: SubscriptionData)

  /** The page's own state. `errors` are step 1's last complaints. */
  datatype Session = Session(
    step: int,
    kind: OrderType,
    subData: Option<SubscriptionData>,
    errors: set<AddressField>)

  const InitialSession := Session(1, ProductsOrder, None, {})

  /** The result of the arrival effect: the page goes on, or it throws. */
  datatype Entered = Entered(session: Session, ck: Checkout) | Crashed

  /** The page's arrival effect, as written: a subscription arrival
      records the order type and plan, and if the method is cash it calls
      `updatePaymentMethod`, which the checkout store does not provide, so
      the call throws. */
  function ArriveAsWritten(s: Session, ck: Checkout, from: Arrival): (r: Entered)
    ensures from.Visit? ==> r == Entered(s, ck)
    ensures from.FromSubscriptions? ==> (r.Crashed? <==> ck.paymentMethod == Cash)
  {
    match from
    case Visit => Entered(s, ck)
    case FromSubscriptions(data) =>
      if ck.paymentMethod == Cash then Crashed
      else Entered(s.(kind := SubscriptionOrder, subData := Some(data)), ck)
  }

  /** A customer who picked cash for an earlier product order and then buys
      a plan lands on a page that throws. */
  lemma ArriveAsWrittenCrashes(data: SubscriptionData)
    ensures ArriveAsWritten(InitialSession, Initial.(paymentMethod := ChangeMethod(CreditCard, Cash, false)),
                            FromSubscriptions(data)).Crashed?
  {
  }

  /** The arrival effect as intended: cash is switched to the card (through
      the store's `setPaymentMethod`). */
  function Arrive(s: Session, ck: Checkout, from: Arrival): (r: Entered)
    ensures r.Entered?
    ensures from.Visit? ==> r == Entered(s, ck)
    ensures from.FromSubscriptions? ==>
      && r.session == s.(kind := SubscriptionOrder, subData := Some(from.data))
      && r.ck.paymentMethod == (if ck.paymentMethod == Cash then CreditCard else ck.paymentMethod)
      && r.ck.(paymentMethod := ck.paymentMethod) == ck
  {
    match from
    case Visit => Entered(s, ck)
    case FromSubscriptions(data) =>
      var ck' := if ck.paymentMethod == Cash then ck.(paymentMethod := CreditCard) else ck;
      Entered(s.(kind := SubscriptionOrder, subData := Some(data)), ck')
  }

  /** After a subscription arrival no sequence of method clicks in the
      widget (which disables cash for subscriptions) reaches cash, so step 2
      never fails for the cash rule alone. */
  lemma ArriveKeepsCashAway(s: Session, ck: Checkout, data: SubscriptionData, clicks: seq<Method>)
    ensures
      var e := Arrive(s, ck, FromSubscriptions(data));
      e.session.kind == SubscriptionOrder && ChangeAll(e.ck.paymentMethod, clicks, true) != Cash
  {
    var e := Arrive(s, ck, FromSubscriptions(data));
    CashUnreachable(e.ck.paymentMethod, clicks);
  }

  /** `handleNextStep`: step 1 moves on when no address field is blank
      (recording the complaints either way), step 2 when the payment checks
      out; otherwise nothing moves. */
  function NextStep(s: Session, ck: Checkout): (r: Session)
    ensures r.kind == s.kind && r.subData == s.subData
    ensures s.step == 1 ==> r.errors == ValidateStep1(ck.address)
    ensures s.step != 1 ==> r.errors == s.errors
    ensures r.step == 2 && s.step != 2 ==> s.step == 1 && forall f :: !IsBlank(FieldOf(ck.address, f))
    ensures r.step == 3 && s.step != 3 ==> s.step == 2 && ValidateStep2(s.kind, ck)
    ensures r.step != s.step ==> r.step == s.step + 1
    ensures s.step == 1 && (forall f :: !IsBlank(FieldOf(ck.address, f))) ==> r.step == 2
    ensures s.step == 2 && ValidateStep2(s.kind, ck) ==> r == s.(step := 3)
    ensures s.step == 1 && (exists f :: IsBlank(FieldOf(ck.address, f))) ==> r == s.(errors := r.errors)
    ensures s.step != 1 && !(s.step == 2 && ValidateStep2(s.kind, ck)) ==> r == s
  {
    Step1ErrorsAreBlankFields(ck.address);
    if s.step == 1 then
      var errs := ValidateStep1(ck.address);
      s.(errors := errs, step := if errs == {} then 2 else 1)
    else if s.step == 2 && ValidateStep2(s.kind, ck) then s.(step := 3)
    else s
  }

  /** The "Regresar" buttons: step 2 back to 1, step 3 back to 2. */
  function Back(s: Session): (r: Session)
    ensures s.step == 2 ==> r.step == 1
    ensures s.step == 3 ==> r.step == 2
    ensures s.step != 2 && s.step != 3 ==> r == s
    ensures r.(step := s.step) == s
  {
    if s.step == 2 then s.(step := 1)
    else if s.step == 3 then s.(step := 2)
    else s
  }

  datatype Action = Next | GoBack

  function Run(s: Session, ck: Checkout, actions: seq<Action>): Session
    decreases |actions|
  {
    if |actions| == 0 then s
    else
      var s' := if actions[0] == Next then NextStep(s, ck) else Back(s);
      Run(s', ck, actions[1..])
  }

  /** Starting on a step between 1 and 3, the page stays between 1 and 3
      whatever the customer clicks. */
  lemma {:induction false} StepStaysInRange(s: Session, ck: Checkout, actions: seq<Action>)
    requires 1 <= s.step <= 3
    ensures 1 <= Run(s, ck, actions).step <= 3
    decreases |actions|
  {
    if |actions| > 0 {
      var s' := if actions[0] == Next then NextStep(s, ck) else Back(s);
      StepStaysInRange(s', ck, actions[1..]);
    }
  }

  /** What the cart shows: the empty-cart notice for a product order with
      nothing in it, otherwise the current step. */
  datatype Screen = EmptyCartNotice | StepScreen(step: int)

  function ScreenOf(s: Session, cart: seq<CartItem>): (r: Screen)
    ensures r.EmptyCartNotice? <==> s.kind == ProductsOrder && |cart| == 0
  {
    if s.kind == ProductsOrder && |cart| == 0 then EmptyCartNotice else StepScreen(s.step)
  }

  /** The outcome of `handlePlaceOrder`: the order history, the cart, and
      the id the confirmation page is opened with. */
  datatype Placement = Placement(history: seq<Order>, cart: seq<CartItem>, confirmationId: int)

  /** `handlePlaceOrder` at time `now`: a subscription only navigates; a
      product order is filed with the page's total and the cart is emptied. */
  function HandlePlaceOrder(s: Session, ck: Checkout, cart: seq<CartItem>, cartTotal: real,
                            now: int, history: seq<Order>): (r: Placement)
    ensures s.kind == SubscriptionOrder ==> r == Placement(history, cart, now)
    ensures s.kind == ProductsOrder ==>
      && r.cart == []
      && |r.history| == |history| + 1 && r.history[1..] == history
      && r.history[0].items == cart
      && r.history[0].total == Some(CalculateTotals(s.kind, s.subData, cartTotal).total)
      && r.history[0].id == r.confirmationId
  {
    if s.kind == SubscriptionOrder then Placement(history, cart, now)
    else
      var placed := PlaceOrder(ck, cart, CalculateTotals(s.kind, s.subData, cartTotal).total, now, history);
      Placement(placed.history, [], placed.order.id)
  }
}

=== FILE: checkout_context.dfy ===
/** The checkout store: shipping address, payment method, card fields and
    PayPal e-mail, the merge-updates on them, and `placeOrder`, which files a
    new order at the front of the order history. */
module CheckoutContext {
  import opened Options

  datatype Address = Address(
    fullName: string,
    address: string,
    city: string,
    postalCode: string,
    country: string,
    phone: string)

  /** The fields an update supplies; `None` leaves a field alone. */
  datatype AddressPatch = AddressPatch(
    fullName: Option<string>,
    address: Option<string>,
    city: Option<string>,
    postalCode: Option<string>,
    country: Option<string>,
    phone: Option<string>)

  datatype CardData = CardData(number: string, name: string, expiry: string, cvc: string)

  datatype CardPatch = CardPatch(
    number: Option<string>,
    name: Option<string>,
    expiry: Option<string>,
    cvc: Option<string>)

  /** 'creditCard', 'paypal', 'cash', or any other value the method was set to. */
  datatype Method = CreditCard | PayPal | Cash | OtherMethod(name: string)

  datatype Checkout = Checkout(
    address: Address,
    paymentMethod: Method,
    card: CardData,
    paypalEmail: string)

  /** The state the store starts in. */
  const Initial := Checkout(
    Address("", "", "", "", "México", ""),
    CreditCard,
    CardData("", "", "", ""),
    "")

  /** A line of the cart (the cart store is not part of this model; its
      lines are carried into the order unchanged). */
  datatype CartItem = CartItem(productId: int, price: real, quantity: int)

  datatype PaymentDetails = CardDetails(last4: string) | PaypalDetails(email: string)

  /** An order as filed in the order history. Orders read back from storage
      may lack a total. */
  datatype Order = Order(
    id: int,
    items: seq<CartItem>,
    total: Option<real>,
    address: Address,
    paymentMethod: Method,
    details: PaymentDetails,
    status: string,
    date: int,
    estimatedDelivery: int)

  /** Milliseconds in a week: the delivery estimate's lead time. */
  const Week: int := 7 * 24 * 60 * 60 * 1000

  /** Each supplied field replaces the stored one; the rest stay. */
  function MergeAddress(a: Address, p: AddressPatch): Address {
    Address(
      p.fullName.GetOr(a.fullName),
      p.address.GetOr(a.address),
      p.city.GetOr(a.city),
      p.postalCode.GetOr(a.postalCode),
      p.country.GetOr(a.country),
      p.phone.GetOr(a.phone))
  }

  function MergeCard(c: CardData, p: CardPatch): CardData {
    CardData(p.number.GetOr(c.number), p.name.GetOr(c.name), p.expiry.GetOr(c.expiry), p.cvc.GetOr(c.cvc))
  }

  /** `updateShippingAddress`: only the address changes, and in it exactly
      the supplied fields. */
  function UpdateShippingAddress(ck: Checkout, p: AddressPatch): (r: Checkout)
    ensures r.paymentMethod == ck.paymentMethod && r.card == ck.card && r.paypalEmail == ck.paypalEmail
    ensures p.fullName.Some? ==> r.address.fullName == p.fullName.value
    ensures p.fullName.None? ==> r.address.fullName == ck.address.fullName
    ensures p.address.Some? ==> r.address.address == p.address.value
    ensures p.address.None? ==> r.address.address == ck.address.address
    ensures p.city.Some? ==> r.address.city == p.city.value
    ensures p.city.None? ==> r.address.city == ck.address.city
    ensures p.postalCode.Some? ==> r.address.postalCode == p.postalCode.value
    ensures p.postalCode.None? ==> r.address.postalCode == ck.address.postalCode
    ensures p.country.Some? ==> r.address.country == p.country.value
    ensures p.country.None? ==> r.address.country == ck.address.country
    ensures p.phone.Some? ==> r.address.phone == p.phone.value
    ensures p.phone.None? ==> r.address.phone == ck.address.phone
  {
    ck.(address := MergeAddress(ck.address, p))
  }

  /** `updateCardData`: only the card changes, and in it exactly the
      supplied fields. */
  function UpdateCardData(ck: Checkout, p: CardPatch): (r: Checkout)
    ensures r.address == ck.address && r.paymentMethod == ck.paymentMethod && r.paypalEmail == ck.paypalEmail
    ensures p.number.Some? ==> r.card.number == p.number.value
    ensures p.number.None? ==> r.card.number == ck.card.number
    ensures p.name.Some? ==> r.card.name == p.name.value
    ensures p.name.None? ==> r.card.name == ck.card.name
    ensures p.expiry.Some? ==> r.card.expiry == p.expiry.value
    ensures p.expiry.None? ==> r.card.expiry == ck.card.expiry
    ensures p.cvc.Some? ==> r.card.cvc == p.cvc.value
    ensures p.cvc.None? ==> r.card.cvc == ck.card.cvc
  {
    ck.(card := MergeCard(ck.card, p))
  }

  /** Applying the same update twice is the same as applying it once. */
  lemma UpdatesIdempotent(ck: Checkout, a: AddressPatch, c: CardPatch)
    ensures UpdateShippingAddress(UpdateShippingAddress(ck, a), a) == UpdateShippingAddress(ck, a)
    ensures UpdateCardData(UpdateCardData(ck, c), c) == UpdateCardData(ck, c)
  {
  }

  /** `cardData.number.slice(-4)`: the last four characters, or the whole
      string when it is shorter. */
  function Last4(s: string): (r: string)
    ensures |r| == if |s| < 4 then |s| else 4
    ensures s == s[..|s| - |r|] + r
  {
    if |s| < 4 then s else s[|s| - 4..]
  }

  /** What the order records about the payment: the card's last four
      characters for 'creditCard', the PayPal e-mail for every other
      method, cash included. */
  function Details(ck: Checkout): (r: PaymentDetails)
    ensures ck.paymentMethod == CreditCard <==> r.CardDetails?
    ensures r.CardDetails? ==> r.last4 == Last4(ck.card.number)
    ensures r.PaypalDetails? ==> r.email == ck.paypalEmail
  {
    if ck.paymentMethod == CreditCard then CardDetails(Last4(ck.card.number))
    else PaypalDetails(ck.paypalEmail)
  }

  /** `placeOrder(cartItems, total)` at time `now` (also the order id):
      the new order and the order history with it in front. */
  datatype Placed = Placed(order: Order, history: seq<Order>)

  function PlaceOrder(ck: Checkout, items: seq<CartItem>, total: real, now: int, history: seq<Order>): (r: Placed)
    ensures r.history == [r.order] + history
    ensures |r.history| == |history| + 1 && r.history[1..] == history
    ensures r.order.items == items && r.order.total == Some(total)
    ensures r.order.address == ck.address && r.order.paymentMethod == ck.paymentMethod
    ensures r.order.status == "processing"
    ensures r.order.details == Details(ck)
    ensures r.order.id == now && r.order.date == now
    ensures r.order.estimatedDelivery == r.order.date + Week
  {
    var o := Order(now, items, Some(total), ck.address, ck.paymentMethod, Details(ck), "processing", now, now + Week);
    Placed(o, [o] + history)
  }
}

=== FILE: options.dfy ===
/** Optional values: JavaScript's `null`/`undefined` where the storefront
    code distinguishes "absent" from a value. */
module Options {

  datatype Option<+T> = None | Some(value: T) {

    /** The value, or `default` when absent (the `x || default` idiom). */
    function GetOr(default: T): T {
      match this
      case Some(v) => v
      case None => default
    }
  }
}

/** Searching and filtering a list front to back, as `Array.prototype.find`,
    `findIndex` and `filter` do. */
module Lists {
  import opened Options

  /** The index of the first element satisfying `p`, if any. */
  function FirstWhere<T>(s: seq<T>, p: T -> bool): (r: Option<nat>)
    ensures r.Some? ==> r.value < |s| && p(s[r.value])
    ensures r.Some? ==> forall j :: 0 <= j < r.value ==> !p(s[j])
    ensures r.None? <==> forall j :: 0 <= j < |s| ==> !p(s[j])
  {
    if |s| == 0 then None
    else if p(s[0]) then Some(0)
    else
      match FirstWhere(s[1..], p)
      case None => None
      case Some(k) => Some(k + 1)
  }

  /** `a` is `b` with some elements left out, the rest in their order. */
  predicate IsSubsequence<T(==)>(a: seq<T>, b: seq<T>)
    decreases |b|
  {
    |a| == 0 || (|b| > 0 && ((a[0] == b[0] && IsSubsequence(a[1..], b[1..])) || IsSubsequence(a, b[1..])))
  }

  /** `s.filter(p)`: the elements satisfying `p`, in their original order. */
  function Filter<T(==,!new)>(s: seq<T>, p: T -> bool): (r: seq<T>)
    ensures |r| <= |s|
    ensures forall i :: 0 <= i < |r| ==> p(r[i])
    ensures forall x :: multiset(r)[x] == if p(x) then multiset(s)[x] else 0
  {
    if |s| == 0 then []
    else
      assert s == [s[0]] + s[1..];
      if p(s[0]) then [s[0]] + Filter(s[1..], p) else Filter(s[1..], p)
  }

  /** Filtering keeps a list whose every element passes. */
  lemma {:induction false} FilterKeepsAll<T(!new)>(s: seq<T>, p: T -> bool)
    requires forall i :: 0 <= i < |s| ==> p(s[i])
    ensures Filter(s, p) == s
  {
    if |s| > 0 {
      FilterKeepsAll(s[1..], p);
    }
  }

  /** Filtering keeps the original order: what it keeps is the list with
      the other elements left out. */
  lemma {:induction false} FilterIsSubsequence<T(!new)>(s: seq<T>, p: T -> bool)
    ensures IsSubsequence(Filter(s, p), s)
  {
    if |s| > 0 {
      FilterIsSubsequence(s[1..], p);
      assert s == [s[0]] + s[1..];
      FilterCons(s[0], s[1..], p);
    }
  }

  /** Filtering a list with a given head. */
  lemma FilterCons<T(!new)>(x: T, s: seq<T>, p: T -> bool)
    ensures Filter([x] + s, p) == (if p(x) then [x] else []) + Filter(s, p)
  {
    assert ([x] + s)[1..] == s;
  }

  /** Filtering distributes over concatenation. */
  lemma {:induction false} FilterAppend<T(!new)>(a: seq<T>, b: seq<T>, p: T -> bool)
    ensures Filter(a + b, p) == Filter(a, p) + Filter(b, p)
  {
    if |a| > 0 {
      assert (a + b)[1..] == a[1..] + b;
      FilterAppend(a[1..], b, p);
    } else {
      assert a + b == b;
    }
  }

  /** Filtering keeps the original order: a list increasing under `f`
      stays increasing. */
  lemma {:induction false} FilterKeepsOrder<T(!new)>(s: seq<T>, p: T -> bool, f: T -> int)
    requires forall i, j :: 0 <= i < j < |s| ==> f(s[i]) < f(s[j])
    ensures forall i, j :: 0 <= i < j < |Filter(s, p)| ==> f(Filter(s, p)[i]) < f(Filter(s, p)[j])
    decreases |s|
  {
    if |s| > 0 {
      var tail := s[1..];
      forall i, j | 0 <= i < j < |tail|
        ensures f(tail[i]) < f(tail[j])
      {
        assert tail[i] == s[i + 1] && tail[j] == s[j + 1];
      }
      FilterKeepsOrder(tail, p, f);
      var t := Filter(tail, p);
      if p(s[0]) {
        assert Filter(s, p) == [s[0]] + t;
        forall i | 0 <= i < |tail|
          ensures f(s[0]) < f(tail[i])
        {
          assert tail[i] == s[i + 1];
        }
        FilterAbove(tail, p, f, f(s[0]));
        ConsOrdered(s[0], t, f);
      } else {
        assert Filter(s, p) == t;
      }
    }
  }

  /** A bound below every element of a list is below every element kept by
      a filter. */
  lemma {:induction false} FilterAbove<T(!new)>(s: seq<T>, p: T -> bool, f: T -> int, c: int)
    requires forall i :: 0 <= i < |s| ==> c < f(s[i])
    ensures forall j :: 0 <= j < |Filter(s, p)| ==> c < f(Filter(s, p)[j])
    decreases |s|
  {
    if |s| > 0 {
      FilterAbove(s[1..], p, f, c);
      if p(s[0]) {
        assert Filter(s, p) == [s[0]] + Filter(s[1..], p);
      } else {
        assert Filter(s, p) == Filter(s[1..], p);
      }
    }
  }

  /** A head below every element of an increasing list keeps it increasing. */
  lemma ConsOrdered<T>(x: T, t: seq<T>, f: T -> int)
    requires forall i, j :: 0 <= i < j < |t| ==> f(t[i]) < f(t[j])
    requires forall j :: 0 <= j < |t| ==> f(x) < f(t[j])
    ensures forall i, j :: 0 <= i < j < |[x] + t| ==> f(([x] + t)[i]) < f(([x] + t)[j])
  {
    var r := [x] + t;
    forall i, j | 0 <= i < j < |r|
      ensures f(r[i]) < f(r[j])
    {
      if i > 0 {
        assert r[i] == t[i - 1] && r[j] == t[j - 1];
      } else {
        assert r[j] == t[j - 1];
      }
    }
  }
}

=== FILE: orders.dfy ===
/** How the customer's order list labels and colours an order's status. */
module Orders {
  import opened CheckoutContext

  /** The four statuses the order list knows. */
  predicate Known(status: string) {
    status == "delivered" || status == "shipped" || status == "processing" || status == "cancelled"
  }

  /** `getStatusText(status)`: the four known statuses get their Spanish
      labels and every status it does not know reads "Pendiente". */
  function StatusText(status: string): (r: string)
    ensures status == "delivered" ==> r == "Entregado"
    ensures status == "shipped" ==> r == "En camino"
    ensures status == "processing" ==> r == "Procesando"
    ensures status == "cancelled" ==> r == "Cancelado"
    ensures !Known(status) ==> r == "Pendiente"
  {
    if status == "delivered" then "Entregado"
    else if status == "shipped" then "En camino"
    else if status == "processing" then "Procesando"
    else if status == "cancelled" then "Cancelado"
    else "Pendiente"
  }

  datatype Colour = Green | Blue | Yellow | Red | Gray

  /** `getStatusColor(status)`, by the badge's colour. */
  function StatusColour(status: string): (r: Colour)
    ensures status == "delivered" ==> r == Green
    ensures status == "shipped" ==> r == Blue
    ensures status == "processing" ==> r == Yellow
    ensures status == "cancelled" ==> r == Red
    ensures !Known(status) ==> r == Gray
  {
    if status == "delivered" then Green
    else if status == "shipped" then Blue
    else if status == "processing" then Yellow
    else if status == "cancelled" then Red
    else Gray
  }

  /** The badge is gray exactly when the label is "Pendiente", and the two
      mappings tell apart exactly the same statuses. */
  lemma GrayIffPending(status: string)
    ensures StatusColour(status) == Gray <==> StatusText(status) == "Pendiente"
    ensures StatusColour(status) == Gray <==> !Known(status)
  {
  }

  lemma SameDistinctions(a: string, b: string)
    ensures StatusText(a) == StatusText(b) <==> StatusColour(a) == StatusColour(b)
    ensures Known(a) && StatusText(a) == StatusText(b) ==> a == b
  {
  }

  /** The statuses the administrator's panel offers. */
  const AdminStatuses := ["pending", "processing", "shipped", "completed", "cancelled"]

  /** Of the statuses the panel offers, "pending" and also "completed" read
      "Pendiente" to the customer; "delivered" is never offered. */
  lemma AdminStatusesAsShown()
    ensures forall s :: s in AdminStatuses ==> (StatusText(s) == "Pendiente" <==> s == "pending" || s == "completed")
    ensures "delivered" !in AdminStatuses
  {
  }

  /** A newly placed order reads "Procesando" on a yellow badge. */
  lemma NewOrderShowsProcessing(ck: Checkout, items: seq<CartItem>, total: real, now: int, history: seq<Order>)
    ensures StatusText(PlaceOrder(ck, items, total, now, history).order.status) == "Procesando"
    ensures StatusColour(PlaceOrder(ck, items, total, now, history).order.status) == Yellow
  {
  }
}

=== FILE: payment.dfy ===
/** The payment-method widget: how each card field is normalised as it is
    typed, when the entered card or PayPal e-mail lets the customer go on,
    and the method switch that refuses cash when cash is disabled. */
module PaymentMethod {
  import opened Text
  import opened Options
  import opened Lists
  import opened CheckoutContext

  predicate AllDigits(s: string) {
    forall i :: 0 <= i < |s| ==> IsDigit(s[i])
  }

  /** `d.replace(/(\d{4})/g, '$1 ')` on a string of digits: a space after
      every complete group of four. */
  function QuadSpaced(d: string): string
    decreases |d|
  {
    if |d| >= 4 then d[..4] + " " + QuadSpaced(d[4..]) else d
  }

  /** The digits in groups of four joined by single spaces, the last group
      possibly shorter: the layout of a formatted card number. */
  function Grouped(d: string): (r: string)
    ensures |d| == 0 <==> |r| == 0
    ensures |r| > 0 ==> r[0] == d[0] && r[|r| - 1] == d[|d| - 1]
    decreases |d|
  {
    if |d| <= 4 then d else d[..4] + " " + Grouped(d[4..])
  }

  /** In a grouped number every fifth character is a space and every other
      one a digit. */
  lemma {:induction false} GroupedLayout(d: string)
    requires AllDigits(d)
    ensures forall i :: 0 <= i < |Grouped(d)| ==> (Grouped(d)[i] == ' ' <==> i % 5 == 4)
    ensures forall i :: 0 <= i < |Grouped(d)| && i % 5 != 4 ==> IsDigit(Grouped(d)[i])
    decreases |d|
  {
    if |d| > 4 {
      var t := Grouped(d[4..]);
      GroupedLayout(d[4..]);
      var r := d[..4] + " " + t;
      assert Grouped(d) == r;
      forall i | 5 <= i < |r|
        ensures r[i] == t[i - 5] && (i - 5) % 5 == i % 5
      {
      }
    }
  }

  /** `handleCardInputChange('number', …)`: keep the digits, at most
      sixteen, space them in fours and trim. */
  function FormatNumber(raw: string): string {
    Trim(QuadSpaced(Take(DigitsOf(raw), 16)))
  }

  lemma {:induction false} QuadSpacedIsGrouped(d: string)
    ensures QuadSpaced(d) == Grouped(d) + (if |d| > 0 && |d| % 4 == 0 then " " else "")
    decreases |d|
  {
    if |d| > 4 {
      QuadSpacedIsGrouped(d[4..]);
      var tail: string := if |d| > 0 && |d| % 4 == 0 then " " else "";
      assert (|d| - 4) % 4 == |d| % 4;
      calc {
        QuadSpaced(d);
        d[..4] + " " + QuadSpaced(d[4..]);
        d[..4] + " " + (Grouped(d[4..]) + tail);
        (d[..4] + " " + Grouped(d[4..])) + tail;
        Grouped(d) + tail;
      }
    } else if |d| == 4 {
      assert d[4..] == [];
      assert QuadSpaced(d) == d[..4] + " " + QuadSpaced(d[4..]);
      assert d[..4] == d;
    }
  }

  /** Trimming the spaced digits leaves them grouped in fours. */
  lemma TrimQuadSpaced(d: string)
    requires AllDigits(d)
    ensures Trim(QuadSpaced(d)) == Grouped(d)
  {
    QuadSpacedIsGrouped(d);
    var g := Grouped(d);
    assert |g| > 0 ==> IsDigit(g[0]) && IsDigit(g[|g| - 1]);
    TrimOfTrimmed(g);
  }

  /** A formatted number is exactly the typed digits, at most sixteen of
      them, grouped in fours. */
  lemma FormatNumberIsGrouped(raw: string)
    ensures AllDigits(Take(DigitsOf(raw), 16))
    ensures FormatNumber(raw) == Grouped(Take(DigitsOf(raw), 16))
  {
    var d := Take(DigitsOf(raw), 16);
    assert forall i :: 0 <= i < |d| ==> d[i] == DigitsOf(raw)[i];
    TrimQuadSpaced(d);
  }

  /** Removing the spaces (and, equally, keeping the digits) of a grouped
      number gives back its digits. */
  lemma {:induction false} GroupedDigits(d: string)
    requires AllDigits(d)
    ensures WithoutSpaces(Grouped(d)) == d
    ensures DigitsOf(Grouped(d)) == d
    decreases |d|
  {
    if |d| <= 4 {
      WithoutSpacesOfSolid(d);
      DigitsOfDigits(d);
    } else {
      GroupedDigits(d[4..]);
      WithoutSpacesOfSolid(d[..4]);
      DigitsOfDigits(d[..4]);
      WithoutSpacesAppend(d[..4], " " + Grouped(d[4..]));
      WithoutSpacesAppend(" ", Grouped(d[4..]));
      DigitsOfAppend(d[..4], " " + Grouped(d[4..]));
      DigitsOfAppend(" ", Grouped(d[4..]));
      assert d[..4] + " " + Grouped(d[4..]) == d[..4] + (" " + Grouped(d[4..]));
      assert d == d[..4] + d[4..];
    }
  }

  /** Re-typing a formatted number leaves it as it is. */
  lemma FormatNumberIdempotent(raw: string)
    ensures FormatNumber(FormatNumber(raw)) == FormatNumber(raw)
  {
    var d := Take(DigitsOf(raw), 16);
    FormatNumberIsGrouped(raw);
    var g := Grouped(d);
    GroupedDigits(d);
    assert DigitsOf(g) == d;
    assert Take(DigitsOf(g), 16) == d;
    FormatNumberIsGrouped(g);
  }

  /** The stored number has sixteen digits exactly when at least sixteen
      were typed. */
  lemma FormatNumberComplete(raw: string)
    ensures |WithoutSpaces(FormatNumber(raw))| == 16 <==> |DigitsOf(raw)| >= 16
  {
    FormatNumberIsGrouped(raw);
    GroupedDigits(Take(DigitsOf(raw), 16));
  }

  /** `/^\d{2}\/\d{2}$/`. */
  predicate ExpiryShape(e: string) {
    |e| == 5 && IsDigit(e[0]) && IsDigit(e[1]) && e[2] == '/' && IsDigit(e[3]) && IsDigit(e[4])
  }

  /** `handleCardInputChange('expiry', …)`: at most four digits, stored
      as `MM/YY` once there are four. */
  function FormatExpiry(raw: string): (r: string)
    ensures |DigitsOf(raw)| >= 4 <==> ExpiryShape(r)
    ensures |DigitsOf(raw)| < 4 ==> r == DigitsOf(raw)
  {
    var n := Take(DigitsOf(raw), 4);
    if |n| == 4 then n[..2] + "/" + n[2..] else n
  }

  /** `s.replace(/\//g, '')`: what the expiry input shows of the stored
      value. */
  function WithoutSlashes(s: string): (r: string)
    ensures |r| <= |s|
    ensures '/' !in r
  {
    if |s| == 0 then []
    else if s[0] == '/' then WithoutSlashes(s[1..])
    else [s[0]] + WithoutSlashes(s[1..])
  }

  lemma {:induction false} WithoutSlashesOfDigits(s: string)
    requires AllDigits(s)
    ensures WithoutSlashes(s) == s
  {
    if |s| > 0 {
      WithoutSlashesOfDigits(s[1..]);
      assert s == [s[0]] + s[1..];
    }
  }

  /** The input shows the digits the handler kept: the effect that
      synchronises `tempExpiry` with the stored expiry recovers exactly what the handler put in `tempExpiry`. */
  lemma ExpiryViewRoundTrip(raw: string)
    ensures WithoutSlashes(FormatExpiry(raw)) == Take(DigitsOf(raw), 4)
  {
    var n := Take(DigitsOf(raw), 4);
    if |n| == 4 {
      var e := n[..2] + "/" + n[2..];
      assert e[0] == n[0] && e[1] == n[1] && e[2] == '/';
      assert e[3..] == n[2..];
      WithoutSlashesOfDigits(n[2..]);
      assert WithoutSlashes(e[2..]) == n[2..];
      assert WithoutSlashes(e[1..]) == [n[1]] + n[2..];
      assert n == [n[0]] + ([n[1]] + n[2..]);
    } else {
      WithoutSlashesOfDigits(n);
    }
  }

  /** A stored expiry has length five exactly when it has the `MM/YY`
      shape, so the checkout page's length test and the widget's pattern
      agree on every value the handler can store. */
  lemma ExpiryLengthIffShape(raw: string)
    ensures |FormatExpiry(raw)| == 5 <==> ExpiryShape(FormatExpiry(raw))
  {
  }

  /** `handleCardInputChange('cvc', …)`: at most four digits. */
  function FormatCvc(raw: string): (r: string)
    ensures |r| <= 4 && AllDigits(r)
    ensures |r| == if |DigitsOf(raw)| < 4 then |DigitsOf(raw)| else 4
    ensures r <= DigitsOf(raw)
  {
    Take(DigitsOf(raw), 4)
  }

  /** The name field: the input upper-cases what is typed and
      `handleCardInputChange('name', …)` drops everything but letters and
      whitespace. No lower-case letter survives. */
  function FormatName(raw: string): (r: string)
    ensures r == Filter(Upper(raw), IsNameChar)
    ensures forall c :: multiset(r)[c] == if IsNameChar(c) then multiset(Upper(raw))[c] else 0
    ensures forall i :: 0 <= i < |r| ==> IsNameChar(r[i])
    ensures forall i :: 0 <= i < |r| ==> !IsAsciiLower(r[i]) && r[i] !in "áéíóúñ"
  {
    var u := Upper(raw);
    var r := Filter(u, IsNameChar);
    forall i | 0 <= i < |r| ensures !IsAsciiLower(r[i]) && r[i] !in "áéíóúñ" {
      assert r[i] in multiset(r);
      assert r[i] in multiset(u);
      var j :| 0 <= j < |u| && u[j] == r[i];
      UpperCharIsUpper(raw[j]);
    }
    r
  }

  /** An upper-cased character is no lower-case letter. */
  lemma UpperCharIsUpper(c: char)
    ensures !IsAsciiLower(UpperChar(c)) && UpperChar(c) !in "áéíóúñ"
  {
  }

  /** Re-typing a stored name leaves it as it is. */
  lemma FormatNameIdempotent(raw: string)
    ensures FormatName(FormatName(raw)) == FormatName(raw)
  {
    var n := FormatName(raw);
    forall i | 0 <= i < |n|
      ensures Upper(n)[i] == n[i]
    {
      UpperFixesStored(n[i]);
    }
    assert Upper(n) == n;
    FilterKeepsAll(n, IsNameChar);
  }

  /** Upper-casing leaves a character of a stored name as it is. */
  lemma UpperFixesStored(c: char)
    requires IsNameChar(c) && !IsAsciiLower(c) && c !in "áéíóúñ"
    ensures UpperChar(c) == c
  {
  }

  datatype CardField = Number | Name | Expiry | Cvc

  /** `handleCardInputChange(field, value)` for the four card inputs. */
  function HandleCardInput(ck: Checkout, field: CardField, raw: string): (r: Checkout)
    ensures r.address == ck.address && r.paymentMethod == ck.paymentMethod && r.paypalEmail == ck.paypalEmail
    ensures field != Number ==> r.card.number == ck.card.number
    ensures field != Name ==> r.card.name == ck.card.name
    ensures field != Expiry ==> r.card.expiry == ck.card.expiry
    ensures field != Cvc ==> r.card.cvc == ck.card.cvc
    ensures field == Number ==> r.card.number == FormatNumber(raw)
    ensures field == Name ==> r.card.name == FormatName(raw)
    ensures field == Expiry ==> r.card.expiry == FormatExpiry(raw)
    ensures field == Cvc ==> r.card.cvc == FormatCvc(raw)
  {
    match field
    case Number => UpdateCardData(ck, CardPatch(Some(FormatNumber(raw)), None, None, None))
    case Name => UpdateCardData(ck, CardPatch(None, Some(FormatName(raw)), None, None))
    case Expiry => UpdateCardData(ck, CardPatch(None, None, Some(FormatExpiry(raw)), None))
    case Cvc => UpdateCardData(ck, CardPatch(None, None, None, Some(FormatCvc(raw))))
  }

  /** `isCardDataValid`. */
  predicate IsCardDataValid(card: CardData) {
    && |WithoutSpaces(card.number)| == 16
    && |Trim(card.name)| > 0
    && ExpiryShape(card.expiry)
    && |card.cvc| >= 3
  }

  /** A card typed through the four inputs is valid exactly when at least
      sixteen digits were typed for the number, the name keeps some
      non-blank letter, at least four digits were typed for the expiry and
      at least three for the CVC. */
  lemma CardEntryValid(ck: Checkout, num: string, name: string, exp: string, cvc: string)
    ensures
      var typed := HandleCardInput(HandleCardInput(HandleCardInput(HandleCardInput(
                     ck, Number, num), Name, name), Expiry, exp), Cvc, cvc);
      IsCardDataValid(typed.card) <==>
        && |DigitsOf(num)| >= 16
        && !IsBlank(FormatName(name))
        && |DigitsOf(exp)| >= 4
        && |DigitsOf(cvc)| >= 3
  {
    var typed := TypedCard(ck, num, name, exp, cvc);
    FormatNumberComplete(num);
    TrimEmptyIffBlank(FormatName(name));
  }

  /** Each of the four inputs stores its own formatted field. */
  lemma TypedCard(ck: Checkout, num: string, name: string, exp: string, cvc: string) returns (typed: Checkout)
    ensures typed == HandleCardInput(HandleCardInput(HandleCardInput(HandleCardInput(
                       ck, Number, num), Name, name), Expiry, exp), Cvc, cvc)
    ensures typed.card == CardData(FormatNumber(num), FormatName(name), FormatExpiry(exp), FormatCvc(cvc))
  {
    var c1 := HandleCardInput(ck, Number, num);
    assert c1.card.number == FormatNumber(num);
    var c2 := HandleCardInput(c1, Name, name);
    assert c2.card.name == FormatName(name);
    var c3 := HandleCardInput(c2, Expiry, exp);
    assert c3.card.expiry == FormatExpiry(exp);
    typed := HandleCardInput(c3, Cvc, cvc);
    assert typed.card.cvc == FormatCvc(cvc);
  }

  /** `canProceed`: the card must be valid, the PayPal e-mail well formed;
      cash always may proceed and any other method never does. */
  function CanProceed(m: Method, card: CardData, paypalEmail: string): (r: bool)
    ensures m == CreditCard ==> (r <==> IsCardDataValid(card))
    ensures m == PayPal ==> (r <==> EmailShape(paypalEmail))
    ensures m == Cash ==> r
    ensures m.OtherMethod? ==> !r
  {
    match m
    case CreditCard => IsCardDataValid(card)
    case PayPal => EmailShape(paypalEmail)
    case Cash => true
    case OtherMethod(_) => false
  }

  /** `handlePaymentMethodChange`: choosing cash while cash is disabled
      changes nothing; any other choice is taken. */
  function ChangeMethod(current: Method, chosen: Method, disableCash: bool): (r: Method)
    ensures disableCash && chosen == Cash ==> r == current
    ensures !(disableCash && chosen == Cash) ==> r == chosen
  {
    if disableCash && chosen == Cash then current else chosen
  }

  /** The method after a sequence of choices: the starting one or one of
      the choices; with cash allowed, the last choice. */
  function ChangeAll(current: Method, choices: seq<Method>, disableCash: bool): (r: Method)
    ensures r == current || r in choices
    ensures !disableCash && |choices| > 0 ==> r == choices[|choices| - 1]
    ensures disableCash && r == Cash ==> current == Cash
    decreases |choices|
  {
    if |choices| == 0 then current
    else ChangeAll(ChangeMethod(current, choices[0], disableCash), choices[1..], disableCash)
  }

  /** With cash disabled, no sequence of clicks moves a non-cash method to
      cash. */
  lemma {:induction false} CashUnreachable(current: Method, choices: seq<Method>)
    requires current != Cash
    ensures ChangeAll(current, choices, true) != Cash
    decreases |choices|
  {
    if |choices| > 0 {
      CashUnreachable(ChangeMethod(current, choices[0], true), choices[1..]);
    }
  }
}

=== FILE: product_form.dfy ===
/** The administrator's product form: its fields, validation, submission
    and editing. Every field holds text. JavaScript's number conversions are
    parameters (`Numbers`), and so is the browser's URL parser (`urlOk`). A
    number pre-filled from a product is held as its decimal text (`show`),
    on which the conversions give back the number. */
module ProductForm {
  import opened Options
  import opened Text

  datatype Field = Name | Price | Category | Description | Stock | Image

  datatype Form = Form(name: string, price: string, category: string, description: string,
                       stock: string, image: string)

  const Blank := Form("", "", "electronics", "", "", "")

  /** `Number(s)` (`None` for NaN), `parseFloat` and `parseInt`. */
  datatype Numbers = Numbers(
    toNumber: string -> Option<real>,
    parseFloat: string -> Option<real>,
    parseInt: string -> Option<int>)

  /** What the form is opened on when editing; absent fields are `None`. */
  datatype Source = Source(name: Option<string>, price: Option<real>, category: Option<string>,
                           description: Option<string>, stock: Option<int>, image: Option<string>)

  /** What `onSave` receives. */
  datatype ProductData = ProductData(name: string, price: Option<real>, category: string,
                                     description: string, stock: Option<int>, image: string)

  function Get(f: Form, fld: Field): string {
    match fld
    case Name => f.name
    case Price => f.price
    case Category => f.category
    case Description => f.description
    case Stock => f.stock
    case Image => f.image
  }

  /** `{...prev, [name]: value}`: what typing into a field and pasting into
      it both store. */
  function Set(f: Form, fld: Field, v: string): (r: Form)
    ensures Get(r, fld) == v
    ensures forall g :: g != fld ==> Get(r, g) == Get(f, g)
  {
    match fld
    case Name => f.(name := v)
    case Price => f.(price := v)
    case Category => f.(category := v)
    case Description => f.(description := v)
    case Stock => f.(stock := v)
    case Image => f.(image := v)
  }

  /** `x || ''` on a text field, `x || 'electronics'` on the category. */
  function TextOr(x: Option<string>, default: string): string {
    if x.None? || x.value == "" then default else x.value
  }

  /** The form opened on `p`: every field shows the product's value; an
      absent text shows empty, an absent or empty category shows
      "electronics", and a falsy price or stock (absent, or 0) gives an
      empty field. */
  function Prefill(p: Source, showReal: real -> string, showInt: int -> string): (r: Form)
    ensures r.name == if p.name.Some? then p.name.value else ""
    ensures r.description == if p.description.Some? then p.description.value else ""
    ensures r.image == if p.image.Some? then p.image.value else ""
    ensures p.category.Some? && p.category.value != "" ==> r.category == p.category.value
    ensures p.category.None? || p.category == Some("") ==> r.category == "electronics"
    ensures p.price.Some? && p.price.value != 0.0 ==> r.price == showReal(p.price.value)
    ensures p.price == Some(0.0) || p.price.None? ==> r.price == ""
    ensures p.stock.Some? && p.stock.value != 0 ==> r.stock == showInt(p.stock.value)
    ensures p.stock == Some(0) || p.stock.None? ==> r.stock == ""
  {
    Form(TextOr(p.name, ""),
         if p.price.None? || p.price.value == 0.0 then "" else showReal(p.price.value),
         TextOr(p.category, "electronics"),
         TextOr(p.description, ""),
         if p.stock.None? || p.stock.value == 0 then "" else showInt(p.stock.value),
         TextOr(p.image, ""))
  }

  predicate PriceBad(f: Form, n: Numbers) {
    f.price == "" || (n.toNumber(f.price).Some? && n.toNumber(f.price).value <= 0.0)
  }

  predicate StockBad(f: Form, n: Numbers) {
    f.stock == "" || (n.toNumber(f.stock).Some? && n.toNumber(f.stock).value < 0.0)
  }

  /** The checks of `validateForm`, in order, on their outcomes: each
      failing check writes its message under its field. A blank image is
      first marked as required and then, since a blank string is no URL
      either, overwritten by the URL message. */
  function Checks(noName: bool, badPrice: bool, badStock: bool, noDescription: bool, noImage: bool, url: bool): map<Field, string> {
    var e0: map<Field, string> := map[];
    var e1 := if noName then e0[Name := "El nombre es requerido"] else e0;
    var e2 := if badPrice then e1[Price := "El precio debe ser mayor a 0"] else e1;
    var e3 := if badStock then e2[Stock := "El stock no puede ser negativo"] else e2;
    var e4 := if noDescription then e3[Description := "La descripción es requerida"] else e3;
    var e5 := if noImage then e4[Image := "La URL de la imagen es requerida"] else e4;
    if !url then e5[Image := "La URL no es válida"] else e5
  }

  /** Each field is flagged exactly when its check fails, and a rejected
      URL has the last word on the image. */
  lemma ChecksFlags(noName: bool, badPrice: bool, badStock: bool, noDescription: bool, noImage: bool, url: bool)
    ensures var e := Checks(noName, badPrice, badStock, noDescription, noImage, url);
      && (Name in e <==> noName) && (Price in e <==> badPrice) && (Stock in e <==> badStock)
      && (Description in e <==> noDescription) && (Image in e <==> noImage || !url)
      && Category !in e
      && (!url ==> e[Image] == "La URL no es válida")
  {
  }

  /** `validateForm`: one message per failing field. */
  function Validate(f: Form, n: Numbers, urlOk: string -> bool): (errors: map<Field, string>)
    ensures Name in errors <==> |Trim(f.name)| == 0
    ensures Price in errors <==> PriceBad(f, n)
    ensures Stock in errors <==> StockBad(f, n)
    ensures Description in errors <==> |Trim(f.description)| == 0
    ensures Image in errors <==> |Trim(f.image)| == 0 || !urlOk(f.image)
    ensures Category !in errors
    ensures !urlOk(f.image) ==> errors[Image] == "La URL no es válida"
  {
    var noName, noDescription, noImage := |Trim(f.name)| == 0, |Trim(f.description)| == 0, |Trim(f.image)| == 0;
    ChecksFlags(noName, PriceBad(f, n), StockBad(f, n), noDescription, noImage, urlOk(f.image));
    Checks(noName, PriceBad(f, n), StockBad(f, n), noDescription, noImage, urlOk(f.image))
  }

  datatype Submitted = Submitted(errors: map<Field, string>, saved: Option<ProductData>)

  /** `handleSubmit`: valid forms go to `onSave` with the price and stock
      parsed; invalid ones only show their errors. */
  function HandleSubmit(f: Form, n: Numbers, urlOk: string -> bool): (r: Submitted)
    ensures r.errors == Validate(f, n, urlOk)
    ensures r.saved.Some? <==> |r.errors| == 0
    ensures r.saved.Some? ==>
      r.saved.value == ProductData(f.name, n.parseFloat(f.price), f.category, f.description,
                                   n.parseInt(f.stock), f.image)
  {
    var errors := Validate(f, n, urlOk);
    if |errors| == 0 then
      Submitted(errors, Some(ProductData(f.name, n.parseFloat(f.price), f.category, f.description,
                                         n.parseInt(f.stock), f.image)))
    else Submitted(errors, None)
  }

  /** A form is saved exactly when its name and description are not blank,
      its price is given and not at most 0, its stock is given and not
      negative, and its image is a URL that is not blank. */
  lemma SavedIff(f: Form, n: Numbers, urlOk: string -> bool)
    ensures HandleSubmit(f, n, urlOk).saved.Some? <==>
      && !IsBlank(f.name) && !IsBlank(f.description)
      && !PriceBad(f, n) && !StockBad(f, n) && !IsBlank(f.image) && urlOk(f.image)
  {
    TrimEmptyIffBlank(f.name);
    TrimEmptyIffBlank(f.description);
    TrimEmptyIffBlank(f.image);
    NoErrorsIff(Validate(f, n, urlOk));
  }

  /** A map over the six fields is empty exactly when none of them is a
      key. */
  lemma NoErrorsIff(e: map<Field, string>)
    ensures |e| == 0 <==> Name !in e && Price !in e && Category !in e && Description !in e && Stock !in e && Image !in e
  {
    if |e| != 0 {
      var k :| k in e;
      assert k.Name? || k.Price? || k.Category? || k.Description? || k.Stock? || k.Image?;
    } else {
      assert e == map[];
    }
  }

  /** Editing a product with no stock pre-fills an empty stock field, which
      never validates. */
  lemma ZeroStockNeverSaves(p: Source, showReal: real -> string, showInt: int -> string,
                            n: Numbers, urlOk: string -> bool)
    requires p.stock == Some(0)
    ensures Stock in HandleSubmit(Prefill(p, showReal, showInt), n, urlOk).errors
    ensures HandleSubmit(Prefill(p, showReal, showInt), n, urlOk).saved.None?
  {
  }

  /** `handleChange`: the field takes the typed value, and its error, if
      one is shown, is blanked; nothing else changes. */
  function HandleChange(f: Form, errors: map<Field, string>, fld: Field, v: string): (r: (Form, map<Field, string>))
    ensures Get(r.0, fld) == v && forall g :: g != fld ==> Get(r.0, g) == Get(f, g)
    ensures r.1.Keys == errors.Keys
    ensures fld in errors ==> r.1[fld] == ""
    ensures forall g :: g in errors && g != fld ==> r.1[g] == errors[g]
  {
    (Set(f, fld, v), if fld in errors && errors[fld] != "" then errors[fld := ""] else errors)
  }
}

=== FILE: profile.dfy ===
/** The profile store: a customer's profile fields and address book, with
    the id of the default address. Profile and address contents are free
    bags of named text fields; time stamps are passed in as text. */
module UserProfileContext {
  import opened Options
  import opened Lists

  type Fields = map<string, string>

  /** `updateProfile(profileData)`: the supplied fields overwrite, the rest
      are kept, and `updatedAt` is stamped. A missing profile counts as an
      empty one. */
  function UpdateProfile(profile: Option<Fields>, data: Fields, stamp: string): (r: Fields)
    ensures "updatedAt" in r && r["updatedAt"] == stamp
    ensures forall k :: k in data && k != "updatedAt" ==> k in r && r[k] == data[k]
    ensures forall k :: k !in data && k != "updatedAt" ==>
      && (k in r <==> profile.Some? && k in profile.value)
      && (k in r ==> r[k] == profile.value[k])
  {
    profile.GetOr(map[]) + data + map["updatedAt" := stamp]
  }

  datatype Address = Address(id: int, fields: Fields, isDefault: bool)

  datatype Book = Book(addresses: seq<Address>, defaultId: Option<int>)

  const EmptyBook := Book([], None)

  predicate HasId(s: seq<Address>, id: int) {
    exists i :: 0 <= i < |s| && s[i].id == id
  }

  /** `addAddress(addressData)` at time `now` (the new id): appended, and
      the default exactly when it is the first address. */
  function AddAddress(b: Book, data: Fields, now: int, stamp: string): (r: Book)
    ensures |r.addresses| == |b.addresses| + 1
    ensures r.addresses[..|b.addresses|] == b.addresses
    ensures r.addresses[|b.addresses|].id == now
    ensures r.addresses[|b.addresses|].fields.Keys == data.Keys + {"createdAt"}
    ensures r.addresses[|b.addresses|].fields["createdAt"] == stamp
    ensures forall k :: k in data && k != "createdAt" ==> r.addresses[|b.addresses|].fields[k] == data[k]
    ensures r.addresses[|b.addresses|].isDefault <==> |b.addresses| == 0
    ensures |b.addresses| == 0 ==> r.defaultId == Some(now)
    ensures |b.addresses| > 0 ==> r.defaultId == b.defaultId
  {
    var a := Address(now, data + map["createdAt" := stamp], |b.addresses| == 0);
    Book(b.addresses + [a], if |b.addresses| == 0 then Some(now) else b.defaultId)
  }

  /** `updateAddress(addressId, addressData)`: the fields are merged into
      the addresses with that id; every other address is kept. */
  function UpdateAddress(b: Book, id: int, data: Fields, stamp: string): (r: Book)
    ensures |r.addresses| == |b.addresses| && r.defaultId == b.defaultId
    ensures forall i :: 0 <= i < |b.addresses| && b.addresses[i].id != id ==> r.addresses[i] == b.addresses[i]
    ensures forall i :: 0 <= i < |b.addresses| && b.addresses[i].id == id ==>
      && r.addresses[i].id == id && r.addresses[i].isDefault == b.addresses[i].isDefault
      && r.addresses[i].fields.Keys == b.addresses[i].fields.Keys + data.Keys + {"updatedAt"}
      && r.addresses[i].fields["updatedAt"] == stamp
      && (forall k :: k in data && k != "updatedAt" ==> r.addresses[i].fields[k] == data[k])
      && (forall k :: k !in data && k != "updatedAt" && k in b.addresses[i].fields ==>
            r.addresses[i].fields[k] == b.addresses[i].fields[k])
  {
    Book(seq(|b.addresses|, i requires 0 <= i < |b.addresses| =>
           var a := b.addresses[i];
           if a.id == id then a.(fields := a.fields + data + map["updatedAt" := stamp]) else a),
         b.defaultId)
  }

  function WithoutAddress(s: seq<Address>, id: int): (r: seq<Address>)
    ensures forall i :: 0 <= i < |r| ==> r[i].id != id
    ensures forall x :: multiset(r)[x] == if x.id == id then 0 else multiset(s)[x]
  {
    Filter(s, (a: Address) => a.id != id)
  }

  /** `deleteAddress(addressId)`: the addresses with that id go; if it was
      the default, the first remaining address becomes the default (`|| null`
      turns a remaining id 0, and an empty book, into no default). */
  function DeleteAddress(b: Book, id: int): (r: Book)
    ensures r.addresses == WithoutAddress(b.addresses, id)
    ensures b.defaultId != Some(id) ==> r.defaultId == b.defaultId
    ensures b.defaultId == Some(id) && |r.addresses| > 0 && r.addresses[0].id != 0 ==>
      r.defaultId == Some(r.addresses[0].id)
    ensures b.defaultId == Some(id) && (|r.addresses| == 0 || r.addresses[0].id == 0) ==> r.defaultId.None?
  {
    var rest := WithoutAddress(b.addresses, id);
    if b.defaultId == Some(id) then
      Book(rest, if |rest| > 0 && rest[0].id != 0 then Some(rest[0].id) else None)
    else Book(rest, b.defaultId)
  }

  /** `setDefaultAddress(addressId)`: records the id, whether or not an
      address has it. */
  function SetDefaultAddress(b: Book, id: int): (r: Book)
    ensures r.addresses == b.addresses && r.defaultId == Some(id)
  {
    b.(defaultId := Some(id))
  }

  /** `getDefaultAddress()`: the address with the default id, else the
      first address, else nothing. */
  function GetDefaultAddress(b: Book): (r: Option<Address>)
    ensures r.None? <==> |b.addresses| == 0
    ensures r.Some? ==> r.value in b.addresses
    ensures r.Some? && b.defaultId.Some? && HasId(b.addresses, b.defaultId.value) ==>
      exists i :: 0 <= i < |b.addresses| && b.addresses[i] == r.value && r.value.id == b.defaultId.value
        && forall j :: 0 <= j < i ==> b.addresses[j].id != b.defaultId.value
    ensures r.Some? && !(b.defaultId.Some? && HasId(b.addresses, b.defaultId.value)) ==>
      r.value == b.addresses[0]
  {
    var found := match b.defaultId
      case None => None
      case Some(d) => FirstWhere(b.addresses, (a: Address) => a.id == d);
    match found
    case Some(i) => Some(b.addresses[i])
    case None => if |b.addresses| == 0 then None else Some(b.addresses[0])
  }

  /** A book whose default id names one of its addresses exactly when it
      has any; ids come from the clock and are never 0. */
  predicate Consistent(b: Book) {
    && (forall i :: 0 <= i < |b.addresses| ==> b.addresses[i].id != 0)
    && (b.defaultId.None? <==> |b.addresses| == 0)
    && (b.defaultId.Some? ==> HasId(b.addresses, b.defaultId.value))
  }

  lemma EmptyBookConsistent()
    ensures Consistent(EmptyBook)
  {
  }

  lemma AddKeepsConsistent(b: Book, data: Fields, now: int, stamp: string)
    requires Consistent(b) && now != 0
    ensures Consistent(AddAddress(b, data, now, stamp))
  {
    var r := AddAddress(b, data, now, stamp);
    if b.defaultId.Some? {
      var i :| 0 <= i < |b.addresses| && b.addresses[i].id == b.defaultId.value;
      assert r.addresses[i].id == b.defaultId.value;
    } else {
      assert r.addresses[0].id == now;
    }
  }

  lemma UpdateKeepsConsistent(b: Book, id: int, data: Fields, stamp: string)
    requires Consistent(b)
    ensures Consistent(UpdateAddress(b, id, data, stamp))
  {
    var r := UpdateAddress(b, id, data, stamp);
    if b.defaultId.Some? {
      var i :| 0 <= i < |b.addresses| && b.addresses[i].id == b.defaultId.value;
      assert r.addresses[i].id == b.defaultId.value;
    }
  }

  lemma DeleteKeepsConsistent(b: Book, id: int)
    requires Consistent(b)
    ensures Consistent(DeleteAddress(b, id))
  {
    var r := DeleteAddress(b, id);
    forall i | 0 <= i < |r.addresses|
      ensures r.addresses[i].id != 0
    {
      assert r.addresses[i] in multiset(r.addresses);
      assert r.addresses[i] in multiset(b.addresses);
    }
    if b.defaultId.Some? && b.defaultId != Some(id) {
      var d := b.defaultId.value;
      var i :| 0 <= i < |b.addresses| && b.addresses[i].id == d;
      var a := b.addresses[i];
      assert multiset(r.addresses)[a] == multiset(b.addresses)[a] > 0;
      assert a in r.addresses;
    }
  }

  /** Setting the default keeps the book consistent exactly when some
      address has that id. */
  lemma SetDefaultConsistentIff(b: Book, id: int)
    requires Consistent(b)
    ensures Consistent(SetDefaultAddress(b, id)) <==> HasId(b.addresses, id)
  {
  }

  /** In a consistent book the default address is the one the default id
      names, and there is one exactly when the book is not empty. */
  lemma DefaultOfConsistent(b: Book)
    requires Consistent(b)
    ensures GetDefaultAddress(b).Some? <==> |b.addresses| > 0
    ensures GetDefaultAddress(b).Some? ==> Some(GetDefaultAddress(b).value.id) == b.defaultId
  {
  }
}

/** The address-book page: its own list seeded with two addresses, the
    add/edit form, deletion and choice of default. Here the flag on each
    address is what marks the default. */
module Addresses {
  import opened Options
  import opened Lists

  datatype Form = Form(
    kind: string,
    name: string,
    fullName: string,
    address: string,
    city: string,
    state: string,
    postalCode: string,
    country: string,
    phone: string,
    isDefault: bool)

  datatype Entry = Entry(id: int, form: Form)

  const Seed: seq<Entry> := [
    Entry(1, Form("home", "Casa", "Juan Pérez", "Calle Principal 123", "Ciudad de México", "CDMX",
                  "12345", "México", "+52 55 1234 5678", true)),
    Entry(2, Form("work", "Oficina", "Juan Pérez", "Av. Reforma 456", "Ciudad de México", "CDMX",
                  "67890", "México", "+52 55 8765 4321", false))
  ]

  /** The blank form, with the signed-in customer's name filled in. */
  function BlankForm(userName: Option<string>): (r: Form)
    ensures !r.isDefault && r.country == "México" && r.kind == "home"
    ensures r.fullName == userName.GetOr("")
  {
    Form("home", "", userName.GetOr(""), "", "", "", "", "México", "", false)
  }

  function ClearDefault(e: Entry): Entry {
    e.(form := e.form.(isDefault := false))
  }

  /** `handleSubmit` while editing `editing`: the edited entry takes the
      form under its own id; a form marked default clears every other
      flag. */
  function SubmitEdit(s: seq<Entry>, editing: Entry, f: Form): (r: seq<Entry>)
    ensures |r| == |s|
    ensures forall i :: 0 <= i < |s| && s[i].id == editing.id ==> r[i] == Entry(editing.id, f)
    ensures forall i :: 0 <= i < |s| && s[i].id != editing.id ==>
      r[i].id == s[i].id && r[i].form.(isDefault := s[i].form.isDefault) == s[i].form
      && r[i].form.isDefault == (s[i].form.isDefault && !f.isDefault)
  {
    seq(|s|, i requires 0 <= i < |s| =>
      if s[i].id == editing.id then Entry(editing.id, f)
      else if f.isDefault then ClearDefault(s[i])
      else s[i])
  }

  /** `handleSubmit` when adding at time `now`: a form marked default clears
      every existing flag; the new entry is appended. */
  function SubmitAdd(s: seq<Entry>, f: Form, now: int): (r: seq<Entry>)
    ensures |r| == |s| + 1 && r[|s|] == Entry(now, f)
    ensures forall i :: 0 <= i < |s| ==>
      r[i].id == s[i].id && r[i].form.(isDefault := s[i].form.isDefault) == s[i].form
      && r[i].form.isDefault == (s[i].form.isDefault && !f.isDefault)
  {
    seq(|s|, i requires 0 <= i < |s| => if f.isDefault then ClearDefault(s[i]) else s[i]) + [Entry(now, f)]
  }

  /** `handleDelete(id)`: every entry with that id goes. */
  function Delete(s: seq<Entry>, id: int): (r: seq<Entry>)
    ensures forall i :: 0 <= i < |r| ==> r[i].id != id
    ensures forall x :: multiset(r)[x] == if x.id == id then 0 else multiset(s)[x]
  {
    Filter(s, (e: Entry) => e.id != id)
  }

  /** `setDefault(id)`: the flag is set exactly on the entries with that
      id. */
  function SetDefault(s: seq<Entry>, id: int): (r: seq<Entry>)
    ensures |r| == |s|
    ensures forall i :: 0 <= i < |s| ==>
      r[i].id == s[i].id && r[i].form.(isDefault := s[i].form.isDefault) == s[i].form
      && (r[i].form.isDefault <==> s[i].id == id)
  {
    seq(|s|, i requires 0 <= i < |s| => s[i].(form := s[i].form.(isDefault := s[i].id == id)))
  }

  predicate UniqueIds(s: seq<Entry>) {
    forall i, j :: 0 <= i < j < |s| ==> s[i].id != s[j].id
  }

  predicate AtMostOneDefault(s: seq<Entry>) {
    forall i, j :: 0 <= i < j < |s| && s[i].form.isDefault ==> !s[j].form.isDefault
  }

  /** The page's invariant: distinct ids, at most one default. */
  predicate Valid(s: seq<Entry>) {
    UniqueIds(s) && AtMostOneDefault(s)
  }

  predicate HasDefault(s: seq<Entry>) {
    exists i :: 0 <= i < |s| && s[i].form.isDefault
  }

  /** Delete and "make default" are offered only on entries that are not
      the default. */
  predicate Offered(e: Entry) {
    !e.form.isDefault
  }

  lemma SeedValid()
    ensures Valid(Seed) && HasDefault(Seed)
  {
    assert Seed[0].form.isDefault;
  }

  lemma SubmitAddKeepsValid(s: seq<Entry>, f: Form, now: int)
    requires Valid(s)
    requires forall i :: 0 <= i < |s| ==> s[i].id != now
    ensures Valid(SubmitAdd(s, f, now))
  {
  }

  lemma SubmitEditKeepsValid(s: seq<Entry>, editing: Entry, f: Form)
    requires Valid(s)
    ensures Valid(SubmitEdit(s, editing, f))
  {
  }

  lemma SetDefaultKeepsValid(s: seq<Entry>, id: int)
    requires Valid(s)
    ensures Valid(SetDefault(s, id))
    ensures HasDefault(SetDefault(s, id)) <==> exists i :: 0 <= i < |s| && s[i].id == id
  {
    var r := SetDefault(s, id);
    if exists i :: 0 <= i < |s| && s[i].id == id {
      var i :| 0 <= i < |s| && s[i].id == id;
      assert r[i].form.isDefault;
    }
  }

  lemma DeleteKeepsValid(s: seq<Entry>, id: int)
    requires Valid(s)
    ensures Valid(Delete(s, id))
  {
    FilterKeepsValid(s, (e: Entry) => e.id != id);
  }

  /** Any filtering of a valid list is valid. */
  lemma {:induction false} FilterKeepsValid(s: seq<Entry>, p: Entry -> bool)
    requires Valid(s)
    ensures Valid(Filter(s, p))
    decreases |s|
  {
    if |s| > 0 {
      assert s == [s[0]] + s[1..];
      var t := Filter(s[1..], p);
      FilterKeepsValid(s[1..], p);
      if p(s[0]) {
        assert Filter(s, p) == [s[0]] + t;
        forall j | 0 <= j < |t|
          ensures t[j] in s[1..]
        {
          assert multiset(t)[t[j]] > 0;
        }
        ConsValid(s[0], s[1..], t);
      } else {
        assert Filter(s, p) == t;
      }
    }
  }

  /** An entry that could head `tail` in a valid list may head any valid
      selection `t` from `tail`. */
  lemma ConsValid(x: Entry, tail: seq<Entry>, t: seq<Entry>)
    requires Valid([x] + tail) && Valid(t)
    requires forall j :: 0 <= j < |t| ==> t[j] in tail
    ensures Valid([x] + t)
  {
    var s := [x] + tail;
    forall j | 0 <= j < |t|
      ensures x.id != t[j].id && (x.form.isDefault ==> !t[j].form.isDefault)
    {
      var b :| 0 <= b < |tail| && tail[b] == t[j];
      assert s[0] == x && s[b + 1] == t[j];
    }
    var r := [x] + t;
    forall i, j | 0 <= i < j < |r|
      ensures r[i].id != r[j].id && (r[i].form.isDefault ==> !r[j].form.isDefault)
    {
      if i > 0 {
        assert r[i] == t[i - 1] && r[j] == t[j - 1];
      } else {
        assert r[j] == t[j - 1];
      }
    }
  }

  /** Deleting an offered entry never removes the default. */
  lemma DeleteOfferedKeepsDefault(s: seq<Entry>, k: int)
    requires Valid(s) && HasDefault(s)
    requires 0 <= k < |s| && Offered(s[k])
    ensures HasDefault(Delete(s, s[k].id))
  {
    var d :| 0 <= d < |s| && s[d].form.isDefault;
    assert s[d].id != s[k].id;
    var r := Delete(s, s[k].id);
    assert multiset(r)[s[d]] == multiset(s)[s[d]] > 0;
    assert s[d] in r;
    var i :| 0 <= i < |r| && r[i] == s[d];
  }
}

=== FILE: query.dfy ===
/** The product listing page: the filter over search text, category, price
    range and minimum rating; the sort by name, price or rating in either
    direction; and the page cursor that reveals eight more products per load
    and goes back to the first page whenever the criteria change. */
module Query {
  import opened Options
  import opened Text
  import opened Sorting
  import opened Catalog

  /** Products revealed per page. */
  const PageSize: nat := 8

  /** The user's filter and sort choices. `sortBy` is 'name', 'price' or
      'rating' (anything else sorts by name); `sortOrder` is 'asc' or
      anything else, which sorts descending. */
  datatype Criteria = Criteria(
    search: string,
    category: string,
    priceMin: real,
    priceMax: real,
    minRating: real,
    sortBy: string,
    sortOrder: string)

  /** The criteria the page starts with. */
  const InitialCriteria := Criteria("", "", 0.0, 1000.0, 0.0, "name", "asc")

  /** The four tests a product must pass to be listed. */
  predicate MatchesSearch(p: Product, search: string) {
    Contains(Lower(p.name), Lower(search)) || Contains(Lower(p.description), Lower(search))
  }

  predicate MatchesCategory(p: Product, category: string) {
    category == "" || p.category == category
  }

  predicate Matches(p: Product, c: Criteria) {
    && MatchesSearch(p, c.search)
    && MatchesCategory(p, c.category)
    && c.priceMin <= p.price <= c.priceMax
    && p.rating >= c.minRating
  }

  /** The products that pass the criteria, in catalog order. */
  function Filter(ps: seq<Product>, c: Criteria): (r: seq<Product>)
    ensures forall i :: 0 <= i < |r| ==> Matches(r[i], c)
    ensures forall p :: multiset(r)[p] == if Matches(p, c) then multiset(ps)[p] else 0
    ensures |r| <= |ps|
  {
    if |ps| == 0 then []
    else
      assert ps == [ps[0]] + ps[1..];
      if Matches(ps[0], c) then [ps[0]] + Filter(ps[1..], c)
      else Filter(ps[1..], c)
  }

  /** The sort key for the chosen field: the lower-cased name unless the
      field is 'price' or 'rating'. */
  function SortKey(p: Product, sortBy: string): Key {
    if sortBy == "price" then Num(p.price)
    else if sortBy == "rating" then Num(p.rating)
    else Str(Lower(p.name))
  }

  predicate Descending(c: Criteria) {
    c.sortOrder != "asc"
  }

  /** `filteredProducts`: the passing products, sorted by the chosen key.
      Equal keys come in no promised order, because the page's comparator
      never reports two products as equal. */
  function Filtered(ps: seq<Product>, c: Criteria): (r: seq<Product>)
    ensures forall p :: multiset(r)[p] == if Matches(p, c) then multiset(ps)[p] else 0
    ensures forall i :: 0 <= i < |r| ==> Matches(r[i], c)
    ensures forall i, j :: 0 <= i < j < |r| ==>
      InOrder(SortKey(r[i], c.sortBy), SortKey(r[j], c.sortBy), Descending(c))
  {
    var f := Filter(ps, c);
    var r := SortByKey(f, p => SortKey(p, c.sortBy), Descending(c));
    forall i | 0 <= i < |r| ensures Matches(r[i], c) {
      assert r[i] in multiset(r);
      assert r[i] in multiset(f);
    }
    r
  }

  /** An empty search text and an empty category let every product through
      those two tests. */
  lemma EmptySearchAndCategoryConstrainNothing(p: Product, c: Criteria)
    requires c.search == "" && c.category == ""
    ensures Matches(p, c) <==> c.priceMin <= p.price <= c.priceMax && p.rating >= c.minRating
  {
    ContainsEmpty(Lower(p.name));
  }

  /** A price range whose lower end exceeds its upper end lists nothing. */
  lemma InvertedRangeIsEmpty(ps: seq<Product>, c: Criteria)
    requires c.priceMin > c.priceMax
    ensures Filtered(ps, c) == []
  {
  }

  // ---------------------------------------------------------------------
  // Pagination

  /** `currentPage` (at least 1), the `isLoading` flag and the stored
      `hasMore` flag. */
  datatype Pager = Pager(page: nat, loading: bool, hasMore: bool)

  const InitialPager := Pager(1, false, true)

  /** `paginatedProducts`: the first `page * 8` filtered products. */
  function Visible(filtered: seq<Product>, page: nat): (r: seq<Product>)
    ensures r <= filtered
    ensures |r| == if page * PageSize < |filtered| then page * PageSize else |filtered|
  {
    filtered[..if page * PageSize < |filtered| then page * PageSize else |filtered|]
  }

  /** More products remain: the page shows fewer than passed the filter. */
  predicate HasMore(filtered: seq<Product>, page: nat) {
    |Visible(filtered, page)| < |filtered|
  }

  /** The visible list is a prefix of the filtered list, as long as the
      page allows and never longer than the filtered list; more products
      remain exactly when the page limit is below the filtered count. */
  lemma VisiblePrefix(filtered: seq<Product>, page: nat)
    ensures Visible(filtered, page) <= filtered
    ensures |Visible(filtered, page)| == if page * PageSize < |filtered| then page * PageSize else |filtered|
    ensures HasMore(filtered, page) <==> page * PageSize < |filtered|
  {
  }

  /** A later page shows everything an earlier one showed, and at most
      eight products more per page. */
  lemma VisibleGrows(filtered: seq<Product>, page: nat)
    ensures Visible(filtered, page) <= Visible(filtered, page + 1)
    ensures |Visible(filtered, page + 1)| <= |Visible(filtered, page)| + PageSize
  {
  }

  /** `loadMore`: does nothing while a load is in flight or when the stored
      flag says nothing remains; otherwise raises the loading flag. The page
      grows when the load completes (`CompleteLoad`). */
  function BeginLoad(pg: Pager): (r: Pager)
    ensures pg.loading || !pg.hasMore ==> r == pg
    ensures !pg.loading && pg.hasMore ==> r == pg.(loading := true)
  {
    if pg.loading || !pg.hasMore then pg
    else pg.(loading := true)
  }

  /** The delayed half of `loadMore`: one more page, loading cleared. */
  function CompleteLoad(pg: Pager): (r: Pager)
    ensures r.page == pg.page + 1 && !r.loading && r.hasMore == pg.hasMore
  {
    pg.(page := pg.page + 1, loading := false)
  }

  /** One load that is allowed to start raises the page by exactly one; a
      second request while it is in flight adds nothing. */
  lemma LoadOncePerRequest(pg: Pager)
    requires !pg.loading && pg.hasMore
    ensures CompleteLoad(BeginLoad(pg)) == pg.(page := pg.page + 1)
    ensures CompleteLoad(BeginLoad(BeginLoad(pg))) == pg.(page := pg.page + 1)
  {
  }

  /** A load never shrinks the visible list. */
  lemma LoadKeepsVisible(pg: Pager, filtered: seq<Product>)
    ensures Visible(filtered, pg.page) <= Visible(filtered, BeginLoad(pg).page)
    ensures Visible(filtered, pg.page) <= Visible(filtered, CompleteLoad(pg).page)
  {
    VisibleGrows(filtered, pg.page);
  }

  // ---------------------------------------------------------------------
  // Criteria edits and the two effects

  /** What the user can change on the page. `ClearFilters` is the
      "Limpiar filtros" button. */
  datatype Edit =
    | SetSearch(search: string)
    | SetCategory(category: string)
    | SetPriceMin(lo: real)
    | SetPriceMax(hi: real)
    | SetMinRating(rating: real)
    | SetSortBy(field: string)
    | SetSortOrder(order: string)
    | ClearFilters

  /** The two lengths the `hasMore` effect depends on: shown and filtered. */
  datatype Seen = Seen(shown: nat, total: nat)

  /** The page state: criteria, pager, and the lengths the `hasMore` effect
      saw when it last ran (`None` before the first render). */
  datatype Browse = Browse(crit: Criteria, pager: Pager, seen: Option<Seen>)

  /** The lengths a render with criteria `c` on page `page` shows. */
  function Lengths(ps: seq<Product>, c: Criteria, page: nat): Seen {
    Seen(|Visible(Filtered(ps, c), page)|, |Filtered(ps, c)|)
  }

  /** The stored flag agrees with the lengths the effect last saw. */
  predicate FlagAgrees(st: Browse) {
    st.seen.Some? && st.pager.hasMore == (st.seen.value.shown < st.seen.value.total)
  }

  /** The effect has seen the current render and the flag tells whether
      more products remain. */
  predicate Synced(st: Browse, ps: seq<Product>) {
    && st.seen == Some(Lengths(ps, st.crit, st.pager.page))
    && st.pager.hasMore == HasMore(Filtered(ps, st.crit), st.pager.page)
  }

  /** The `hasMore` effect after a render of `st`: when either length
      differs from what it last saw it stores whether more remain;
      otherwise it does not run. */
  function Observe(st: Browse, ps: seq<Product>): (r: Browse)
    ensures r.crit == st.crit && r.pager.page == st.pager.page && r.pager.loading == st.pager.loading
    ensures r.seen == Some(Lengths(ps, st.crit, st.pager.page))
    ensures st.seen != r.seen ==> r.pager.hasMore == HasMore(Filtered(ps, st.crit), st.pager.page)
    ensures st.seen == r.seen ==> r == st
  {
    var l := Lengths(ps, st.crit, st.pager.page);
    if st.seen == Some(l) then st
    else Browse(st.crit, st.pager.(hasMore := l.shown < l.total), Some(l))
  }

  /** Whatever the effect last saw, a flag that agrees with it is synced
      once the effect has looked at the current render. */
  lemma ObserveSyncs(st: Browse, ps: seq<Product>)
    ensures st.seen.None? || FlagAgrees(st) ==> Synced(Observe(st, ps), ps) && FlagAgrees(Observe(st, ps))
  {
  }

  /** Opening the page: the first render, after which both effects run;
      the reset effect finds nothing to reset. */
  function Open(ps: seq<Product>): (r: Browse)
    ensures Synced(r, ps) && FlagAgrees(r)
    ensures r.crit == InitialCriteria && r.pager.page == 1 && !r.pager.loading
  {
    ObserveSyncs(Browse(InitialCriteria, InitialPager, None), ps);
    Observe(Browse(InitialCriteria, InitialPager, None), ps)
  }

  /** The completion of a load and the render that follows it. */
  function FinishLoad(st: Browse, ps: seq<Product>): (r: Browse)
    ensures r.crit == st.crit && r.pager.page == st.pager.page + 1 && !r.pager.loading
    ensures FlagAgrees(st) ==> Synced(r, ps) && FlagAgrees(r)
  {
    var st1 := st.(pager := CompleteLoad(st.pager));
    ObserveSyncs(st1, ps);
    Observe(st1, ps)
  }

  /** The criteria after an edit. `ClearFilters` restores the defaults, with
      the catalog's highest price as the top of the range. */
  function EditCriteria(c: Criteria, e: Edit, maxPrice: real): (r: Criteria)
    ensures e.SetSearch? ==> r == c.(search := e.search)
    ensures e.SetCategory? ==> r == c.(category := e.category)
    ensures e.SetPriceMin? ==> r == c.(priceMin := e.lo)
    ensures e.SetPriceMax? ==> r == c.(priceMax := e.hi)
    ensures e.SetMinRating? ==> r == c.(minRating := e.rating)
    ensures e.SetSortBy? ==> r == c.(sortBy := e.field)
    ensures e.SetSortOrder? ==> r == c.(sortOrder := e.order)
    ensures e.ClearFilters? ==> r == InitialCriteria.(priceMax := maxPrice)
  {
    match e
    case SetSearch(s) => c.(search := s)
    case SetCategory(k) => c.(category := k)
    case SetPriceMin(lo) => c.(priceMin := lo)
    case SetPriceMax(hi) => c.(priceMax := hi)
    case SetMinRating(m) => c.(minRating := m)
    case SetSortBy(f) => c.(sortBy := f)
    case SetSortOrder(o) => c.(sortOrder := o)
    case ClearFilters => Criteria("", "", 0.0, maxPrice, 0.0, "name", "asc")
  }

  /** Setting the price range always stores a fresh pair, so it counts as a
      change even when the numbers are the same. */
  predicate TouchesPriceRange(e: Edit) {
    e.SetPriceMin? || e.SetPriceMax? || e.ClearFilters?
  }

  /** An edit as the page handles it. When the criteria changed, the render
      with the new criteria (still on the old page) runs the reset effect,
      which asks for page 1 and sets the flag to true, and then the
      `hasMore` effect; the render on page 1 runs the `hasMore` effect
      again. The loading flag is left as it was. */
  function ApplyEdit(st: Browse, e: Edit, maxPrice: real, ps: seq<Product>): (r: Browse)
    ensures r.crit == EditCriteria(st.crit, e, maxPrice)
    ensures r.pager.loading == st.pager.loading
    ensures r.crit != st.crit || TouchesPriceRange(e) ==>
      && r.pager.page == 1
      && r.seen == Some(Lengths(ps, r.crit, 1))
      && (st.seen != Some(Lengths(ps, r.crit, st.pager.page)) || st.seen != Some(Lengths(ps, r.crit, 1)) ==>
            r.pager.hasMore == HasMore(Filtered(ps, r.crit), 1))
      && (st.seen == Some(Lengths(ps, r.crit, st.pager.page)) && st.seen == Some(Lengths(ps, r.crit, 1)) ==>
            r.pager.hasMore)
    ensures r.crit == st.crit && !TouchesPriceRange(e) ==> r == st
  {
    var c := EditCriteria(st.crit, e, maxPrice);
    if c != st.crit || TouchesPriceRange(e) then
      var r1 := Observe(Browse(c, st.pager.(hasMore := true), st.seen), ps);
      Observe(r1.(pager := r1.pager.(page := 1)), ps)
    else st
  }

  /** The reset effect without its `setHasMore(true)`: the `hasMore` effect
      alone keeps the flag. */
  function ApplyEditFixed(st: Browse, e: Edit, maxPrice: real, ps: seq<Product>): (r: Browse)
    ensures r.crit == EditCriteria(st.crit, e, maxPrice)
    ensures r.pager.loading == st.pager.loading
    ensures r.crit != st.crit || TouchesPriceRange(e) ==> r.pager.page == 1
    ensures r.crit == st.crit && !TouchesPriceRange(e) ==> r == st
    ensures Synced(st, ps) ==> Synced(r, ps)
    ensures FlagAgrees(st) ==> FlagAgrees(r)
    ensures FlagAgrees(st) && (r.crit != st.crit || TouchesPriceRange(e)) ==> Synced(r, ps)
  {
    var c := EditCriteria(st.crit, e, maxPrice);
    if c != st.crit || TouchesPriceRange(e) then Rerender(st.(crit := c), ps)
    else st
  }

  /** The render with new criteria on the old page and the render on page
      1, each followed by the `hasMore` effect. */
  function Rerender(st: Browse, ps: seq<Product>): (r: Browse)
    ensures r.crit == st.crit && r.pager.page == 1 && r.pager.loading == st.pager.loading
    ensures FlagAgrees(st) ==> Synced(r, ps) && FlagAgrees(r)
  {
    var r1 := Observe(st, ps);
    ObserveSyncs(st, ps);
    var r2 := r1.(pager := r1.pager.(page := 1));
    assert FlagAgrees(st) ==> FlagAgrees(r2);
    ObserveSyncs(r2, ps);
    Observe(r2, ps)
  }

  /** With the corrected reset, on a synced page, after any edit a load
      starts exactly when more products remain, and the page is synced
      again once the load has finished. */
  lemma FixedLoadsOnlyWhenMoreRemain(st: Browse, e: Edit, maxPrice: real, ps: seq<Product>)
    requires Synced(st, ps)
    ensures var r := ApplyEditFixed(st, e, maxPrice, ps);
      && (!r.pager.loading ==> (BeginLoad(r.pager).loading <==> HasMore(Filtered(ps, r.crit), r.pager.page)))
      && Synced(FinishLoad(r, ps), ps)
  {
  }

  /** Two criteria that differ only in the sort direction pass the same
      products, so the same number of them. */
  lemma SortOrderKeepsCount(ps: seq<Product>, c: Criteria, o: string)
    ensures |Filtered(ps, c.(sortOrder := o))| == |Filtered(ps, c)|
  {
    var a := Filtered(ps, c);
    var b := Filtered(ps, c.(sortOrder := o));
    assert multiset(a) == multiset(b) by {
      forall p ensures multiset(a)[p] == multiset(b)[p] {
        assert Matches(p, c) == Matches(p, c.(sortOrder := o));
      }
    }
    assert |a| == |multiset(a)| && |b| == |multiset(b)|;
  }

  /** As written: on page 1 with everything already shown, flipping the
      sort direction changes no length, so the `hasMore` effect does not run
      and the reset leaves the flag true. A load then starts although
      nothing remains, and after it the flag is still true, so every scroll
      to the bottom starts another. */
  lemma SortToggleLeavesStaleFlag(st: Browse, o: string, maxPrice: real, ps: seq<Product>)
    requires Synced(st, ps) && st.pager.page == 1 && !st.pager.loading
    requires !HasMore(Filtered(ps, st.crit), 1)
    requires o != st.crit.sortOrder
    ensures var r := ApplyEdit(st, SetSortOrder(o), maxPrice, ps);
      && r.pager.hasMore && !HasMore(Filtered(ps, r.crit), 1)
      && BeginLoad(r.pager).loading
      && var f := FinishLoad(r.(pager := BeginLoad(r.pager)), ps);
         f.pager.hasMore && f.pager.page == 2 && !HasMore(Filtered(ps, f.crit), 2)
  {
    SortOrderKeepsCount(ps, st.crit, o);
  }

  /** Clearing the filters yields the default criteria, topped by the
      catalog's highest price, on page 1. */
  lemma ClearFiltersRestoresDefaults(st: Browse, ps: seq<Product>)
    ensures MaxPrice(Products) == Some(899.99)
    ensures ApplyEdit(st, ClearFilters, 899.99, ps).crit == InitialCriteria.(priceMax := 899.99)
    ensures ApplyEdit(st, ClearFilters, 899.99, ps).pager.page == 1
  {
    CatalogMaxPrice();
  }
  // ---------------------------------------------------------------------
  // The shipped catalog

  /** On a list whose ratings lie in [4.1, 4.9] and whose prices lie in
      [0, 899.99], with no search text or category: a range covering
      [0, 899.99] and a minimum rating up to 4 pass everything, a minimum
      rating of 5 passes nothing. */
  lemma FilterBounds(ps: seq<Product>, c: Criteria)
    requires forall i :: 0 <= i < |ps| ==> 4.1 <= ps[i].rating <= 4.9
    requires forall i :: 0 <= i < |ps| ==> 0.0 <= ps[i].price <= 899.99
    requires c.search == "" && c.category == ""
    requires c.priceMin <= 0.0 && c.priceMax >= 899.99
    ensures c.minRating <= 4.0 ==> Filter(ps, c) == ps
    ensures c.minRating >= 5.0 ==> Filter(ps, c) == []
  {
    forall i | 0 <= i < |ps| ensures Matches(ps[i], c) <==> ps[i].rating >= c.minRating {
      EmptySearchAndCategoryConstrainNothing(ps[i], c);
    }
    if c.minRating <= 4.0 {
      FilterAllPass(ps, c);
    }
  }

  /** The shipped catalog: with the default range, a minimum rating up to 4
      lists every product and a minimum rating of 5 lists none. */
  lemma CatalogFilterBounds(c: Criteria)
    requires c.search == "" && c.category == ""
    requires c.priceMin <= 0.0 && c.priceMax >= 899.99
    ensures c.minRating <= 4.0 ==> Filter(Products, c) == Products
    ensures c.minRating >= 5.0 ==> Filter(Products, c) == []
  {
    CatalogRatings();
    CatalogPriceBounds();
    FilterBounds(Products, c);
  }

  lemma {:induction false} FilterAllPass(ps: seq<Product>, c: Criteria)
    requires forall i :: 0 <= i < |ps| ==> Matches(ps[i], c)
    ensures Filter(ps, c) == ps
  {
    if |ps| > 0 {
      FilterAllPass(ps[1..], c);
      assert ps == [ps[0]] + ps[1..];
    }
  }

  /** When every product passes, the sorted list has them all. */
  lemma FilteredKeepsAll(ps: seq<Product>, c: Criteria)
    requires forall i :: 0 <= i < |ps| ==> Matches(ps[i], c)
    ensures |Filtered(ps, c)| == |ps|
  {
    var f := Filtered(ps, c);
    assert multiset(f) == multiset(ps) by {
      forall p ensures multiset(f)[p] == multiset(ps)[p] {
        if multiset(ps)[p] > 0 {
          assert p in ps;
        }
      }
    }
    assert |f| == |multiset(f)|;
  }

  /** Opening the page on a list of thirty products that all pass: the
      first page shows eight, more remain, and one load shows sixteen. */
  lemma OpeningPageOf(ps: seq<Product>)
    requires |ps| == 30 && Filter(ps, InitialCriteria) == ps
    ensures |Filtered(ps, InitialCriteria)| == 30
    ensures |Visible(Filtered(ps, InitialCriteria), Open(ps).pager.page)| == 8
    ensures Open(ps).pager.hasMore
    ensures var l := Open(ps).(pager := BeginLoad(Open(ps).pager));
      |Visible(Filtered(ps, InitialCriteria), FinishLoad(l, ps).pager.page)| == 16
  {
    assert forall i :: 0 <= i < |ps| ==> Matches(ps[i], InitialCriteria) by {
      forall i | 0 <= i < |ps| ensures Matches(ps[i], InitialCriteria) {
        assert Filter(ps, InitialCriteria)[i] == ps[i];
      }
    }
    FilteredKeepsAll(ps, InitialCriteria);
  }

  /** Opening the page on the shipped catalog with the default criteria. */
  lemma OpeningPage()
    ensures |Filtered(Products, InitialCriteria)| == 30
    ensures |Visible(Filtered(Products, InitialCriteria), Open(Products).pager.page)| == 8
    ensures Open(Products).pager.hasMore
    ensures var l := Open(Products).(pager := BeginLoad(Open(Products).pager));
      |Visible(Filtered(Products, InitialCriteria), FinishLoad(l, Products).pager.page)| == 16
  {
    CatalogIds();
    CatalogFilterBounds(InitialCriteria);
    OpeningPageOf(Products);
  }
}

=== FILE: recommendations.dfy ===
/** Browse history and product recommendations. The history is the
    signed-in customer's recently viewed product ids, most recent first. */
module RecommendationContext {
  import opened Options
  import opened Lists
  import opened Sorting
  import opened Catalog
  import opened AuthContext

  /** How many viewed products the history keeps. */
  const HistoryLimit: nat := 10

  function Min(a: int, b: int): int {
    if a <= b then a else b
  }

  function WithoutId(h: seq<int>, id: int): (r: seq<int>)
    ensures id !in r
    ensures forall x :: multiset(r)[x] == if x == id then 0 else multiset(h)[x]
  {
    Filter(h, (x: int) => x != id)
  }

  /** `addToBrowseHistory(productId)` on the stored history: nothing
      without a session; otherwise the product moves to the front, once, and
      the history is cut to ten. */
  function AddToBrowseHistory(user: Option<Account>, stored: seq<int>, productId: int): (r: Option<seq<int>>)
    ensures user.None? <==> r.None?
    ensures r.Some? ==> |r.value| == Min(HistoryLimit, 1 + |WithoutId(stored, productId)|)
    ensures r.Some? ==> r.value[0] == productId && productId !in r.value[1..]
    ensures r.Some? ==> r.value[1..] <= WithoutId(stored, productId)
  {
    if user.None? then None
    else
      var h := [productId] + WithoutId(stored, productId);
      Some(if |h| <= HistoryLimit then h else h[..HistoryLimit])
  }

  /** Viewing the same product twice in a row is the same as viewing it
      once. */
  lemma ViewTwiceSameAsOnce(user: Option<Account>, stored: seq<int>, productId: int)
    requires user.Some?
    ensures AddToBrowseHistory(user, AddToBrowseHistory(user, stored, productId).value, productId)
         == AddToBrowseHistory(user, stored, productId)
  {
    var h := AddToBrowseHistory(user, stored, productId).value;
    var p := (x: int) => x != productId;
    assert h == [h[0]] + h[1..];
    FilterAppend([h[0]], h[1..], p);
    assert Filter([h[0]], p) == [];
    forall i | 0 <= i < |h[1..]|
      ensures p(h[1..][i])
    {
      assert h[1..][i] in h[1..];
    }
    FilterKeepsAll(h[1..], p);
    assert WithoutId(h, productId) == h[1..];
  }

  function ByRating(p: Product): Key {
    Num(p.rating)
  }

  /** The `limit` best-rated products of `ps`, best first. The sort is
      stable, so among equally rated products the earlier ones in `ps` are
      kept, and kept in their order. */
  function TopRated(ps: seq<Product>, limit: nat): (r: seq<Product>)
    ensures |r| == Min(limit, |ps|)
    ensures multiset(r) <= multiset(ps)
    ensures limit >= |ps| ==> multiset(r) == multiset(ps)
    ensures forall i, j :: 0 <= i < j < |r| ==> r[i].rating >= r[j].rating
    ensures forall k :: WithKey(r, ByRating, k) <= WithKey(ps, ByRating, k)
  {
    var sorted := SortByKey(ps, ByRating, true);
    assert forall i, j :: 0 <= i < j < |sorted| ==> InOrder(ByRating(sorted[i]), ByRating(sorted[j]), true);
    var r := if |sorted| <= limit then sorted else sorted[..limit];
    assert sorted == r + sorted[|r|..];
    assert r == sorted[..|r|];
    SortByKeyStable(ps, ByRating, true);
    PrefixKeepsFirstOfEachKey(sorted, ps, |r|, ByRating);
    r
  }

  /** Nothing `TopRated` leaves out rates higher than anything it keeps. */
  lemma TopRatedIsBest(ps: seq<Product>, limit: nat, x: Product)
    requires x in ps && x !in TopRated(ps, limit)
    ensures forall i :: 0 <= i < |TopRated(ps, limit)| ==> TopRated(ps, limit)[i].rating >= x.rating
  {
    var sorted := TopRatedPrefix(ps, limit);
    var r := TopRated(ps, limit);
    assert x in multiset(sorted);
    var j :| 0 <= j < |sorted| && sorted[j] == x;
    forall k | 0 <= k < |r|
      ensures r[k].rating >= x.rating
    {
      assert r[k] == sorted[k];
    }
  }

  /** `TopRated` is a prefix of the products sorted by rating, best first. */
  lemma TopRatedPrefix(ps: seq<Product>, limit: nat) returns (sorted: seq<Product>)
    ensures multiset(sorted) == multiset(ps) && |sorted| == |ps|
    ensures forall i, j :: 0 <= i < j < |sorted| ==> sorted[i].rating >= sorted[j].rating
    ensures TopRated(ps, limit) == sorted[..Min(limit, |ps|)]
  {
    sorted := SortByKey(ps, ByRating, true);
    assert forall i, j :: 0 <= i < j < |sorted| ==> InOrder(ByRating(sorted[i]), ByRating(sorted[j]), true);
    assert |sorted| == |multiset(sorted)| == |ps|;
  }

  /** The categories of the viewed products. */
  function ViewedCategories(products: seq<Product>, history: seq<int>): set<string> {
    set p | p in products && p.id in history :: p.category
  }

  predicate IsEligible(x: Product, products: seq<Product>, history: seq<int>, current: Option<int>) {
    (current.None? || x.id != current.value) && x.category in ViewedCategories(products, history)
  }

  /** The products a non-empty history makes eligible: not the product on
      screen, and in a category the customer has viewed. */
  function Eligible(products: seq<Product>, history: seq<int>, current: Option<int>): (r: seq<Product>)
    ensures multiset(r) <= multiset(products)
    ensures forall x :: multiset(r)[x] == if IsEligible(x, products, history, current) then multiset(products)[x] else 0
    ensures IsSubsequence(r, products)
  {
    var cats := ViewedCategories(products, history);
    var keep := (p: Product) => (current.None? || p.id != current.value) && p.category in cats;
    FilterIsSubsequence(products, keep);
    Filter(products, keep)
  }

  /** Whatever `Eligible` keeps is eligible. */
  lemma EligibleMember(products: seq<Product>, history: seq<int>, current: Option<int>, y: Product)
    requires y in multiset(Eligible(products, history, current))
    ensures (current.None? || y.id != current.value)
    ensures exists v :: v in products && v.id in history && v.category == y.category
  {
    assert IsEligible(y, products, history, current);
  }

  /** A selection from the eligible products holds only eligible ones. */
  lemma AllEligible(products: seq<Product>, history: seq<int>, current: Option<int>, r: seq<Product>)
    requires multiset(r) <= multiset(Eligible(products, history, current))
    ensures multiset(r) <= multiset(products)
    ensures forall i :: 0 <= i < |r| ==>
      && (current.None? || r[i].id != current.value)
      && exists v :: v in products && v.id in history && v.category == r[i].category
  {
    forall i | 0 <= i < |r|
      ensures (current.None? || r[i].id != current.value)
      ensures exists v :: v in products && v.id in history && v.category == r[i].category
    {
      assert r[i] in multiset(r);
      EligibleMember(products, history, current, r[i]);
    }
  }

  /** `getRecommendations(currentProductId, limit)`: with no history, the
      best-rated products; otherwise the best-rated eligible ones. */
  function Recommendations(products: seq<Product>, history: seq<int>, current: Option<int>, limit: nat): (r: seq<Product>)
    ensures |r| <= limit && multiset(r) <= multiset(products)
    ensures forall i, j :: 0 <= i < j < |r| ==> r[i].rating >= r[j].rating
    ensures |history| == 0 ==> |r| == Min(limit, |products|) && r == TopRated(products, limit)
    ensures |history| > 0 ==> forall k :: WithKey(r, ByRating, k) <= WithKey(Eligible(products, history, current), ByRating, k)
    ensures |history| > 0 ==> forall i :: 0 <= i < |r| ==>
      && (current.None? || r[i].id != current.value)
      && exists v :: v in products && v.id in history && v.category == r[i].category
  {
    if |history| == 0 then TopRated(products, limit)
    else
      var e := Eligible(products, history, current);
      var r := TopRated(e, limit);
      AllEligible(products, history, current, r);
      r
  }

  /** With a history, an eligible product that is not recommended rates no
      higher than any recommended one, and when `limit` allows, every
      eligible product is recommended. */
  lemma RecommendationsAreBest(products: seq<Product>, history: seq<int>, current: Option<int>, limit: nat, x: Product)
    requires |history| > 0
    requires x in products && (current.None? || x.id != current.value)
    requires exists v :: v in products && v.id in history && v.category == x.category
    ensures var r := Recommendations(products, history, current, limit);
      x !in r ==> |r| == limit && forall i :: 0 <= i < |r| ==> r[i].rating >= x.rating
  {
    var e := Eligible(products, history, current);
    var v :| v in products && v.id in history && v.category == x.category;
    assert x.category in ViewedCategories(products, history);
    assert multiset(e)[x] == multiset(products)[x] > 0;
    assert x in e;
    if x !in TopRated(e, limit) {
      TopRatedIsBest(e, limit, x);
    }
  }

  /** With no history, a product is left out only when the list is full
      of products rated at least as high. */
  lemma RecommendationsWithoutHistoryAreBest(products: seq<Product>, current: Option<int>, limit: nat, x: Product)
    requires x in products
    ensures var r := Recommendations(products, [], current, limit);
      x !in r ==> |r| == limit && forall i :: 0 <= i < |r| ==> r[i].rating >= x.rating
  {
    if x !in TopRated(products, limit) {
      TopRatedIsBest(products, limit, x);
      assert multiset(TopRated(products, limit)) != multiset(products) by {
        assert x in multiset(products);
      }
    }
  }

  /** The fixed "bought together" table. */
  function BoughtWith(productId: int): seq<int> {
    if productId == 1 then [2, 3]
    else if productId == 2 then [1, 3]
    else if productId == 4 then [5]
    else []
  }

  /** `getFrequentlyBoughtTogether(productId)`: the products of the list
      passed in whose ids the table lists, in that list's order. */
  function FrequentlyBoughtTogether(products: seq<Product>, productId: int): (r: seq<Product>)
    ensures forall x :: multiset(r)[x] == if x.id in BoughtWith(productId) then multiset(products)[x] else 0
    ensures IsSubsequence(r, products)
  {
    var listed := (p: Product) => p.id in BoughtWith(productId);
    FilterIsSubsequence(products, listed);
    Filter(products, listed)
  }

  /** The result keeps the order of the list passed in, whatever that
      order is: over the catalog as stored, with increasing ids, the
      products come out with increasing ids. */
  lemma BoughtTogetherInOrder(products: seq<Product>, productId: int)
    ensures IsSubsequence(FrequentlyBoughtTogether(products, productId), products)
    ensures (forall i, j :: 0 <= i < j < |products| ==> products[i].id < products[j].id) ==>
      var r := FrequentlyBoughtTogether(products, productId);
      forall i, j :: 0 <= i < j < |r| ==> r[i].id < r[j].id
  {
    if forall i, j :: 0 <= i < j < |products| ==> products[i].id < products[j].id {
      FilterKeepsOrder(products, (p: Product) => p.id in BoughtWith(productId), (p: Product) => p.id);
    }
  }
}

=== FILE: regex.dfy ===
/** The anchored regular expressions the storefront's forms use
    (`/^…$/`): a sequence of pieces, each a character class taken once,
    optionally, any number of times or at least once. The matcher tries
    every way of splitting the input, as a backtracking regular-expression
    engine does. */
module Regex {
  import opened Text

  /** The character classes that occur in the storefront's patterns. */
  datatype Class =
    | Digit          // [0-9]
    | NameChars      // [a-zA-ZáéíóúÁÉÍÓÚñÑ\s]
    | AlnumChars     // [a-zA-Z0-9\s]
    | PhoneChars     // [0-9+\-\s()]
    | NoSpaceOrAt    // [^\s@]
    | AtSign         // @
    | DotSign        // \.
    | NotLineEnd     // .

  predicate In(c: Class, ch: char) {
    match c
    case Digit => IsDigit(ch)
    case NameChars => IsNameChar(ch)
    case AlnumChars => IsAsciiLetter(ch) || IsDigit(ch) || IsSpace(ch)
    case PhoneChars => IsDigit(ch) || ch == '+' || ch == '-' || ch == '(' || ch == ')' || IsSpace(ch)
    case NoSpaceOrAt => !IsSpace(ch) && ch != '@'
    case AtSign => ch == '@'
    case DotSign => ch == '.'
    case NotLineEnd => ch != '\n' && ch != '\r' && ch != '\U{2028}' && ch != '\U{2029}'
  }

  datatype Piece = One(c: Class) | Opt(c: Class) | Star(c: Class) | Plus(c: Class)

  /** Whether `ps` matches `s` from position `i` to the end. */
  predicate MatchFrom(ps: seq<Piece>, s: string, i: nat)
    requires i <= |s|
    decreases |s| - i, |ps|
  {
    if |ps| == 0 then i == |s|
    else match ps[0]
      case One(c) => i < |s| && In(c, s[i]) && MatchFrom(ps[1..], s, i + 1)
      case Opt(c) => MatchFrom(ps[1..], s, i) || (i < |s| && In(c, s[i]) && MatchFrom(ps[1..], s, i + 1))
      case Star(c) => MatchFrom(ps[1..], s, i) || (i < |s| && In(c, s[i]) && MatchFrom(ps, s, i + 1))
      case Plus(c) => i < |s| && In(c, s[i]) && MatchFrom([Star(c)] + ps[1..], s, i + 1)
  }

  /** `pattern.test(s)` for a pattern anchored at both ends. */
  predicate Test(ps: seq<Piece>, s: string) {
    MatchFrom(ps, s, 0)
  }

  predicate AllIn(c: Class, s: string, lo: nat, hi: nat)
    requires lo <= hi <= |s|
  {
    forall j :: lo <= j < hi ==> In(c, s[j])
  }

  /** A lone starred class matches exactly the runs of that class. */
  lemma {:induction false} StarOnly(c: Class, s: string, i: nat)
    requires i <= |s|
    ensures MatchFrom([Star(c)], s, i) <==> AllIn(c, s, i, |s|)
    decreases |s| - i
  {
    assert [Star(c)][1..] == [];
    if i < |s| {
      StarOnly(c, s, i + 1);
    }
  }

  /** A starred class followed by `rest` matches when a run of the class
      is followed by a match of `rest`. */
  lemma {:induction false} StarIntro(c: Class, rest: seq<Piece>, s: string, i: nat, k: nat)
    requires i <= k <= |s| && AllIn(c, s, i, k) && MatchFrom(rest, s, k)
    ensures MatchFrom([Star(c)] + rest, s, i)
    decreases k - i
  {
    assert ([Star(c)] + rest)[1..] == rest;
    if i < k {
      StarIntro(c, rest, s, i + 1, k);
    }
  }

  /** ... and only then: the run's end is returned. */
  lemma {:induction false} StarElim(c: Class, rest: seq<Piece>, s: string, i: nat) returns (k: nat)
    requires i <= |s| && MatchFrom([Star(c)] + rest, s, i)
    ensures i <= k <= |s| && AllIn(c, s, i, k) && MatchFrom(rest, s, k)
    decreases |s| - i
  {
    assert ([Star(c)] + rest)[1..] == rest;
    if MatchFrom(rest, s, i) {
      k := i;
    } else {
      k := StarElim(c, rest, s, i + 1);
    }
  }

  const TextPattern := [Star(NameChars)]
  const NumericPattern := [Star(Digit)]
  const AlphanumericPattern := [Star(AlnumChars)]
  const EmailPattern := [Plus(NoSpaceOrAt), One(AtSign), Plus(NoSpaceOrAt), One(DotSign), Plus(NoSpaceOrAt)]
  const PhonePattern := [Star(PhoneChars)]
  const DecimalPattern := [Star(Digit), Opt(DotSign), Star(Digit)]
  const AnyLinePattern := [Star(NotLineEnd)]

  /** A pattern of one starred class accepts exactly the strings made of
      that class; this is what the text, numeric, alphanumeric, phone and
      any-line patterns are. */
  lemma ClassPattern(c: Class, s: string)
    ensures Test([Star(c)], s) <==> forall j :: 0 <= j < |s| ==> In(c, s[j])
  {
    StarOnly(c, s, 0);
  }

  predicate DecimalChars(s: string) {
    forall j :: 0 <= j < |s| ==> IsDigit(s[j]) || s[j] == '.'
  }

  predicate AtMostOneDot(s: string) {
    forall j, m :: 0 <= j < m < |s| && s[j] == '.' ==> s[m] != '.'
  }

  /** The decimal pattern accepts exactly the strings of digits with at
      most one '.', anywhere (so "." and "5." pass). */
  lemma DecimalIff(s: string)
    ensures Test(DecimalPattern, s) <==> DecimalChars(s) && AtMostOneDot(s)
  {
    var tail := [Opt(DotSign), Star(Digit)];
    assert DecimalPattern == [Star(Digit)] + tail;
    assert tail[1..] == [Star(Digit)];
    if Test(DecimalPattern, s) {
      var k := StarElim(Digit, tail, s, 0);
      if MatchFrom([Star(Digit)], s, k) {
        StarOnly(Digit, s, k);
      } else {
        StarOnly(Digit, s, k + 1);
      }
    }
    if DecimalChars(s) && AtMostOneDot(s) {
      if forall j :: 0 <= j < |s| ==> s[j] != '.' {
        StarOnly(Digit, s, |s|);
        StarIntro(Digit, tail, s, 0, |s|);
      } else {
        var d :| 0 <= d < |s| && s[d] == '.';
        StarOnly(Digit, s, d + 1);
        StarIntro(Digit, tail, s, 0, d);
      }
    }
  }

  /** Every pattern but the e-mail one accepts the empty string. */
  lemma EmptyString()
    ensures Test(TextPattern, "") && Test(NumericPattern, "") && Test(AlphanumericPattern, "")
    ensures Test(PhonePattern, "") && Test(DecimalPattern, "") && Test(AnyLinePattern, "")
    ensures !Test(EmailPattern, "")
  {
    ClassPattern(NameChars, "");
    ClassPattern(Digit, "");
    ClassPattern(AlnumChars, "");
    ClassPattern(PhoneChars, "");
    ClassPattern(NotLineEnd, "");
    DecimalIff("");
  }

  /** The e-mail pattern accepts exactly the strings with no whitespace, one
      '@' that is not first, and a '.' neither right after the '@' nor last;
      the PayPal field and checkout use the same pattern. */
  lemma EmailIff(s: string)
    ensures Test(EmailPattern, s) <==> EmailShape(s)
  {
    var r1 := [One(AtSign), Plus(NoSpaceOrAt), One(DotSign), Plus(NoSpaceOrAt)];
    var r3 := [One(DotSign), Plus(NoSpaceOrAt)];
    if Test(EmailPattern, s) {
      EmailMatched(s, r1, r3);
    }
    if EmailShape(s) {
      EmailBuilt(s, r1, r3);
    }
  }

  lemma EmailBuilt(s: string, r1: seq<Piece>, r3: seq<Piece>)
    requires r1 == [One(AtSign), Plus(NoSpaceOrAt), One(DotSign), Plus(NoSpaceOrAt)]
    requires r3 == [One(DotSign), Plus(NoSpaceOrAt)]
    requires EmailShape(s)
    ensures Test(EmailPattern, s)
  {
    assert EmailPattern[1..] == r1 && r1[1..] == [Plus(NoSpaceOrAt)] + r3;
    assert r3[1..] == [Plus(NoSpaceOrAt)];
    assert [Plus(NoSpaceOrAt)][1..] == [];
    assert [Star(NoSpaceOrAt)] + [] == [Star(NoSpaceOrAt)];
    var at, dot :| 0 < at < |s| && 0 < dot < |s| && at + 1 < dot && dot + 1 < |s|
      && s[at] == '@' && s[dot] == '.'
      && (forall j :: 0 <= j < |s| && s[j] == '@' ==> j == at);
    StarOnly(NoSpaceOrAt, s, dot + 2);
    assert MatchFrom([Plus(NoSpaceOrAt)], s, dot + 1);
    assert MatchFrom(r3, s, dot);
    StarIntro(NoSpaceOrAt, r3, s, at + 2, dot);
    assert MatchFrom(r1, s, at);
    StarIntro(NoSpaceOrAt, r1, s, 1, at);
  }

  lemma EmailMatched(s: string, r1: seq<Piece>, r3: seq<Piece>)
    requires r1 == [One(AtSign), Plus(NoSpaceOrAt), One(DotSign), Plus(NoSpaceOrAt)]
    requires r3 == [One(DotSign), Plus(NoSpaceOrAt)]
    requires Test(EmailPattern, s)
    ensures EmailShape(s)
  {
    assert EmailPattern[1..] == r1 && r1[1..] == [Plus(NoSpaceOrAt)] + r3;
    assert r3[1..] == [Plus(NoSpaceOrAt)];
    assert [Plus(NoSpaceOrAt)][1..] == [];
    assert [Star(NoSpaceOrAt)] + [] == [Star(NoSpaceOrAt)];
    var at := StarElim(NoSpaceOrAt, r1, s, 1);
    var dot := StarElim(NoSpaceOrAt, r3, s, at + 2);
    assert MatchFrom([Star(NoSpaceOrAt)], s, dot + 2);
    StarOnly(NoSpaceOrAt, s, dot + 2);
    assert forall j :: 0 <= j < |s| && j != at ==> In(NoSpaceOrAt, s[j]);
  }
}

=== FILE: reviews.dfy ===
/** The review store: adding, listing (newest first), averaging, finding a
    customer's own review, helpful/not-helpful votes and deletion. */
module ReviewContext {
  import opened Options
  import opened Lists
  import opened Sorting
  import opened AuthContext

  datatype Review = Review(
    id: int,
    productId: int,
    userId: int,
    userName: string,
    userEmail: string,
    rating: int,
    title: string,
    comment: string,
    date: int,
    helpful: int,
    notHelpful: int)

  datatype Added = Added(reviews: seq<Review>, review: Review) | NotSignedIn(error: string)

  /** `addReview(productId, rating, comment, title)` at time `now` (also the
      id): only a signed-in customer may review; the review goes in front
      with no votes. */
  function AddReview(reviews: seq<Review>, user: Option<Account>, productId: int, rating: int,
                     comment: string, title: string, now: int): (r: Added)
    ensures user.None? <==> r.NotSignedIn?
    ensures r.NotSignedIn? ==> r.error == "Debes iniciar sesión para dejar una reseña"
    ensures r.Added? ==>
      && r.reviews == [r.review] + reviews
      && r.review.productId == productId && r.review.rating == rating
      && r.review.userId == user.value.id && r.review.userName == user.value.name
      && r.review.comment == comment && r.review.title == title
      && r.review.helpful == 0 && r.review.notHelpful == 0
  {
    match user
    case None => NotSignedIn("Debes iniciar sesión para dejar una reseña")
    case Some(u) =>
      var rv := Review(now, productId, u.id, u.name, u.email, rating, title, comment, now, 0, 0);
      Added([rv] + reviews, rv)
  }

  function OfProduct(reviews: seq<Review>, productId: int): (r: seq<Review>)
    ensures forall i :: 0 <= i < |r| ==> r[i].productId == productId
    ensures forall x :: multiset(r)[x] == if x.productId == productId then multiset(reviews)[x] else 0
  {
    Filter(reviews, (rv: Review) => rv.productId == productId)
  }

  function DateKey(rv: Review): Key {
    Num(rv.date as real)
  }

  /** `getProductReviews(productId)`: that product's reviews, newest first;
      the sort is stable, so reviews of the same date keep their stored
      order. */
  function ProductReviews(reviews: seq<Review>, productId: int): (r: seq<Review>)
    ensures forall x :: multiset(r)[x] == if x.productId == productId then multiset(reviews)[x] else 0
    ensures forall i, j :: 0 <= i < j < |r| ==> r[i].date >= r[j].date
    ensures forall k :: WithKey(r, DateKey, k) == WithKey(OfProduct(reviews, productId), DateKey, k)
  {
    var r := SortByKey(OfProduct(reviews, productId), DateKey, true);
    SortByKeyStable(OfProduct(reviews, productId), DateKey, true);
    assert forall i, j :: 0 <= i < j < |r| ==> InOrder(DateKey(r[i]), DateKey(r[j]), true);
    r
  }

  function SumRatings(rs: seq<Review>): int {
    if |rs| == 0 then 0 else rs[0].rating + SumRatings(rs[1..])
  }

  /** `r` is a whole number of tenths. */
  predicate InTenths(r: real) {
    (r * 10.0).Floor as real == r * 10.0
  }

  /** `x.toFixed(1)` for a non-negative `x`: the nearest tenth, halves
      rounded up. */
  function RoundTenths(x: real): (r: real)
    requires x >= 0.0
    ensures r >= 0.0
    ensures r - 0.05 <= x < r + 0.05
    ensures InTenths(r)
  {
    var n := (x * 10.0 + 0.5).Floor;
    assert n as real <= x * 10.0 + 0.5 < n as real + 1.0;
    assert (n as real / 10.0) * 10.0 == n as real;
    n as real / 10.0
  }

  /** The mean rating of a non-empty list. */
  function Mean(rs: seq<Review>): (m: real)
    requires |rs| > 0
    ensures SumRatings(rs) >= 0 ==> m >= 0.0
    ensures m * (|rs| as real) == SumRatings(rs) as real
  {
    SumRatings(rs) as real / |rs| as real
  }

  /** `getProductRating(productId)`: 0 without reviews, otherwise the mean
      rating to one decimal. */
  function ProductRating(reviews: seq<Review>, productId: int): (r: real)
    requires forall i :: 0 <= i < |reviews| ==> reviews[i].rating >= 0
    ensures r >= 0.0
    ensures |ProductReviews(reviews, productId)| == 0 ==> r == 0.0
    ensures |ProductReviews(reviews, productId)| > 0 ==>
      r - 0.05 <= Mean(ProductReviews(reviews, productId)) < r + 0.05
    ensures InTenths(r)
  {
    var rs := ProductReviews(reviews, productId);
    if |rs| == 0 then 0.0
    else
      ProductSumNonNegative(reviews, productId);
      RoundedMean(rs)
  }

  /** The mean of a non-empty list with a non-negative sum, to one decimal. */
  function RoundedMean(rs: seq<Review>): (r: real)
    requires |rs| > 0 && SumRatings(rs) >= 0
    ensures r >= 0.0
    ensures r - 0.05 <= Mean(rs) < r + 0.05
    ensures InTenths(r)
  {
    RoundTenths(Mean(rs))
  }

  lemma ProductSumNonNegative(reviews: seq<Review>, productId: int)
    requires forall i :: 0 <= i < |reviews| ==> reviews[i].rating >= 0
    ensures SumRatings(ProductReviews(reviews, productId)) >= 0
  {
    var rs := ProductReviews(reviews, productId);
    forall x | multiset(rs)[x] > 0
      ensures multiset(reviews)[x] > 0
    {
    }
    NonNegativeSum(rs, reviews);
  }

  lemma {:induction false} NonNegativeSum(rs: seq<Review>, all: seq<Review>)
    requires forall x :: multiset(rs)[x] > 0 ==> multiset(all)[x] > 0
    requires forall i :: 0 <= i < |all| ==> all[i].rating >= 0
    ensures SumRatings(rs) >= 0
  {
    if |rs| > 0 {
      assert rs == [rs[0]] + rs[1..];
      assert multiset(all)[rs[0]] > 0;
      assert rs[0] in all;
      forall x | multiset(rs[1..])[x] > 0
        ensures multiset(all)[x] > 0
      {
        assert multiset(rs)[x] >= multiset(rs[1..])[x];
      }
      NonNegativeSum(rs[1..], all);
    }
  }

  /** `getUserReview(productId)`: the signed-in customer's first review of
      the product. */
  function UserReview(reviews: seq<Review>, user: Option<Account>, productId: int): (r: Option<Review>)
    ensures user.None? ==> r.None?
    ensures r.Some? ==>
      r.value in reviews && r.value.productId == productId && r.value.userId == user.value.id
    ensures r.Some? ==>
      exists i :: 0 <= i < |reviews| && reviews[i] == r.value
        && forall j :: 0 <= j < i ==> !(reviews[j].productId == productId && reviews[j].userId == user.value.id)
    ensures user.Some? && r.None? ==>
      forall i :: 0 <= i < |reviews| ==> !(reviews[i].productId == productId && reviews[i].userId == user.value.id)
  {
    match user
    case None => None
    case Some(u) =>
      match FirstWhere(reviews, (rv: Review) => rv.productId == productId && rv.userId == u.id)
      case None => None
      case Some(i) => Some(reviews[i])
  }

  /** `markHelpful(reviewId, isHelpful)`: every review with that id gains
      one vote of the given kind; nothing else changes. */
  function MarkHelpful(reviews: seq<Review>, reviewId: int, isHelpful: bool): (r: seq<Review>)
    ensures |r| == |reviews|
    ensures forall i :: 0 <= i < |r| && reviews[i].id != reviewId ==> r[i] == reviews[i]
    ensures forall i :: 0 <= i < |r| && reviews[i].id == reviewId ==>
      && r[i].helpful == reviews[i].helpful + (if isHelpful then 1 else 0)
      && r[i].notHelpful == reviews[i].notHelpful + (if isHelpful then 0 else 1)
      && r[i].(helpful := reviews[i].helpful, notHelpful := reviews[i].notHelpful) == reviews[i]
  {
    seq(|reviews|, i requires 0 <= i < |reviews| =>
      var rv := reviews[i];
      if rv.id == reviewId then
        rv.(helpful := if isHelpful then rv.helpful + 1 else rv.helpful,
            notHelpful := if !isHelpful then rv.notHelpful + 1 else rv.notHelpful)
      else rv)
  }

  function WithoutId(reviews: seq<Review>, reviewId: int): (r: seq<Review>)
    ensures forall i :: 0 <= i < |r| ==> r[i].id != reviewId
    ensures forall x :: multiset(r)[x] == if x.id == reviewId then 0 else multiset(reviews)[x]
  {
    Filter(reviews, (rv: Review) => rv.id != reviewId)
  }

  datatype Deleted = Deleted(reviews: seq<Review>, done: bool)

  /** `deleteReview(reviewId)`: only the author of the first review with
      that id may delete it, and then every review with that id goes. */
  function DeleteReview(reviews: seq<Review>, user: Option<Account>, reviewId: int): (r: Deleted)
    ensures !r.done ==> r.reviews == reviews
    ensures r.done <==>
      user.Some? && exists i :: 0 <= i < |reviews| && reviews[i].id == reviewId
                            && reviews[i].userId == user.value.id
                            && forall j :: 0 <= j < i ==> reviews[j].id != reviewId
    ensures r.done ==> r.reviews == WithoutId(reviews, reviewId)
  {
    match user
    case None => Deleted(reviews, false)
    case Some(u) =>
      match FirstWhere(reviews, (rv: Review) => rv.id == reviewId)
      case None => Deleted(reviews, false)
      case Some(i) =>
        if reviews[i].userId == u.id then Deleted(WithoutId(reviews, reviewId), true)
        else Deleted(reviews, false)
  }

  /** A customer's new review is what `getUserReview` then finds, and
      deleting it (when its id is fresh) leaves the store as it was. */
  lemma AddThenDelete(reviews: seq<Review>, user: Option<Account>, productId: int, rating: int,
                      comment: string, title: string, now: int)
    requires user.Some?
    requires forall i :: 0 <= i < |reviews| ==> reviews[i].id != now
    ensures
      var a := AddReview(reviews, user, productId, rating, comment, title, now);
      && UserReview(a.reviews, user, productId) == Some(a.review)
      && DeleteReview(a.reviews, user, now) == Deleted(reviews, true)
  {
    var a := AddReview(reviews, user, productId, rating, comment, title, now);
    FilterKeepsAll(reviews, (rv: Review) => rv.id != now);
    assert a.reviews[0] == a.review;
    assert a.reviews[1..] == reviews;
  }
}

/** The review form on a product page. */
module ReviewForm {
  import opened Options
  import opened Text
  import opened AuthContext
  import opened ReviewContext

  datatype Form = Form(rating: int, title: string, comment: string, submitting: bool)

  /** A form opened on the customer's earlier review starts from it. */
  function Open(existing: Option<Review>): (r: Form)
    ensures existing.None? ==> r == Form(0, "", "", false)
    ensures existing.Some? ==>
      r == Form(existing.value.rating, existing.value.title, existing.value.comment, false)
  {
    match existing
    case None => Form(0, "", "", false)
    case Some(rv) => Form(rv.rating, rv.title, rv.comment, false)
  }

  /** The submit button is disabled while sending, with no rating, or with
      a comment shorter than ten characters once trimmed. */
  predicate SubmitDisabled(f: Form) {
    f.submitting || f.rating == 0 || |Trim(f.comment)| < 10
  }

  datatype Submitted = Submitted(form: Form, reviews: seq<Review>, alert: Option<string>)

  /** `handleSubmit`: signed in, a rating, a trimmed comment of ten
      characters or more; then the review is added with trimmed text and
      the form is reset. */
  function HandleSubmit(f: Form, user: Option<Account>, reviews: seq<Review>, productId: int, now: int): (r: Submitted)
    ensures user.None? ==> r == Submitted(f, reviews, Some("Debes iniciar sesión para dejar una reseña"))
    ensures user.Some? && f.rating == 0 ==> r == Submitted(f, reviews, Some("Por favor selecciona una calificación"))
    ensures user.Some? && f.rating != 0 && |Trim(f.comment)| < 10 ==>
      r == Submitted(f, reviews, Some("La reseña debe tener al menos 10 caracteres"))
    ensures r.alert.None? <==> user.Some? && f.rating != 0 && |Trim(f.comment)| >= 10
    ensures r.alert.None? ==>
      && r.form == Form(0, "", "", false)
      && |r.reviews| == |reviews| + 1 && r.reviews[1..] == reviews
      && r.reviews[0].comment == Trim(f.comment) && r.reviews[0].title == Trim(f.title)
      && r.reviews[0].rating == f.rating && r.reviews[0].productId == productId
  {
    if user.None? then Submitted(f, reviews, Some("Debes iniciar sesión para dejar una reseña"))
    else if f.rating == 0 then Submitted(f, reviews, Some("Por favor selecciona una calificación"))
    else if |Trim(f.comment)| < 10 then Submitted(f, reviews, Some("La reseña debe tener al menos 10 caracteres"))
    else
      match AddReview(reviews, user, productId, f.rating, Trim(f.comment), Trim(f.title), now)
      case Added(rs, _) => Submitted(Form(0, "", "", false), rs, None)
      case NotSignedIn(e) => Submitted(f, reviews, Some(e))
  }

  /** For a signed-in customer, a press of the enabled button always files
      the review, and a submission that files one came from a form whose
      button was enabled (or only busy sending). */
  lemma EnabledIffAccepted(f: Form, user: Option<Account>, reviews: seq<Review>, productId: int, now: int)
    requires user.Some?
    ensures !SubmitDisabled(f) ==> HandleSubmit(f, user, reviews, productId, now).alert.None?
    ensures HandleSubmit(f, user, reviews, productId, now).alert.None? ==> !SubmitDisabled(f.(submitting := false))
  {
  }

  /** `handleDelete`, with `confirmed` the answer to the confirmation
      dialog: without a review of one's own, or when declined, nothing
      changes; once confirmed, the form's review is deleted. */
  function HandleDelete(reviews: seq<Review>, user: Option<Account>, existing: Option<Review>, confirmed: bool): (r: seq<Review>)
    ensures existing.None? || !confirmed ==> r == reviews
    ensures existing.Some? && confirmed ==> r == DeleteReview(reviews, user, existing.value.id).reviews
  {
    match existing
    case None => reviews
    case Some(rv) => if confirmed then DeleteReview(reviews, user, rv.id).reviews else reviews
  }
}

/** The review list on a product page: its orderings and the helpful votes,
    remembered per voter so each may vote once on each review. */
module ReviewList {
  import opened Options
  import opened Sorting
  import opened AuthContext
  import opened ReviewContext

  datatype SortMode = Recent | MostHelpful | RatingHigh | RatingLow | OtherMode(name: string)

  function ModeKey(mode: SortMode): Review -> Key {
    match mode
    case Recent => (rv: Review) => Num(rv.date as real)
    case MostHelpful => (rv: Review) => Num((rv.helpful - rv.notHelpful) as real)
    case RatingHigh => (rv: Review) => Num(rv.rating as real)
    case RatingLow => (rv: Review) => Num(rv.rating as real)
    case OtherMode(_) => (rv: Review) => Num(0.0)
  }

  /** The list in the chosen order: newest, best net votes or highest
      rating first, or lowest rating first; an unknown mode keeps the
      store's order (its comparator calls every pair equal). Each
      comparator reports ties as equal and the sort is stable, so tied
      reviews keep the store's order. */
  function Sorted(reviews: seq<Review>, mode: SortMode): (r: seq<Review>)
    ensures multiset(r) == multiset(reviews)
    ensures mode.OtherMode? ==> r == reviews
    ensures mode == Recent ==> forall i, j :: 0 <= i < j < |r| ==> r[i].date >= r[j].date
    ensures mode == MostHelpful ==>
      forall i, j :: 0 <= i < j < |r| ==> r[i].helpful - r[i].notHelpful >= r[j].helpful - r[j].notHelpful
    ensures mode == RatingHigh ==> forall i, j :: 0 <= i < j < |r| ==> r[i].rating >= r[j].rating
    ensures mode == RatingLow ==> forall i, j :: 0 <= i < j < |r| ==> r[i].rating <= r[j].rating
    ensures forall k :: WithKey(r, ModeKey(mode), k) == WithKey(reviews, ModeKey(mode), k)
  {
    if mode.OtherMode? then reviews
    else
      var r := SortByKey(reviews, ModeKey(mode), mode != RatingLow);
      SortByKeyStable(reviews, ModeKey(mode), mode != RatingLow);
      assert forall i, j :: 0 <= i < j < |r| ==> InOrder(ModeKey(mode)(r[i]), ModeKey(mode)(r[j]), mode != RatingLow);
      r
  }

  /** Whose vote record a click is filed under. */
  datatype Voter = UserVoter(id: int) | Anonymous

  /** Each voter's votes: review id to "helpful?". */
  type Votes = map<Voter, map<int, bool>>

  function VotesOf(votes: Votes, v: Voter): map<int, bool> {
    if v in votes then votes[v] else map[]
  }

  datatype Voted = Voted(votes: Votes, reviews: seq<Review>)

  /** The record key as written, `user?.id || 'anonymous'`: no one signed
      in, or a user whose id is 0 (falsy), files under "anonymous". */
  function VoterAsWritten(user: Option<Account>): Voter {
    if user.None? || user.value.id == 0 then Anonymous else UserVoter(user.value.id)
  }

  /** `handleHelpful` as written: the vote counts unless the record holds a
      truthy entry for the review, so an earlier "not helpful" (stored as
      `false`) blocks nothing. */
  function HandleHelpfulAsWritten(votes: Votes, user: Option<Account>, reviews: seq<Review>,
                                  reviewId: int, isHelpful: bool): (r: Voted)
    ensures
      var mine := VotesOf(votes, VoterAsWritten(user));
      (reviewId in mine && mine[reviewId]) ==> r == Voted(votes, reviews)
    ensures
      var mine := VotesOf(votes, VoterAsWritten(user));
      !(reviewId in mine && mine[reviewId]) ==> r.reviews == MarkHelpful(reviews, reviewId, isHelpful)
  {
    var v := VoterAsWritten(user);
    var mine := VotesOf(votes, v);
    if reviewId in mine && mine[reviewId] then Voted(votes, reviews)
    else Voted(votes[v := mine[reviewId := isHelpful]], MarkHelpful(reviews, reviewId, isHelpful))
  }

  /** As written, the same customer can vote "not helpful" on the same
      review twice, and both votes count. */
  lemma NotHelpfulTwiceAsWritten(user: Option<Account>, rv: Review)
    ensures
      var first := HandleHelpfulAsWritten(map[], user, [rv], rv.id, false);
      var second := HandleHelpfulAsWritten(first.votes, user, first.reviews, rv.id, false);
      second.reviews[0].notHelpful == rv.notHelpful + 2
  {
    var first := HandleHelpfulAsWritten(map[], user, [rv], rv.id, false);
    var v := VoterAsWritten(user);
    assert v in first.votes && first.votes[v] == map[rv.id := false];
  }

  /** As written, the administrator (id 0) and a visitor who is not signed
      in share one vote record: the administrator's "helpful" vote stops the
      visitor's vote. */
  lemma AdminSharesAnonymousRecord(admin: Account, rv: Review)
    requires admin.id == 0
    ensures
      var first := HandleHelpfulAsWritten(map[], Some(admin), [rv], rv.id, true);
      HandleHelpfulAsWritten(first.votes, None, first.reviews, rv.id, true) == first
  {
    var first := HandleHelpfulAsWritten(map[], Some(admin), [rv], rv.id, true);
    assert first.votes[Anonymous] == map[rv.id := true];
  }

  /** The record key as intended: signed-in users by id, whatever its
      value; everyone else as "anonymous". */
  function VoterOf(user: Option<Account>): (v: Voter)
    ensures user.None? <==> v == Anonymous
    ensures user.Some? ==> v == UserVoter(user.value.id)
  {
    if user.None? then Anonymous else UserVoter(user.value.id)
  }

  /** `handleHelpful` as intended: a voter's first vote on a review counts
      and is remembered; any later vote by the same voter on it is ignored. */
  function HandleHelpful(votes: Votes, user: Option<Account>, reviews: seq<Review>,
                         reviewId: int, isHelpful: bool): (r: Voted)
    ensures reviewId in VotesOf(votes, VoterOf(user)) ==> r == Voted(votes, reviews)
    ensures reviewId !in VotesOf(votes, VoterOf(user)) ==>
      && r.reviews == MarkHelpful(reviews, reviewId, isHelpful)
      && VotesOf(r.votes, VoterOf(user)) == VotesOf(votes, VoterOf(user))[reviewId := isHelpful]
      && forall w :: w != VoterOf(user) ==> VotesOf(r.votes, w) == VotesOf(votes, w)
  {
    var v := VoterOf(user);
    var mine := VotesOf(votes, v);
    if reviewId in mine then Voted(votes, reviews)
    else Voted(votes[v := mine[reviewId := isHelpful]], MarkHelpful(reviews, reviewId, isHelpful))
  }

  /** A run of clicks: who clicked, on which review, which button. */
  datatype Click = Click(user: Option<Account>, reviewId: int, isHelpful: bool)

  function Replay(st: Voted, clicks: seq<Click>): Voted
    decreases |clicks|
  {
    if |clicks| == 0 then st
    else
      var c := clicks[0];
      Replay(HandleHelpful(st.votes, c.user, st.reviews, c.reviewId, c.isHelpful), clicks[1..])
  }

  /** Once a voter has voted on a review, none of their later clicks on it
      changes anything, whatever else happens in between. */
  lemma {:induction false} VoteOnce(st: Voted, clicks: seq<Click>, v: Voter, reviewId: int)
    requires reviewId in VotesOf(st.votes, v)
    ensures reviewId in VotesOf(Replay(st, clicks).votes, v)
    ensures VotesOf(Replay(st, clicks).votes, v)[reviewId] == VotesOf(st.votes, v)[reviewId]
    ensures forall k :: 0 <= k < |clicks| && VoterOf(clicks[k].user) == v && clicks[k].reviewId == reviewId ==>
      Replay(st, clicks[..k + 1]) == Replay(st, clicks[..k])
    decreases |clicks|
  {
    if |clicks| > 0 {
      var c := clicks[0];
      var st' := HandleHelpful(st.votes, c.user, st.reviews, c.reviewId, c.isHelpful);
      VoteOnce(st', clicks[1..], v, reviewId);
      forall k | 0 <= k < |clicks| && VoterOf(clicks[k].user) == v && clicks[k].reviewId == reviewId
        ensures Replay(st, clicks[..k + 1]) == Replay(st, clicks[..k])
      {
        if k == 0 {
          assert clicks[..1][1..] == [];
          assert st' == st;
        } else {
          assert clicks[..k + 1][1..] == clicks[1..][..k];
          assert clicks[..k][1..] == clicks[1..][..k - 1];
        }
      }
    }
  }

  /** The administrator and an anonymous visitor keep separate records. */
  lemma AdminVotesApart(admin: Account)
    requires admin.id == 0
    ensures VoterOf(Some(admin)) != VoterOf(None)
  {
  }
}

=== FILE: social.dfy ===
/** Public wish lists and following other customers. */
module SocialContext {
  import opened Options
  import opened Lists
  import opened Catalog
  import opened AuthContext

  datatype PublicList = PublicList(
    id: int,
    userId: int,
    userName: string,
    listName: string,
    products: seq<Product>,
    isPublic: bool,
    createdAt: string,
    likes: int,
    shares: int)

  datatype Social = Social(lists: seq<PublicList>, followed: seq<int>)

  datatype Created = Created(social: Social, list: Option<PublicList>)

  /** `createPublicList(listName, products, isPublic)` at time `now` (also
      the id): without a session, nothing; otherwise the list goes in front
      with no likes or shares. */
  function CreatePublicList(st: Social, user: Option<Account>, listName: string, products: seq<Product>,
                            isPublic: bool, now: int, stamp: string): (r: Created)
    ensures user.None? ==> r == Created(st, None)
    ensures user.Some? ==>
      && r.list.Some? && r.social == st.(lists := [r.list.value] + st.lists)
      && r.list.value.userId == user.value.id && r.list.value.userName == user.value.name
      && r.list.value.listName == listName && r.list.value.products == products
      && r.list.value.likes == 0 && r.list.value.shares == 0
      && r.list.value.id == now && r.list.value.isPublic == isPublic && r.list.value.createdAt == stamp
  {
    match user
    case None => Created(st, None)
    case Some(u) =>
      var l := PublicList(now, u.id, u.name, listName, products, isPublic, stamp, 0, 0);
      Created(st.(lists := [l] + st.lists), Some(l))
  }

  /** `followUser(userId)`: appended, even when already followed. */
  function FollowUser(st: Social, user: Option<Account>, userId: int): (r: Social)
    ensures r.lists == st.lists
    ensures user.None? ==> r == st
    ensures user.Some? ==>
      |r.followed| == |st.followed| + 1 && r.followed[..|st.followed|] == st.followed
      && r.followed[|st.followed|] == userId
  {
    if user.None? then st else st.(followed := st.followed + [userId])
  }

  function WithoutUser(followed: seq<int>, userId: int): (r: seq<int>)
    ensures userId !in r
    ensures forall x :: multiset(r)[x] == if x == userId then 0 else multiset(followed)[x]
  {
    Filter(followed, (x: int) => x != userId)
  }

  /** `unfollowUser(userId)`: every occurrence goes. */
  function UnfollowUser(st: Social, user: Option<Account>, userId: int): (r: Social)
    ensures r.lists == st.lists
    ensures user.None? ==> r == st
    ensures user.Some? ==> r.followed == WithoutUser(st.followed, userId)
  {
    if user.None? then st else st.(followed := WithoutUser(st.followed, userId))
  }

  /** Whether the lists of `owner` are shown to the session's user. */
  predicate Shown(st: Social, user: Option<Account>, owner: int) {
    owner in st.followed || (user.Some? && owner == user.value.id)
  }

  /** `getFollowedLists()`: the lists of followed users and of the session's
      own user, in store order. */
  function GetFollowedLists(st: Social, user: Option<Account>): (r: seq<PublicList>)
    ensures forall x :: multiset(r)[x] == if Shown(st, user, x.userId) then multiset(st.lists)[x] else 0
  {
    Filter(st.lists, (l: PublicList) => Shown(st, user, l.userId))
  }

  /** `likeList(listId)`: one more like on the lists with that id only. */
  function LikeList(st: Social, listId: int): (r: Social)
    ensures r.followed == st.followed && |r.lists| == |st.lists|
    ensures forall i :: 0 <= i < |st.lists| && st.lists[i].id != listId ==> r.lists[i] == st.lists[i]
    ensures forall i :: 0 <= i < |st.lists| && st.lists[i].id == listId ==>
      r.lists[i] == st.lists[i].(likes := st.lists[i].likes + 1)
  {
    st.(lists := seq(|st.lists|, i requires 0 <= i < |st.lists| =>
                   var l := st.lists[i];
                   if l.id == listId then l.(likes := l.likes + 1) else l))
  }

  /** Liking a list just created, under an id no earlier list has, gives
      it its first like and leaves every other list alone. */
  lemma CreateThenLike(st: Social, user: Option<Account>, listName: string, products: seq<Product>,
                       isPublic: bool, now: int, stamp: string)
    requires user.Some?
    requires forall i :: 0 <= i < |st.lists| ==> st.lists[i].id != now
    ensures var c := CreatePublicList(st, user, listName, products, isPublic, now, stamp);
      LikeList(c.social, now) == st.(lists := [c.list.value.(likes := 1)] + st.lists)
  {
    var c := CreatePublicList(st, user, listName, products, isPublic, now, stamp);
    var l := c.list.value;
    var ls := [l] + st.lists;
    assert c.social.lists == ls;
    var r := LikeList(c.social, now);
    var want := [l.(likes := 1)] + st.lists;
    forall i | 0 <= i < |ls|
      ensures r.lists[i] == want[i]
    {
      if i > 0 {
        assert ls[i] == st.lists[i - 1];
      }
    }
    assert r.lists == want;
  }

  /** A new list is shown to its creator, once more than before. */
  lemma CreateShownToOwner(st: Social, user: Option<Account>, listName: string, products: seq<Product>,
                           isPublic: bool, now: int, stamp: string)
    requires user.Some?
    ensures var c := CreatePublicList(st, user, listName, products, isPublic, now, stamp);
      multiset(GetFollowedLists(c.social, user))[c.list.value]
        == multiset(GetFollowedLists(st, user))[c.list.value] + 1
  {
    var c := CreatePublicList(st, user, listName, products, isPublic, now, stamp);
    assert Shown(c.social, user, c.list.value.userId);
    assert multiset(c.social.lists) == multiset{c.list.value} + multiset(st.lists);
  }

  /** Unfollowing undoes any number of follows: following first makes no
      difference to the result. */
  lemma FollowThenUnfollow(st: Social, user: Option<Account>, userId: int)
    ensures UnfollowUser(FollowUser(st, user, userId), user, userId) == UnfollowUser(st, user, userId)
  {
    if user.Some? {
      var p := (x: int) => x != userId;
      FilterAppend(st.followed, [userId], p);
      assert Filter([userId], p) == [];
    }
  }

  /** After following a user, all of that user's lists are shown; after
      unfollowing one who is not oneself, none are. */
  lemma FollowShowsUnfollowHides(st: Social, user: Option<Account>, userId: int)
    requires user.Some?
    ensures forall x: PublicList :: x.userId == userId ==>
      multiset(GetFollowedLists(FollowUser(st, user, userId), user))[x] == multiset(st.lists)[x]
    ensures userId != user.value.id ==> forall x: PublicList :: x.userId == userId ==>
      multiset(GetFollowedLists(UnfollowUser(st, user, userId), user))[x] == 0
  {
    var f := FollowUser(st, user, userId);
    assert f.followed[|st.followed|] == userId;
    assert userId in f.followed;
  }
}

=== FILE: sorting.dfy ===
/** Sorting by a key, as the storefront's `Array.prototype.sort` calls do.
    Keys are strings, compared character by character, or numbers. A
    character here is a code point; JavaScript's `<` compares UTF-16 code
    units, which order the same way except against characters outside the
    Basic Multilingual Plane. A direction flag turns ascending into
    descending. The sort is an insertion sort; what callers rely on is its
    contract: the result is a permutation of the input in key order, and
    it is stable, as `Array.prototype.sort` has been since ECMAScript 2019:
    elements with equal keys keep their input order. */
module Sorting {

  datatype Key = Str(s: string) | Num(r: real)

  /** Lexicographic order on strings. */
  predicate StrLe(a: string, b: string) {
    |a| == 0 || (|b| > 0 && (a[0] < b[0] || (a[0] == b[0] && StrLe(a[1..], b[1..]))))
  }

  lemma {:induction false} StrLeTotal(a: string, b: string)
    ensures StrLe(a, b) || StrLe(b, a)
  {
    if |a| > 0 && |b| > 0 && a[0] == b[0] {
      StrLeTotal(a[1..], b[1..]);
    }
  }

  lemma {:induction false} StrLeTrans(a: string, b: string, c: string)
    requires StrLe(a, b) && StrLe(b, c)
    ensures StrLe(a, c)
  {
    if |a| > 0 && |b| > 0 && |c| > 0 && a[0] == b[0] == c[0] {
      StrLeTrans(a[1..], b[1..], c[1..]);
    }
  }

  /** A total preorder on keys: strings among themselves, numbers among
      themselves, and (never needed by a single sort) strings before numbers. */
  predicate KeyLe(a: Key, b: Key) {
    match (a, b)
    case (Str(x), Str(y)) => StrLe(x, y)
    case (Num(x), Num(y)) => x <= y
    case (Str(_), Num(_)) => true
    case (Num(_), Str(_)) => false
  }

  /** `a` may come before `b` in a sort in the given direction. */
  predicate InOrder(a: Key, b: Key, desc: bool) {
    if desc then KeyLe(b, a) else KeyLe(a, b)
  }

  lemma InOrderTotal(a: Key, b: Key, desc: bool)
    ensures InOrder(a, b, desc) || InOrder(b, a, desc)
  {
    if a.Str? && b.Str? {
      StrLeTotal(a.s, b.s);
    }
  }

  lemma InOrderTrans(a: Key, b: Key, c: Key, desc: bool)
    requires InOrder(a, b, desc) && InOrder(b, c, desc)
    ensures InOrder(a, c, desc)
  {
    if a.Str? && b.Str? && c.Str? {
      if desc {
        StrLeTrans(c.s, b.s, a.s);
      } else {
        StrLeTrans(a.s, b.s, c.s);
      }
    }
  }

  lemma {:induction false} StrLeRefl(a: string)
    ensures StrLe(a, a)
  {
    if |a| > 0 {
      StrLeRefl(a[1..]);
    }
  }

  /** Equal keys may come in either order. */
  lemma InOrderRefl(a: Key, desc: bool)
    ensures InOrder(a, a, desc)
  {
    if a.Str? {
      StrLeRefl(a.s);
    }
  }

  /** The elements of `s` whose key is `k`, in their order in `s`. */
  function WithKey<T>(s: seq<T>, key: T -> Key, k: Key): seq<T> {
    if |s| == 0 then []
    else (if key(s[0]) == k then [s[0]] else []) + WithKey(s[1..], key, k)
  }

  /** Keeping the first `n` elements keeps a prefix of each key's elements. */
  lemma {:induction false} WithKeyPrefix<T>(s: seq<T>, n: nat, key: T -> Key, k: Key)
    requires n <= |s|
    ensures WithKey(s[..n], key, k) <= WithKey(s, key, k)
  {
    if n > 0 {
      assert s[..n][1..] == s[1..][..n - 1];
      WithKeyPrefix(s[1..], n - 1, key, k);
    }
  }

  /** A prefix of a list with the same elements per key as `orig` keeps,
      for each key, a prefix of `orig`'s elements with that key. */
  lemma PrefixKeepsFirstOfEachKey<T>(s: seq<T>, orig: seq<T>, n: nat, key: T -> Key)
    requires n <= |s|
    requires forall k :: WithKey(s, key, k) == WithKey(orig, key, k)
    ensures forall k :: WithKey(s[..n], key, k) <= WithKey(orig, key, k)
  {
    forall k
      ensures WithKey(s[..n], key, k) <= WithKey(orig, key, k)
    {
      WithKeyPrefix(s, n, key, k);
    }
  }

  ghost predicate SortedByKey<T>(s: seq<T>, key: T -> Key, desc: bool) {
    forall i, j :: 0 <= i < j < |s| ==> InOrder(key(s[i]), key(s[j]), desc)
  }

  /** Puts `x` into the sorted `s` before the first element it may precede. */
  function Insert<T>(x: T, s: seq<T>, key: T -> Key, desc: bool): (r: seq<T>)
    requires SortedByKey(s, key, desc)
    ensures multiset(r) == multiset(s) + multiset{x}
    ensures SortedByKey(r, key, desc)
  {
    if |s| == 0 then [x]
    else if InOrder(key(x), key(s[0]), desc) then
      InsertFrontSorted(x, s, key, desc);
      [x] + s
    else
      assert SortedByKey(s[1..], key, desc) by {
        forall i, j | 0 <= i < j < |s[1..]|
          ensures InOrder(key(s[1..][i]), key(s[1..][j]), desc)
        {
          assert s[1..][i] == s[i + 1] && s[1..][j] == s[j + 1];
        }
      }
      var t := Insert(x, s[1..], key, desc);
      InOrderTotal(key(x), key(s[0]), desc);
      HeadBeforeAll(s, x, t, key, desc);
      assert s == [s[0]] + s[1..];
      [s[0]] + t
  }

  lemma InsertFrontSorted<T>(x: T, s: seq<T>, key: T -> Key, desc: bool)
    requires SortedByKey(s, key, desc) && |s| > 0
    requires InOrder(key(x), key(s[0]), desc)
    ensures SortedByKey([x] + s, key, desc)
  {
    var r := [x] + s;
    forall i, j | 0 <= i < j < |r|
      ensures InOrder(key(r[i]), key(r[j]), desc)
    {
      if i == 0 && j > 1 {
        InOrderTrans(key(x), key(s[0]), key(s[j - 1]), desc);
      }
    }
  }

  /** The head of a sorted `s` may precede every element of `t`, a
      rearrangement of its tail plus an `x` that the head may precede. */
  lemma HeadBeforeAll<T>(s: seq<T>, x: T, t: seq<T>, key: T -> Key, desc: bool)
    requires |s| > 0 && SortedByKey(s, key, desc)
    requires InOrder(key(s[0]), key(x), desc)
    requires multiset(t) == multiset(s[1..]) + multiset{x}
    requires SortedByKey(t, key, desc)
    ensures SortedByKey([s[0]] + t, key, desc)
  {
    var r := [s[0]] + t;
    forall i, j | 0 <= i < j < |r|
      ensures InOrder(key(r[i]), key(r[j]), desc)
    {
      if i == 0 {
        var y := t[j - 1];
        assert y in multiset(t);
        if y != x {
          assert y in multiset(s[1..]);
          var m :| 0 <= m < |s[1..]| && s[1..][m] == y;
          assert s[m + 1] == y;
        }
      }
    }
  }

  /** A sorted list with its head dropped is still sorted. */
  lemma SortedTail<T>(s: seq<T>, key: T -> Key, desc: bool)
    requires |s| > 0 && SortedByKey(s, key, desc)
    ensures SortedByKey(s[1..], key, desc)
  {
    forall i, j | 0 <= i < j < |s[1..]|
      ensures InOrder(key(s[1..][i]), key(s[1..][j]), desc)
    {
      assert s[1..][i] == s[i + 1] && s[1..][j] == s[j + 1];
    }
  }

  /** `Insert` goes before every element with the same key, so each key's
      elements come out as if `x` were put in front. */
  lemma {:induction false} InsertStable<T>(x: T, s: seq<T>, key: T -> Key, desc: bool, k: Key)
    requires SortedByKey(s, key, desc)
    ensures WithKey(Insert(x, s, key, desc), key, k) == WithKey([x] + s, key, k)
  {
    if |s| > 0 && !InOrder(key(x), key(s[0]), desc) {
      InOrderRefl(key(x), desc);
      SortedTail(s, key, desc);
      InsertStable(x, s[1..], key, desc, k);
      assert s == [s[0]] + s[1..];
      SwapStable(x, s[0], Insert(x, s[1..], key, desc), s[1..], key, k);
    }
  }

  /** The step of `InsertStable`: an element goes past one of another key. */
  lemma SwapStable<T>(x: T, y: T, t: seq<T>, u: seq<T>, key: T -> Key, k: Key)
    requires key(x) != key(y)
    requires WithKey(t, key, k) == WithKey([x] + u, key, k)
    ensures WithKey([y] + t, key, k) == WithKey([x] + ([y] + u), key, k)
  {
    WithKeyCons(y, t, key, k);
    WithKeyCons(x, u, key, k);
    WithKeyCons(x, [y] + u, key, k);
    WithKeyCons(y, u, key, k);
  }

  lemma WithKeyCons<T>(x: T, s: seq<T>, key: T -> Key, k: Key)
    ensures WithKey([x] + s, key, k) == (if key(x) == k then [x] else []) + WithKey(s, key, k)
  {
    assert ([x] + s)[1..] == s;
  }

  /** Insertion sort: a permutation of `s` in key order. It is stable;
      see `SortByKeyStable`. */
  function SortByKey<T>(s: seq<T>, key: T -> Key, desc: bool): (r: seq<T>)
    ensures multiset(r) == multiset(s)
    ensures |r| == |s|
    ensures SortedByKey(r, key, desc)
  {
    if |s| == 0 then []
    else
      var t := SortByKey(s[1..], key, desc);
      assert s == [s[0]] + s[1..];
      var r := Insert(s[0], t, key, desc);
      assert |r| == |multiset(r)|;
      r
  }

  /** The sort is stable: the elements with any one key come out in their
      input order. */
  lemma {:induction false} SortByKeyStable<T>(s: seq<T>, key: T -> Key, desc: bool)
    ensures forall k :: WithKey(SortByKey(s, key, desc), key, k) == WithKey(s, key, k)
  {
    if |s| > 0 {
      var t := SortByKey(s[1..], key, desc);
      SortByKeyStable(s[1..], key, desc);
      assert s == [s[0]] + s[1..];
      forall k
        ensures WithKey(SortByKey(s, key, desc), key, k) == WithKey(s, key, k)
      {
        InsertStable(s[0], t, key, desc, k);
        WithKeyCons(s[0], t, key, k);
        WithKeyCons(s[0], s[1..], key, k);
      }
    }
  }
}

=== FILE: subscriptions.dfy ===
/** The subscription store: subscribing to a plan, cancelling, renewing,
    and the two questions the pages ask of it (is it active, is it about to
    expire). Calendar arithmetic (`setMonth`, `setFullYear`) is a parameter:
    `later(t, p)` is the instant one period `p` after `t`. Times are
    milliseconds since the epoch. */
module SubscriptionContext {
  import opened Options

  datatype Period = Months(n: nat) | Years(n: nat)

  datatype Status = Active | Cancelled

  datatype Subscription = Subscription(
    plan: string,
    startDate: int,
    status: Status,
    endDate: int,
    cancelledAt: Option<int>)

  /** Milliseconds in a day. */
  const Day: int := 1000 * 60 * 60 * 24

  /** `calculateEndDate`'s choice of period: one month, three months, one
      year, and one month for any plan it does not know. */
  function PlanPeriod(plan: string): (r: Period)
    ensures plan == "quarterly" ==> r == Months(3)
    ensures plan == "yearly" ==> r == Years(1)
    ensures plan != "quarterly" && plan != "yearly" ==> r == Months(1)
  {
    match plan
    case "monthly" => Months(1)
    case "quarterly" => Months(3)
    case "yearly" => Years(1)
    case _ => Months(1)
  }

  /** `subscribe(plan)` at time `now`. */
  function Subscribe(plan: string, now: int, later: (int, Period) -> int): (r: Subscription)
    ensures r.plan == plan && r.status == Active && r.cancelledAt.None?
    ensures r.startDate == now && r.endDate == later(now, PlanPeriod(plan))
  {
    Subscription(plan, now, Active, later(now, PlanPeriod(plan)), None)
  }

  /** `cancelSubscription`: marks the subscription cancelled, keeping its
      plan and dates; nothing happens without a subscription. */
  function Cancel(sub: Option<Subscription>, now: int): (r: Option<Subscription>)
    ensures sub.None? <==> r.None?
    ensures r.Some? ==> r.value.status == Cancelled && r.value.cancelledAt == Some(now)
    ensures r.Some? ==>
      r.value.plan == sub.value.plan && r.value.startDate == sub.value.startDate
      && r.value.endDate == sub.value.endDate
  {
    match sub
    case None => None
    case Some(s) => Some(s.(status := Cancelled, cancelledAt := Some(now)))
  }

  /** `renewSubscription`: the same plan again, starting now; nothing
      happens without a subscription. */
  function Renew(sub: Option<Subscription>, now: int, later: (int, Period) -> int): (r: Option<Subscription>)
    ensures sub.None? <==> r.None?
    ensures r.Some? ==> r.value == Subscribe(sub.value.plan, now, later)
  {
    match sub
    case None => None
    case Some(s) => Some(s.(status := Active, startDate := now,
                            endDate := later(now, PlanPeriod(s.plan)), cancelledAt := None))
  }

  /** `isSubscriptionActive` at time `now`. */
  predicate IsActive(sub: Option<Subscription>, now: int) {
    sub.Some? && sub.value.status == Active && now < sub.value.endDate
  }

  /** `isSubscriptionExpiring`: active, with at most seven days (as a
      fractional count of days) left. */
  predicate IsExpiring(sub: Option<Subscription>, now: int) {
    IsActive(sub, now) && (sub.value.endDate - now) as real / (Day as real) <= 7.0
  }

  /** Expiring means active with the end at most a week (in whole
      milliseconds) away. */
  lemma ExpiringIffWithinWeek(sub: Option<Subscription>, now: int)
    ensures IsExpiring(sub, now) <==> IsActive(sub, now) && sub.value.endDate - now <= 7 * Day
  {
    if IsActive(sub, now) {
      var left := (sub.value.endDate - now) as real;
      assert left / (Day as real) <= 7.0 <==> left <= 7.0 * (Day as real);
    }
  }

  /** A cancelled subscription is not active at any time. */
  lemma CancelDeactivates(sub: Option<Subscription>, t: int, now: int)
    ensures !IsActive(Cancel(sub, t), now)
  {
  }

  /** A fresh or renewed subscription is active from its start until the end
      of its period, provided the calendar moves forward. */
  lemma SubscribeIsActive(plan: string, now: int, later: (int, Period) -> int, t: int)
    requires later(now, PlanPeriod(plan)) > now
    ensures IsActive(Some(Subscribe(plan, now, later)), t) <==> t < later(now, PlanPeriod(plan))
  {
  }

  /** Renewing after a cancellation is the same as renewing directly: no
      trace of the cancellation remains. */
  lemma RenewForgetsCancel(sub: Option<Subscription>, t: int, now: int, later: (int, Period) -> int)
    ensures Renew(Cancel(sub, t), now, later) == Renew(sub, now, later)
  {
  }
}

/** The subscriptions page: the three plans with their prices and names,
    the confirmation dialog, and the hand-over to checkout. */
module Subscriptions {
  import opened Options
  import opened SubscriptionContext

  datatype Plan = Monthly | Quarterly | Yearly

  /** The key the page passes to the store. */
  function PlanKey(p: Plan): string {
    match p
    case Monthly => "monthly"
    case Quarterly => "quarterly"
    case Yearly => "yearly"
  }

  function PlanPrice(p: Plan): real {
    match p
    case Monthly => 9.99
    case Quarterly => 24.99
    case Yearly => 89.99
  }

  function PlanName(p: Plan): string {
    match p
    case Monthly => "Mensual"
    case Quarterly => "Trimestral"
    case Yearly => "Anual"
  }

  /** The plans' periods are one, three and twelve months, and a longer plan
      costs less per month. */
  lemma PlansTable()
    ensures PlanPeriod(PlanKey(Monthly)) == Months(1)
    ensures PlanPeriod(PlanKey(Quarterly)) == Months(3)
    ensures PlanPeriod(PlanKey(Yearly)) == Years(1)
    ensures PlanPrice(Quarterly) / 3.0 < PlanPrice(Monthly)
    ensures PlanPrice(Yearly) / 12.0 < PlanPrice(Quarterly) / 3.0
  {
  }

  /** What checkout receives about the plan being bought. */
  datatype SubscriptionData = SubscriptionData(
    plan: string,
    planName: string,
    price: real,
    subscriptionId: int)

  datatype Page = Page(selected: Option<Plan>, showConfirmation: bool)

  const InitialPage := Page(None, false)

  /** `handleSubscribeClick(plan)`: opens the confirmation for that plan. */
  function SubscribeClick(p: Plan): (r: Page)
    ensures r.selected == Some(p) && r.showConfirmation
  {
    Page(Some(p), true)
  }

  /** `cancelSubscriptionProcess`: closes the dialog and forgets the plan. */
  function CancelProcess(pg: Page): (r: Page)
    ensures r == InitialPage
  {
    Page(None, false)
  }

  /** The store's subscription after confirming and, when a plan was
      selected, the data checkout is opened with. */
  datatype Confirmed = Confirmed(sub: Option<Subscription>, checkout: Option<SubscriptionData>)

  /** `confirmSubscription` at time `now`. */
  function Confirm(pg: Page, sub: Option<Subscription>, now: int, later: (int, Period) -> int): (r: Confirmed)
    ensures pg.selected.None? ==> r == Confirmed(sub, None)
    ensures pg.selected.Some? ==>
      && r.sub == Some(Subscribe(PlanKey(pg.selected.value), now, later))
      && r.checkout.Some?
      && r.checkout.value.plan == r.sub.value.plan
      && r.checkout.value.price == PlanPrice(pg.selected.value)
      && r.checkout.value.planName == PlanName(pg.selected.value)
  {
    match pg.selected
    case None => Confirmed(sub, None)
    case Some(p) =>
      var s := Subscribe(PlanKey(p), now, later);
      Confirmed(Some(s), Some(SubscriptionData(PlanKey(p), PlanName(p), PlanPrice(p), now)))
  }

  /** Clicking a plan and confirming buys that plan: checkout receives its
      key, name and price, and the store holds an active subscription to it. */
  lemma ClickThenConfirm(p: Plan, sub: Option<Subscription>, now: int, later: (int, Period) -> int)
    requires later(now, PlanPeriod(PlanKey(p))) > now
    ensures Confirm(SubscribeClick(p), sub, now, later).checkout
         == Some(SubscriptionData(PlanKey(p), PlanName(p), PlanPrice(p), now))
    ensures IsActive(Confirm(SubscribeClick(p), sub, now, later).sub, now)
  {
  }

  /** Cancelling the dialog and then confirming changes nothing. */
  lemma CancelThenConfirm(pg: Page, sub: Option<Subscription>, now: int, later: (int, Period) -> int)
    ensures Confirm(CancelProcess(pg), sub, now, later) == Confirmed(sub, None)
  {
  }
}

=== FILE: text.dfy ===
/** String helpers shared by the storefront: the JavaScript whitespace class
    (`\s` in a regular expression and what `String.prototype.trim` removes),
    `trim`, case mapping, `includes`, and the character filters and regular
    expressions the forms use. */
module Text {

  /** ECMAScript WhiteSpace and LineTerminator code points: exactly the set
      matched by `\s` and removed by `trim()`. */
  predicate IsSpace(c: char) {
    || c == '\t' || c == '\n' || c == '\U{0B}' || c == '\U{0C}' || c == '\r'
    || c == ' ' || c == '\U{A0}' || c == '\U{1680}'
    || ('\U{2000}' <= c <= '\U{200A}')
    || c == '\U{2028}' || c == '\U{2029}' || c == '\U{202F}' || c == '\U{205F}'
    || c == '\U{3000}' || c == '\U{FEFF}'
  }

  /** `\d` in a JavaScript regular expression: ASCII digits only. */
  predicate IsDigit(c: char) {
    '0' <= c <= '9'
  }

  predicate IsAsciiUpper(c: char) {
    'A' <= c <= 'Z'
  }

  predicate IsAsciiLower(c: char) {
    'a' <= c <= 'z'
  }

  predicate IsAsciiLetter(c: char) {
    IsAsciiUpper(c) || IsAsciiLower(c)
  }

  /** `[a-zA-ZáéíóúÁÉÍÓÚñÑ\s]`: a letter of a Spanish name, or whitespace. */
  predicate IsNameChar(c: char) {
    IsAsciiLetter(c) || c in "áéíóúÁÉÍÓÚñÑ" || IsSpace(c)
  }

  /** Every character of `s` is whitespace (vacuously true of ""). */
  predicate IsBlank(s: string) {
    forall i :: 0 <= i < |s| ==> IsSpace(s[i])
  }

  /** Leading whitespace removed. */
  function TrimStart(s: string): (r: string)
    ensures |r| <= |s| && r == s[|s| - |r|..]
    ensures |r| > 0 ==> !IsSpace(r[0])
    ensures forall i :: 0 <= i < |s| - |r| ==> IsSpace(s[i])
  {
    if |s| > 0 && IsSpace(s[0]) then TrimStart(s[1..]) else s
  }

  /** Trailing whitespace removed. */
  function TrimEnd(s: string): (r: string)
    ensures |r| <= |s| && r == s[..|r|]
    ensures |r| > 0 ==> !IsSpace(r[|r| - 1])
    ensures forall i :: |r| <= i < |s| ==> IsSpace(s[i])
  {
    if |s| > 0 && IsSpace(s[|s| - 1]) then TrimEnd(s[..|s| - 1]) else s
  }

  /** `String.prototype.trim`. */
  function Trim(s: string): string {
    TrimEnd(TrimStart(s))
  }

  /** The trimmed string is empty exactly when the input is all whitespace;
      this is what every `!x.trim()` check in the forms tests. */
  lemma TrimEmptyIffBlank(s: string)
    ensures Trim(s) == [] <==> IsBlank(s)
  {
    var a := TrimStart(s);
    var b := TrimEnd(a);
    if b == [] {
      assert a[|b|..] == a;
      assert s == s[..|s| - |a|] + a;
    } else {
      assert !IsSpace(b[0]);
      assert b[0] == a[0] == s[|s| - |a|];
    }
  }

  /** The trimmed string neither starts nor ends with whitespace. */
  lemma TrimHasNoOuterSpace(s: string)
    ensures |Trim(s)| > 0 ==> !IsSpace(Trim(s)[0]) && !IsSpace(Trim(s)[|Trim(s)| - 1])
  {
    var a := TrimStart(s);
    var b := TrimEnd(a);
    if |b| > 0 {
      assert b[0] == a[0];
    }
  }

  /** A string that neither starts nor ends with whitespace is its own trim,
      and so is it with one trailing space added. */
  lemma TrimOfTrimmed(s: string)
    requires |s| > 0 ==> !IsSpace(s[0]) && !IsSpace(s[|s| - 1])
    ensures Trim(s) == s
    ensures |s| > 0 ==> Trim(s + " ") == s
  {
    if |s| > 0 {
      var t := s + " ";
      assert TrimStart(t) == t;
      assert t[..|t| - 1] == s;
    }
  }

  /** `toLowerCase` on one code point, for ASCII and the Latin-1 letters
      (which include the Spanish á é í ó ú ñ ü); other code points are left
      unchanged by this model. */
  function LowerChar(c: char): char {
    if IsAsciiUpper(c) then (c as int + 32) as char
    else if '\U{C0}' <= c <= '\U{DE}' && c != '\U{D7}' then (c as int + 32) as char
    else c
  }

  /** `toUpperCase` on one code point, the inverse of `LowerChar` on the
      letters that function maps. */
  function UpperChar(c: char): char {
    if IsAsciiLower(c) then (c as int - 32) as char
    else if '\U{E0}' <= c <= '\U{FE}' && c != '\U{F7}' then (c as int - 32) as char
    else c
  }

  function Lower(s: string): (r: string)
    ensures |r| == |s|
    ensures forall i :: 0 <= i < |s| ==> r[i] == LowerChar(s[i])
  {
    seq(|s|, i requires 0 <= i < |s| => LowerChar(s[i]))
  }

  function Upper(s: string): (r: string)
    ensures |r| == |s|
    ensures forall i :: 0 <= i < |s| ==> r[i] == UpperChar(s[i])
  {
    seq(|s|, i requires 0 <= i < |s| => UpperChar(s[i]))
  }

  /** Lower-casing never leaves an ASCII capital behind. */
  lemma LowerHasNoAsciiUpper(s: string)
    ensures forall i :: 0 <= i < |Lower(s)| ==> !IsAsciiUpper(Lower(s)[i])
  {
  }

  /** `s.includes(sub)`: `sub` occurs in `s` at some position. */
  predicate Contains(s: string, sub: string)
    decreases |s|
  {
    sub <= s || (|s| > 0 && Contains(s[1..], sub))
  }

  /** `sub` occurs in `s` starting at index `i`. */
  predicate OccursAt(s: string, sub: string, i: int) {
    0 <= i <= |s| - |sub| && s[i..i + |sub|] == sub
  }

  /** An occurrence at a known index makes `Contains` true. */
  lemma {:induction false} OccursAtContains(s: string, sub: string, i: int)
    requires OccursAt(s, sub, i)
    ensures Contains(s, sub)
    decreases i
  {
    if i == 0 {
      assert s[..|sub|] == sub;
    } else {
      assert s[1..][i - 1..i - 1 + |sub|] == s[i..i + |sub|];
      OccursAtContains(s[1..], sub, i - 1);
    }
  }

  /** `Contains` agrees with the positional definition of a substring. */
  lemma {:induction false} ContainsIffAt(s: string, sub: string)
    ensures Contains(s, sub) <==> exists i :: OccursAt(s, sub, i)
    decreases |s|
  {
    if exists i :: OccursAt(s, sub, i) {
      var i :| OccursAt(s, sub, i);
      OccursAtContains(s, sub, i);
    }
    if Contains(s, sub) {
      if sub <= s {
        assert OccursAt(s, sub, 0);
      } else {
        ContainsIffAt(s[1..], sub);
        var i :| OccursAt(s[1..], sub, i);
        assert s[1..][i..i + |sub|] == s[i + 1..i + 1 + |sub|];
        assert OccursAt(s, sub, i + 1);
      }
    }
  }

  /** The empty string occurs in every string. */
  lemma ContainsEmpty(s: string)
    ensures Contains(s, "")
  {
  }

  /** `s.slice(0, n)`: the first `n` characters, or all of a shorter `s`. */
  function Take(s: string, n: nat): (r: string)
    ensures r <= s
    ensures |r| == if |s| < n then |s| else n
  {
    if |s| < n then s else s[..n]
  }

  /** `s.replace(/\D/g, '')`: the digits of `s`, in order. */
  function DigitsOf(s: string): (r: string)
    ensures |r| <= |s|
    ensures forall i :: 0 <= i < |r| ==> IsDigit(r[i])
  {
    if |s| == 0 then []
    else if IsDigit(s[0]) then [s[0]] + DigitsOf(s[1..])
    else DigitsOf(s[1..])
  }

  /** A string of digits is its own digit filter. */
  lemma {:induction false} DigitsOfDigits(s: string)
    requires forall i :: 0 <= i < |s| ==> IsDigit(s[i])
    ensures DigitsOf(s) == s
  {
    if |s| > 0 {
      DigitsOfDigits(s[1..]);
      assert s == [s[0]] + s[1..];
    }
  }

  /** Filtering digits distributes over concatenation. */
  lemma {:induction false} DigitsOfAppend(a: string, b: string)
    ensures DigitsOf(a + b) == DigitsOf(a) + DigitsOf(b)
  {
    if |a| > 0 {
      assert (a + b)[1..] == a[1..] + b;
      DigitsOfAppend(a[1..], b);
    } else {
      assert a + b == b;
    }
  }

  /** `s.replace(/\s/g, '')`: `s` without its whitespace. */
  function WithoutSpaces(s: string): (r: string)
    ensures |r| <= |s|
    ensures forall i :: 0 <= i < |r| ==> !IsSpace(r[i])
  {
    if |s| == 0 then []
    else if IsSpace(s[0]) then WithoutSpaces(s[1..])
    else [s[0]] + WithoutSpaces(s[1..])
  }

  /** A string with no whitespace is unchanged by `WithoutSpaces`. */
  lemma {:induction false} WithoutSpacesOfSolid(s: string)
    requires forall i :: 0 <= i < |s| ==> !IsSpace(s[i])
    ensures WithoutSpaces(s) == s
  {
    if |s| > 0 {
      WithoutSpacesOfSolid(s[1..]);
      assert s == [s[0]] + s[1..];
    }
  }

  lemma {:induction false} WithoutSpacesAppend(a: string, b: string)
    ensures WithoutSpaces(a + b) == WithoutSpaces(a) + WithoutSpaces(b)
  {
    if |a| > 0 {
      assert (a + b)[1..] == a[1..] + b;
      WithoutSpacesAppend(a[1..], b);
    } else {
      assert a + b == b;
    }
  }

  /** `/^[^\s@]+@[^\s@]+\.[^\s@]+$/`: no whitespace anywhere, a single '@'
      with something before it, and after it some '.' that has at least one
      character on each side. */
  predicate EmailShape(s: string) {
    && (forall j :: 0 <= j < |s| ==> !IsSpace(s[j]))
    && exists at, dot | 0 < at < |s| && 0 < dot < |s| ::
         && at + 1 < dot && dot + 1 < |s|
         && s[at] == '@' && s[dot] == '.'
         && (forall j :: 0 <= j < |s| && s[j] == '@' ==> j == at)
  }

  /** `s.split('@')[0]`: everything before the first '@'. */
  function BeforeFirstAt(s: string): (r: string)
    ensures r <= s
    ensures '@' !in r
    ensures |r| < |s| ==> s[|r|] == '@'
  {
    if |s| == 0 || s[0] == '@' then []
    else [s[0]] + BeforeFirstAt(s[1..])
  }
}

=== FILE: validation.dfy ===
/** The storefront-wide input validation: every text input and text area is
    given a validation class, guessed from its attributes; typing that would
    leave a value outside the class is refused, and a value that got there
    anyway is reverted to the last valid one. A hook offers the same check
    to one controlled field. */
module ValidationContext {
  import opened Options
  import opened Text
  import opened Regex

  /** The validation classes, `InputTypes`. */
  datatype Kind = TextKind | Numeric | Alphanumeric | EmailKind | Phone | Decimal | Custom | NoneKind

  function Name(k: Kind): string {
    match k
    case TextKind => "text"
    case Numeric => "numeric"
    case Alphanumeric => "alphanumeric"
    case EmailKind => "email"
    case Phone => "phone"
    case Decimal => "decimal"
    case Custom => "custom"
    case NoneKind => "none"
  }

  /** `patterns[k]`: every class but `Custom` has a pattern. */
  function PatternOf(k: Kind): (r: Option<seq<Piece>>)
    ensures r.None? <==> k == Custom
  {
    match k
    case TextKind => Some(TextPattern)
    case Numeric => Some(NumericPattern)
    case Alphanumeric => Some(AlphanumericPattern)
    case EmailKind => Some(EmailPattern)
    case Phone => Some(PhonePattern)
    case Decimal => Some(DecimalPattern)
    case Custom => None
    case NoneKind => Some(AnyLinePattern)
  }

  /** The class a `patterns` key names: `None` for any other string,
      "custom" included. */
  function Named(s: string): (r: Option<Kind>)
    ensures r.Some? ==> Name(r.value) == s && r.value != Custom
    ensures forall k :: Name(k) == s && k != Custom ==> r == Some(k)
  {
    if s == "text" then Some(TextKind)
    else if s == "numeric" then Some(Numeric)
    else if s == "alphanumeric" then Some(Alphanumeric)
    else if s == "email" then Some(EmailKind)
    else if s == "phone" then Some(Phone)
    else if s == "decimal" then Some(Decimal)
    else if s == "none" then Some(NoneKind)
    else None
  }

  /** `autoValidationMap`: the class an HTML input type implies. */
  function AutoMap(htmlType: string): Option<Kind> {
    if htmlType == "text" || htmlType == "password" || htmlType == "url" || htmlType == "search" then Some(Alphanumeric)
    else if htmlType == "number" then Some(Numeric)
    else if htmlType == "tel" then Some(Phone)
    else if htmlType == "email" then Some(NoneKind)
    else None
  }

  /** What the handlers read from an element: its tag, `type`, `name`,
      `placeholder` and `id` (absent ones as ""), its `data-validation`
      attribute, and whether it carries `data-no-validation`. */
  datatype Input = Input(tag: string, htmlType: string, name: string, placeholder: string, id: string,
                         dataValidation: Option<string>, noValidation: bool)

  /** `input.type || 'text'`. */
  function HtmlType(i: Input): string {
    if i.htmlType == "" then "text" else i.htmlType
  }

  predicate Mentions(i: Input, word: string) {
    Contains(Lower(i.name), word) || Contains(Lower(i.placeholder), word) || Contains(Lower(i.id), word)
  }

  /** The first rule: e-mail fields are never validated. */
  predicate EmailLike(i: Input) {
    HtmlType(i) == "email" || Mentions(i, "email")
  }

  /** The class `data-validation` asks for, when it names a pattern. */
  function Requested(i: Input): Option<Kind> {
    if i.dataValidation.Some? then Named(i.dataValidation.value) else None
  }

  predicate NameLike(i: Input) {
    Mentions(i, "name") || Mentions(i, "nombre")
  }

  predicate PhoneLike(i: Input) {
    var n := Lower(i.name);
    Contains(n, "phone") || Contains(n, "tel") || Contains(n, "telefono")
    || Contains(Lower(i.placeholder), "tel") || Contains(Lower(i.placeholder), "phone")
    || Contains(Lower(i.id), "phone") || Contains(Lower(i.id), "tel")
  }

  predicate NumberLike(i: Input) {
    var n := Lower(i.name);
    Contains(n, "age") || Contains(n, "edad") || Contains(n, "años")
    || Contains(n, "number") || Contains(n, "numero") || Contains(n, "cantidad")
  }

  /** `detectValidationType(input)`: the first rule that applies, in order —
      e-mail exclusion, `data-validation`, the input type, the name,
      placeholder or id heuristics — and alphanumeric by default. */
  function Detect(i: Input): (k: Kind)
    ensures k != Custom
    ensures EmailLike(i) ==> k == NoneKind
    ensures !EmailLike(i) && Requested(i).Some? ==> k == Requested(i).value
    ensures !EmailLike(i) && Requested(i).None? && AutoMap(HtmlType(i)).Some? ==> k == AutoMap(HtmlType(i)).value
    ensures k == TextKind ==> NameLike(i) || Requested(i) == Some(TextKind)
    ensures k == Phone ==> PhoneLike(i) || Requested(i) == Some(Phone) || HtmlType(i) == "tel"
    ensures !EmailLike(i) && Requested(i).None? && AutoMap(HtmlType(i)).None? ==>
      && (NameLike(i) ==> k == TextKind)
      && (!NameLike(i) && PhoneLike(i) ==> k == Phone)
      && (!NameLike(i) && !PhoneLike(i) && NumberLike(i) ==> k == Numeric)
      && (!NameLike(i) && !PhoneLike(i) && !NumberLike(i) ==> k == Alphanumeric)
  {
    if EmailLike(i) then NoneKind
    else if Requested(i).Some? then Requested(i).value
    else if AutoMap(HtmlType(i)).Some? then AutoMap(HtmlType(i)).value
    else if NameLike(i) then TextKind
    else if PhoneLike(i) then Phone
    else if NumberLike(i) then Numeric
    else Alphanumeric
  }

  /** An input goes unvalidated exactly when it looks like an e-mail field,
      has type "email", or its `data-validation` asks for "none". */
  lemma DetectNoneIff(i: Input)
    ensures Detect(i) == NoneKind <==> EmailLike(i) || i.dataValidation == Some("none")
  {
  }

  /** `data-validation="custom"`, or any name that is no pattern, is
      ignored: the input is classed as if the attribute were absent. */
  lemma UnknownRequestIgnored(i: Input)
    requires i.dataValidation.Some? && Named(i.dataValidation.value).None?
    ensures Detect(i) == Detect(i.(dataValidation := None))
  {
  }

  /** The name, placeholder and id heuristics only decide for input types
      outside the automatic map: a text input named "nombre" is
      alphanumeric, not a letters-only field. */
  lemma HeuristicsOnlyForOtherTypes(i: Input)
    requires !EmailLike(i) && Requested(i).None? && HtmlType(i) in ["text", "password", "url", "search"]
    ensures Detect(i) == Alphanumeric
  {
  }

  /** `validateInputValue(value, type)`: any value passes for "none" or a
      name with no pattern; otherwise the named pattern decides. */
  function ValidateValue(value: string, kindName: string): (ok: bool)
    ensures Named(kindName).None? || kindName == "none" ==> ok
    ensures Named(kindName).Some? && kindName != "none" ==> (ok <==> Test(PatternOf(Named(kindName).value).value, value))
  {
    var k := Named(kindName);
    if k.None? || kindName == "none" then true
    else Test(PatternOf(k.value).value, value)
  }

  /** The empty value passes every class except e-mail. */
  lemma EmptyValuePasses(kindName: string)
    ensures ValidateValue("", kindName) <==> kindName != "email"
  {
    EmptyString();
  }

  /** What a numeric, phone or decimal field may hold. */
  lemma ClassesAccept(value: string)
    ensures ValidateValue(value, "numeric") <==> forall j :: 0 <= j < |value| ==> IsDigit(value[j])
    ensures ValidateValue(value, "phone") <==> forall j :: 0 <= j < |value| ==> In(PhoneChars, value[j])
    ensures ValidateValue(value, "decimal") <==> DecimalChars(value) && AtMostOneDot(value)
  {
    ClassPattern(Digit, value);
    ClassPattern(PhoneChars, value);
    DecimalIff(value);
  }

  /** An element's value and its `data-last-valid` attribute. */
  datatype Field = Field(value: string, lastValid: Option<string>)

  /** Whether the global handlers look at the element at all. */
  predicate Watched(i: Input) {
    (i.tag == "INPUT" || i.tag == "TEXTAREA") && !i.noValidation && Detect(i) != NoneKind
  }

  /** The global `input` handler: a failing value is replaced by the last
      valid one ("" when none is recorded); a passing one is recorded. */
  function HandleInput(i: Input, f: Field): (r: Field)
    ensures !Watched(i) ==> r == f
    ensures Watched(i) && !ValidateValue(f.value, Name(Detect(i))) ==>
      r == f.(value := f.lastValid.GetOr(""))
    ensures Watched(i) && ValidateValue(f.value, Name(Detect(i))) ==> r == Field(f.value, Some(f.value))
  {
    if !Watched(i) then f
    else if !ValidateValue(f.value, Name(Detect(i))) then f.(value := if f.lastValid.None? || f.lastValid.value == "" then "" else f.lastValid.value)
    else f.(lastValid := Some(f.value))
  }

  /** The last valid value passes the element's class. */
  predicate LastValidPasses(i: Input, f: Field) {
    ValidateValue(f.lastValid.GetOr(""), Name(Detect(i)))
  }

  /** Outside e-mail-class fields, a watched element holds a value of its
      class after every input event, and its record stays valid. */
  lemma InputKeepsValid(i: Input, f: Field)
    requires Watched(i) && Detect(i) != EmailKind && (f.lastValid.None? || LastValidPasses(i, f))
    ensures ValidateValue(HandleInput(i, f).value, Name(Detect(i)))
    ensures LastValidPasses(i, HandleInput(i, f))
  {
    EmptyValuePasses(Name(Detect(i)));
  }

  /** The global `beforeinput` handler: whether typing `data` at the end of
      the value is refused. */
  predicate Blocked(i: Input, value: string, data: Option<string>) {
    Watched(i) && !ValidateValue(value + data.GetOr(""), Name(Detect(i)))
  }

  /** Typing that is not refused is then recorded as the last valid value,
      and typing that is refused would have been reverted. */
  lemma BeforeInputAgrees(i: Input, f: Field, data: Option<string>)
    requires Watched(i)
    ensures var typed := f.value + data.GetOr("");
      !Blocked(i, f.value, data) ==> HandleInput(i, f.(value := typed)) == Field(typed, Some(typed))
    ensures var typed := f.value + data.GetOr("");
      Blocked(i, f.value, data) ==> HandleInput(i, f.(value := typed)).value == f.lastValid.GetOr("")
  {
  }

  /** A field whose `data-validation` is "email" refuses every single
      keystroke into an empty value. */
  lemma EmailClassRefusesTyping(i: Input, ch: char)
    requires Watched(i) && Detect(i) == EmailKind
    ensures Blocked(i, "", Some([ch]))
  {
    assert "" + [ch] == [ch];
    assert !MatchFrom(EmailPattern, [ch], 0) by {
      EmailIff([ch]);
    }
  }

  /** The state of `useInputValidation`. */
  datatype Hook = Hook(value: string, error: string)

  /** `customPattern || patterns[type]`: `None` when the class has no
      pattern and none is supplied, where `test` would throw. */
  function Matcher(k: Kind, custom: Option<string -> bool>): (m: Option<string -> bool>)
    ensures custom.Some? ==> m == custom
    ensures custom.None? ==> (m.None? <==> k == Custom)
  {
    if custom.Some? then custom
    else match PatternOf(k)
      case None => None
      case Some(p) => Some(s => Test(p, s))
  }

  /** `onChange`: a matching or empty value is taken and the error cleared;
      anything else is ignored. `None` is the throw of a missing pattern. */
  function OnChange(h: Hook, m: Option<string -> bool>, v: string): (r: Option<Hook>)
    ensures m.None? <==> r.None?
    ensures m.Some? && (m.value(v) || v == "") ==> r == Some(Hook(v, ""))
    ensures m.Some? && !m.value(v) && v != "" ==> r == Some(h)
  {
    match m
    case None => None
    case Some(test) => if test(v) || v == "" then Some(Hook(v, "")) else Some(h)
  }

  datatype Checked = Checked(hook: Hook, ok: bool)

  /** `validate()`: a blank value is required unless the class is numeric;
      then the pattern decides. */
  function Validate(h: Hook, k: Kind, m: Option<string -> bool>): (r: Option<Checked>)
    ensures IsBlank(h.value) && k != Numeric ==> r == Some(Checked(h.(error := "Este campo es requerido"), false))
    ensures !(IsBlank(h.value) && k != Numeric) ==> (r.None? <==> m.None?)
    ensures !(IsBlank(h.value) && k != Numeric) && m.Some? ==>
      r == Some(if m.value(h.value) then Checked(h.(error := ""), true) else Checked(h.(error := "Formato inválido"), false))
  {
    TrimEmptyIffBlank(h.value);
    if Trim(h.value) == "" && k != Numeric then Some(Checked(h.(error := "Este campo es requerido"), false))
    else match m
      case None => None
      case Some(test) =>
        if !test(h.value) then Some(Checked(h.(error := "Formato inválido"), false))
        else Some(Checked(h.(error := ""), true))
  }

  /** The hook takes a matching or empty value; taken, a value that is not
      blank then validates, and a blank one fails unless the field is
      numeric. */
  lemma ChangeThenValidate(h: Hook, k: Kind, m: Option<string -> bool>, v: string)
    requires m.Some? && (m.value(v) || v == "")
    ensures OnChange(h, m, v) == Some(Hook(v, ""))
    ensures Validate(Hook(v, ""), k, m).Some?
    ensures !IsBlank(v) ==> Validate(Hook(v, ""), k, m).value.ok
    ensures IsBlank(v) && k != Numeric ==> !Validate(Hook(v, ""), k, m).value.ok
  {
    if !IsBlank(v) {
      assert v != "";
    }
  }

  /** A numeric field may be left empty: validation passes. */
  lemma EmptyNumericValidates(h: Hook)
    requires h.value == ""
    ensures Validate(h, Numeric, Matcher(Numeric, None)) == Some(Checked(Hook("", ""), true))
  {
    EmptyString();
  }

  /** `getErrorMessage(type)`. */
  function ErrorMessage(kindName: string): (r: string)
    ensures r == "Formato inválido" <==> Named(kindName).None? || kindName == "none"
    ensures kindName == "text" ==> r == "Solo se permiten letras y espacios"
    ensures kindName == "numeric" ==> r == "Solo se permiten números"
    ensures kindName == "alphanumeric" ==> r == "Solo se permiten letras y números"
    ensures kindName == "email" ==> r == "Formato de email inválido"
    ensures kindName == "phone" ==> r == "Formato de teléfono inválido"
    ensures kindName == "decimal" ==> r == "Solo se permiten números decimales"
  {
    if kindName == "text" then "Solo se permiten letras y espacios"
    else if kindName == "numeric" then "Solo se permiten números"
    else if kindName == "alphanumeric" then "Solo se permiten letras y números"
    else if kindName == "email" then "Formato de email inválido"
    else if kindName == "phone" then "Formato de teléfono inválido"
    else if kindName == "decimal" then "Solo se permiten números decimales"
    else "Formato inválido"
  }
}
